=== FILE: README.md ===
# Device identity generator and `dg` directive mapper, in Dafny

This project models the core of a tool that fabricates Android device identities
and turns them into `dg config` / `dg geo fix` directives for a device-spoofing
agent. The model covers these parts:

- **Reference registries.**
  - `config/carrier_info.py`: region → MCC, carrier → MNC list, and phone prefixes.
  - `config/device_models.py`: brand → model → TAC.
  - Their lookup functions.
- **The Luhn check digit.**
  - `utils/checksum_utils.py`.
  - The generator's private copy of it.
- **The identity generator** (`generator/device_info_generator.py`). Every random
  draw and every Faker value becomes a parameter.
- **The `DeviceInfo` record** (`core/models.py`).
- **Both copies of the directive mapper**, each with its batch method:
  - `executor/dg_command_generator.py`, which infers the brand and looks up the
    country code inline;
  - `executors/dg_command_generator.py`, which uses helper methods.

The mapper is modelled in two steps. It first chooses a list of *guarded appends*:
one slot for each of the 21 `commands.append(...)` calls, in source order, each
holding its directive or nothing. Then it renders the directives whose guard held.

Every directive template begins with a fixed head. No head is a prefix of another
unless both heads belong to the same kind of directive. So "the command starting
with `dg config -a sim.msisdn=`" names exactly one append, and the properties
below can be stated about the emitted text itself.

The inline copy is written as methods that build the list step by step. The helper
copy is a pure function. `DgInline.GenerateCommands` proves that the two produce
the same list for every record and every set of draws.

Modules, one per file:

- `Text`: digit strings, decimal and hex rendering, substring search, and the
  split at the first space.
- `Assoc`: Python dicts as insertion-ordered association lists.
- `Models`: the `DeviceInfo` record. Floats are carried as their `str()` text.
- `Checksum`: the Luhn check digit.
- `CarrierInfo`: the region registry.
- `DeviceModels`: the device catalogue.
- `Generator`: the identity generator.
- `DgDirectives`: directive kinds, templates, heads, and the lookup tables.
- `DgHelpers`: the helper mapper copy.
- `DgInline`: the inline mapper copy.
- `DgProperties`: what the emitted command lists look like.

## Model

| member | source | states |
|---|---|---|
| Checksum.LuhnCheckDigit | src/utils/checksum_utils.py:6-24 | The check digit is a decimal digit. Adding it to the payload's Luhn total gives a multiple of 10. It is the only digit that does so. |
| Checksum.CalculateLuhnCheckDigit | src/utils/checksum_utils.py:16-24 | The right-to-left loop, which doubles the digits at even distance and subtracts 9 above 9, returns exactly the Luhn check digit of the payload. |
| Checksum.CheckDigitValidates | src/utils/checksum_utils.py:6-24 | Appending a digit to a payload gives a Luhn-valid number if and only if that digit is the payload's check digit. |
| Checksum.EmptyPayloadCheckDigit | src/utils/checksum_utils.py:16-24 | An empty payload has check digit '0'. |
| Checksum.Contribution | src/utils/checksum_utils.py:18-23 | One digit's contribution stays below 10. At odd distance it is the digit itself; at even distance it is double the digit, minus 9 when the double exceeds 9. |
| Checksum.ShiftParity | src/utils/checksum_utils.py:17-19 | Only the parity of a digit's distance from the right end affects the total. |
| Checksum.AppendDigit | src/utils/checksum_utils.py:17-23 | Appending a digit moves every earlier digit one place further from the right. The new digit is weighted at distance 0. |
| Checksum.TopUpValue | src/utils/checksum_utils.py:24 | `(10 - total % 10) % 10` is the one value below 10 that brings the total to a multiple of 10. |
| Assoc.Get | src/config/carrier_info.py:61-64 | `dict.get`: the result is present exactly when the key is a key of the dict. A present result is stored under that key. |
| Assoc.GetUnique | src/config/carrier_info.py:61-64 | With unique keys, a lookup finds the value stored at any index that holds the key. |
| CarrierInfo.GetCarriersByRegion | src/config/carrier_info.py:61-64 | An unknown region has no carriers. A known region's carriers are its MNC map's keys, in insertion order. |
| CarrierInfo.GetMccByRegion | src/config/carrier_info.py:67-70 | The result is absent exactly for an unknown region. Otherwise it is that region's MCC. |
| CarrierInfo.GetMncByCarrier | src/config/carrier_info.py:73-76 | A carrier the region does not list gets []. A listed carrier gets its registered MNC list. |
| CarrierInfo.GetPhonePrefixByRegion | src/config/carrier_info.py:79-82 | An unknown region gets []. A known region gets its prefix list. |
| CarrierInfo.CarrierInfoTableWellFormed | src/config/carrier_info.py:4-58 | The shipped registry is well formed and fully populated. Region names are unique, carrier names are unique within a region, MCCs have 3 digits, MNCs have 2 or 3 digits, prefixes are digit strings, and every list is non-empty. |
| CarrierInfo.MncLookupValid | src/config/carrier_info.py:73-76 | In a well-formed registry, every MNC a lookup returns has 2 or 3 digits. |
| CarrierInfo.MccLookupValid | src/config/carrier_info.py:67-70 | In a well-formed registry, a known region's MCC has 3 digits. |
| CarrierInfo.PrefixLookupValid | src/config/carrier_info.py:79-82 | In a well-formed registry, every prefix a lookup returns is a digit string. |
| CarrierInfo.PopulatedLookups | src/config/carrier_info.py:61-82 | In a populated registry, a known region has carriers and prefixes, and each of its carriers has MNCs. |
| DeviceModels.BrandEntries | src/config/device_models.py:40-45 | A brand's rows are its models, in insertion order, each with its TAC. |
| DeviceModels.EntryOrigin | src/config/device_models.py:5-24 | Every catalogue row comes from some brand and one of that brand's models. |
| DeviceModels.EntryCoverage | src/config/device_models.py:5-24 | Every model of every brand appears as a catalogue row. |
| DeviceModels.GetModelsByBrand | src/config/device_models.py:27-28 | An unknown brand gets an empty map. A known brand gets its model map. |
| DeviceModels.GetAllBrands | src/config/device_models.py:31-32 | The brands, in insertion order, one per entry. |
| DeviceModels.GetTacByBrandAndModel | src/config/device_models.py:35-37 | An unknown brand gets no TAC. A TAC that is found is a catalogue row. In a well-formed catalogue, every listed (brand, model) gets its own TAC. |
| DeviceModels.GetAllModels | src/config/device_models.py:40-45 | One "brand model" label per catalogue row, in row order. |
| DeviceModels.BrandLabels | src/config/device_models.py:42-44 | The inner loop produces one "brand model" label per model of the brand. |
| DeviceModels.GetAllTacs | src/config/device_models.py:58-62 | One TAC per catalogue row, in row order. |
| DeviceModels.GetTacByFullModel | src/config/device_models.py:48-55 | A label without a space (the empty label included) gets no TAC. |
| DeviceModels.FullModelSplitsAtFirstSpace | src/config/device_models.py:48-55 | For a brand without spaces, looking up "brand model" is looking up that brand and that model, even when the model itself contains spaces. |
| DeviceModels.AllModelsRoundTrip | src/config/device_models.py:40-62 | Round trip: in a well-formed catalogue, looking up the k-th label listed by `get_all_models` yields the k-th TAC listed by `get_all_tacs`. |
| DeviceModels.AllTacsComplete | src/config/device_models.py:58-62 | Every model's TAC is among all TACs. |
| DeviceModels.AllTacsValid | src/config/device_models.py:58-62 | In a well-formed catalogue every listed TAC has eight digits. |
| DeviceModels.DeviceModelsTableWellFormed | src/config/device_models.py:5-24 | The shipped catalogue is well formed. Brands are unique and contain no space, model names are unique within a brand, and every TAC has eight digits. |
| Text.SplitFirstSpace | src/config/device_models.py:51-54 | `split(" ", 1)`: one part exactly when the string contains no space. Otherwise two parts, with no space in the first, that joined by a space give back the string. |
| Text.NatToString | src/generator/device_info_generator.py:211-216 | Python `str()` of a natural number: a digit string without leading zeros that parses back to the number. |
| Text.ZeroPad | src/generator/device_info_generator.py:163 | `f"{n:0wd}"`: a digit string that parses back to n, with exactly w characters when n fits. |
| Generator.GenerateDeviceInfo | src/generator/device_info_generator.py:22-79 | The record's country and region are the same registry region. The IP address, coordinates and sensor readings are the drawn ones, and the sensors are present. The MAC address has the colon-hex layout, the Android ID has 16 characters and the SSID 9. The system version and network type come from their fixed lists. |
| Generator.GenerateModel | src/generator/device_info_generator.py:81-90 | A model hint that is set is kept. Otherwise the result is "brand model" for the drawn brand and model, which is a catalogue label. |
| Generator.GenerateLocation | src/generator/device_info_generator.py:92-100 | Country and region are the same known region. It is the hint when the hint names a known region, and otherwise the drawn one. |
| Generator.GenerateCarrier | src/generator/device_info_generator.py:102-112 | A carrier hint is kept when the region lists it. Otherwise the drawn carrier of the region is used, or "Unknown" when the region has no carriers. |
| Generator.GeneratePhoneNumber | src/generator/device_info_generator.py:114-140 | A region without prefixes, or outside the four formats, gets Faker's number. Otherwise the number is "+86" plus a prefix plus 8 digits for China; "+852" plus a prefix plus 7 digits for Hong Kong and Macao; "+886" plus a prefix plus 8 digits for Taiwan; and "+1" plus a prefix plus 7 digits for the USA. The prefix is the drawn one, `prefixes[prefixPick]`, and the i-th digit after it reads back as the i-th `randint(0, 9)` draw. |
| Generator.Dial | src/generator/device_info_generator.py:125-137 | The number is the calling code, then the prefix, then the drawn digits. |
| Generator.ShippedPhoneNumbers | src/generator/device_info_generator.py:114-140 | With the shipped registry, numbers have these national lengths: 11 digits after +86, 8 after +852, 10 after +886 and 10 after +1. |
| Generator.ImeiLookupKey | src/generator/device_info_generator.py:144-150 | A label with a space splits at its first space into brand and model. A label without a space is used as both. |
| Generator.SelectTac | src/generator/device_info_generator.py:152-160 | The registered TAC is used when there is one. Otherwise the drawn entry of all TACs is used, or "12345678" when the catalogue is empty. |
| Generator.SelectTacListed | src/generator/device_info_generator.py:152-160 | The chosen TAC is one the catalogue lists, except the fallback for an empty catalogue. |
| Generator.SelectTacValid | src/generator/device_info_generator.py:152-160 | In a well-formed catalogue the chosen TAC has eight digits. |
| Generator.CalculateLuhnCheckDigit | src/generator/device_info_generator.py:171-181 | The generator's private copy gives the same digit as the shared Luhn routine. |
| Generator.ReversedTotalMatches | src/generator/device_info_generator.py:173-180 | Summing over the reversed payload gives the same total as weighting each digit by its distance from the right. |
| Generator.GenerateImei | src/generator/device_info_generator.py:142-169 | The IMEI is the TAC, then the serial zero-padded to 6 digits, then the Luhn check digit of those digits. |
| Generator.ImeiLayoutHolds | src/generator/device_info_generator.py:162-169 | TAC plus 6-digit serial plus its check digit is a Luhn-valid number with that TAC and that serial. |
| Generator.GeneratedImei | src/generator/device_info_generator.py:142-169 | With a well-formed catalogue the IMEI has 15 digits and is Luhn-valid. When the model has a registered TAC, the IMEI starts with it. |
| Generator.ImsiMcc | src/generator/device_info_generator.py:185-187 | The region's registered MCC when it is non-empty, and "000" when the region is unknown or its MCC is empty. |
| Generator.ImsiMnc | src/generator/device_info_generator.py:189-194 | When the carrier has registered MNCs, the drawn one of them. When it has none, a freshly drawn code of 3 or 2 digits. |
| Generator.GenerateImsi | src/generator/device_info_generator.py:183-200 | The IMSI is MCC, then MNC, then the MSIN, whose i-th character reads back as the i-th `randint(0, 9)` draw. It has 15 characters whenever MCC and MNC fit in 15, and is all digits when they are. |
| Generator.GeneratedImsi | src/generator/device_info_generator.py:183-200 | With a well-formed registry the IMSI has 15 digits. It starts with the region's registered MCC, followed by one of the carrier's MNCs when the carrier has any. After the MCC and the two- or three-digit MNC, its digits read back as the MSIN draws. |
| Generator.ImsiMsin | src/generator/device_info_generator.py:183-200 | With a well-formed registry the MSIN starts at character 5 or 6, after a three-digit MCC and a two- or three-digit MNC, and reads back as the drawn digits. |
| Generator.ImsiMncValid | src/generator/device_info_generator.py:189-194 | With a well-formed registry the MNC has 2 or 3 digits, whether registered or drawn. |
| Generator.GenerateMacAddress | src/generator/device_info_generator.py:202-205 | Six lower-case two-digit hex octets joined by ':'. They parse back to the drawn bytes. |
| Generator.JoinOctets | src/generator/device_info_generator.py:205 | Joining octets with ':' gives 3n-1 characters that parse back to the octets. |
| Generator.GenerateAndroidId | src/generator/device_info_generator.py:207-209 | Sixteen lower-case hex characters; the i-th is the character of `0123456789abcdef` at the i-th drawn index. |
| Generator.GenerateAppVersion | src/generator/device_info_generator.py:211-216 | Three non-empty digit strings without leading zeros joined by '.', which parse back to major, minor and patch, so the text is fixed by the three numbers. |
| Generator.GenerateSystemVersion | src/generator/device_info_generator.py:218-221 | One of the five Android release labels. |
| Generator.GenerateSsid | src/generator/device_info_generator.py:223-225 | "WiFi_" followed by four digits that parse back to the drawn number. |
| Generator.GenerateNetworkType | src/generator/device_info_generator.py:231-234 | One of the five access technologies. |
| Generator.GeneratedIdentity | src/generator/device_info_generator.py:22-79 | A model hint that is set is kept; otherwise the model is a catalogue label. Country equals region and is a known region, namely the hint when it names one. The carrier belongs to that region, or is "Unknown" when the region has no carriers. The IMEI is Luhn-valid, and the IMSI starts with the region's MCC. |
| Generator.GeneratedContact | src/generator/device_info_generator.py:50-64 | The record's phone number has its own region's format: Faker's number when the region has no prefixes; otherwise "+86", a region prefix and 8 digits for China, "+852", a prefix and 7 digits for Hong Kong and Macao, "+886", a prefix and 8 digits for Taiwan, and "+1", a prefix and 7 digits for the USA; in each case the prefix is the drawn one and the digits read back as the drawn tail. The app version is the one rendered from the drawn major, minor and patch. |
| Generator.GeneratedAuxiliaries | src/generator/device_info_generator.py:59-77 | The MAC parses back to its octets. The Android ID has 16 characters, the i-th being the character of `0123456789abcdef` at the i-th drawn index. The system version and network type are listed values. The SSID is "WiFi_" plus four characters. The IP address, sensors and coordinates are the drawn values. |
| DgDirectives.NetTypeLookup | src/executors/dg_command_generator.py:76-86 | The net-type chain is `net_type_map.get(t, "wifi")`: 2G→gsm, 3G→cdma, 4G→lte, 5G→nr, and anything else wifi. |
| DgDirectives.SerialNumber | src/executors/dg_command_generator.py:42 | The serial number is 16 upper-case hex characters; the i-th is the character of `0123456789ABCDEF` at the i-th drawn index. |
| DgDirectives.IccidTail | src/executors/dg_command_generator.py:68 | The ICCID tail is 10 decimal digits, the i-th reading back as the i-th drawn digit. |
| DgDirectives.SimStateLine | src/executors/dg_command_generator.py:59 | A rendered line starts with "dg config -a sim.state=1 -a sim.numeric=" exactly when it is a SIM-state directive. |
| DgDirectives.SimMsisdnLine | src/executors/dg_command_generator.py:72-73 | A rendered line starts with "dg config -a sim.msisdn=" exactly when it is an msisdn directive. |
| DgDirectives.SimNetTypeLine | src/executors/dg_command_generator.py:86 | A rendered line starts with "dg config -a sim.netType=" exactly when it is a netType directive. |
| DgDirectives.SimCountryLine | src/executors/dg_command_generator.py:91 | A rendered line starts with "dg config -a sim.country=" exactly when it is a country directive. |
| DgDirectives.GeoFixLine | src/executors/dg_command_generator.py:110 | A rendered line starts with "dg geo fix " exactly when it is a location directive. |
| DgDirectives.CompactIncreasing | src/executors/dg_command_generator.py:16-129 | When each append can emit only its own kind of directive, the emitted directives come in strictly increasing template position. |
| DgDirectives.KindEmitted | src/executors/dg_command_generator.py:16-129 | Under the same condition, a directive of a given kind is emitted exactly when that kind's append fires. |
| DgDirectives.LineOfKindUnique | src/executors/dg_command_generator.py:16-129 | At most one emitted line starts with a given kind's head. |
| DgHelpers.InferBrandFromModel | src/executors/dg_command_generator.py:131-146 | The inferred brand is one of samsung, apple, huawei, xiaomi, oppo and vivo, or "Unknown". |
| DgHelpers.InferBrandFirstMatch | src/executors/dg_command_generator.py:131-146 | The if/elif chain is first-match-wins over the six needle rules (Samsung/SM-, iPhone, Huawei/ELE-/VOG-, Xiaomi/POCO/Redmi, OPPO/CPH, Vivo/V20), falling back to "Unknown". |
| DgHelpers.FirstRule | src/executors/dg_command_generator.py:133-146 | The matching rule is the first one whose needles occur in the model: no earlier rule matches. |
| DgHelpers.GenerateOperatorNames | src/executors/dg_command_generator.py:148-173 | All three names equal the carrier exactly when the carrier is not Verizon, does not contain "AT&T", and is not a "China" carrier naming Mobile, Unicom or Telecom. |
| DgHelpers.OperatorNamesRenamed | src/executors/dg_command_generator.py:148-173 | The SPN stays the carrier unless the carrier contains "AT&T". Any carrier other than Verizon that contains "AT&T" gets (AT&T Mobility, AT&T Mobility, AT&T). For a "China" carrier the rules are tried in order: Mobile gives (China Mobile, CMCC), otherwise Unicom gives (China Unicom, CU), otherwise Telecom gives (China Telecom, CT). |
| DgHelpers.ShippedOperatorNames | src/executors/dg_command_generator.py:155-171 | Verizon → (Verizon, Verizon Wireless, Verizon). AT&T → (AT&T Mobility, AT&T Mobility, AT&T). China Mobile → (China Mobile, China Mobile, CMCC). China Unicom → (China Unicom, China Unicom, CU). China Telecom → (China Telecom, China Telecom, CT). |
| DgHelpers.GetCountryCode | src/executors/dg_command_generator.py:175-185 | A two-letter code, which is "US" exactly for the countries other than China, Hong Kong, Macao and Taiwan. |
| DgHelpers.CountryCodeLookup | src/executors/dg_command_generator.py:175-185 | The country-code chain is `country_code_map.get(c, "US")`. |
| DgHelpers.RegionsHaveCountryCodes | src/executors/dg_command_generator.py:177-184 | Every region of the shipped registry is a key of the country-code map. |
| DgHelpers.GenerateCommands | src/executors/dg_command_generator.py:16-129 | At most 21 commands, one per append at most. |
| DgHelpers.StepsSlotted | src/executors/dg_command_generator.py:16-129 | There are 21 appends, and append k can only emit a directive of template position k. |
| DgHelpers.CommandBlocks | src/executors/dg_command_generator.py:16-129 | The commands are the model, serial, SIM, network and tail sections' lines, concatenated in source order. |
| DgHelpers.GenerateCommandsBatch | src/executors/dg_command_generator.py:187-197 | One command list per record, in input order, each the mapper's list for that record. |
| DgInline.GenerateCommands | src/executor/dg_command_generator.py:15-169 | The inline copy produces, for every record and every set of draws, exactly the list the helper copy produces. |
| DgInline.InlineBrand | src/executor/dg_command_generator.py:28-45 | The inline if/elif chain infers the same brand as `_infer_brand_from_model`. |
| DgInline.SimSection | src/executor/dg_command_generator.py:62-118 | The inline SIM block appends exactly the helper copy's SIM lines, including the inline net-type dictionary. |
| DgInline.CountrySection | src/executor/dg_command_generator.py:121-131 | The inline country dictionary appends the same country line as `_get_country_code`. |
| DgInline.GenerateCommandsBatch | src/executor/dg_command_generator.py:171-181 | One command list per record, in input order, equal to the helper copy's. |
| DgProperties.SimStateCommand | src/executors/dg_command_generator.py:50-59 | Some command starts with the SIM-state head exactly when IMSI, region and carrier are set and the region has an MCC and the carrier MNCs. Each such command reads "dg config -a sim.state=1 -a sim.numeric=" + MCC + first MNC + " -a sim.imsi=" + IMSI. |
| DgProperties.SimMsisdnCommand | src/executors/dg_command_generator.py:50-73 | An msisdn command exists exactly when the SIM gate holds and the phone number is set. It reads "dg config -a sim.msisdn=" + phone number. |
| DgProperties.SimNetTypeCommand | src/executors/dg_command_generator.py:50-86 | A netType command exists exactly when the SIM gate holds and the network type is set. It carries the mapped net type. |
| DgProperties.SimCountryCommand | src/executors/dg_command_generator.py:89-91 | A SIM-country command exists exactly when the record's country is set, independently of the SIM gate. It carries the country's code. |
| DgProperties.SimIdentityCommands | src/executors/dg_command_generator.py:62-69 | When the SIM gate holds, the commands set the operator names the carrier maps to and an ICCID of "89" + MCC + MNC + 10 digits. |
| DgProperties.EndsWithBatteryThenMock | src/executors/dg_command_generator.py:121-129 | There are always at least four commands. The last enables the sensor mock and the second-to-last sets a battery level between 20 and 90. |
| DgProperties.OneGeoFix | src/executors/dg_command_generator.py:109-110 | Exactly one command starts with "dg geo fix ". It carries the longitude and then the latitude. |
| DgProperties.ModelFirst | src/executors/dg_command_generator.py:28-43 | With a model set, the first four commands set manufacturer and brand (the inferred brand), then model and device. Without a model, the serial number comes first. |
| DgProperties.DefaultCommands | src/executors/dg_command_generator.py:16-129 | A record with every field at its default gives exactly four commands: serial number, "dg geo fix 0.0 0.0", the battery level and the sensor-mock switch. |
| DgProperties.TemplateOrder | src/executors/dg_command_generator.py:16-129 | The commands render at most 21 directives, one per template position, in the template's order. |
| DgProperties.GeoFixOnce | src/executors/dg_command_generator.py:110 | In appends whose location slot holds a fix, exactly one line starts with "dg geo fix ", and it is that fix. |
| DgProperties.OnlyFour | src/executors/dg_command_generator.py:16-129 | Appends that fire only at the serial, location, battery and mock slots render exactly those four lines, in order. |

## Left out

- Faker's `msisdn()` and `ipv4()` are code outside this model. Their results are parameters of the generator.
- Random draws are parameters, constrained to the ranges the source draws from (`random.choice` indices, `randint` bounds, `choices` alphabets). Seeding and the distribution are not modelled.
- Floating-point values: the sensor readings and coordinates (`random.uniform`, `round`, `str()` of a float) are carried as their rendered text (`Models.Float`). Their ranges and rounding are not modelled, because the mapper only interpolates them into text.
- Sensor dictionaries with missing "x"/"y"/"z" keys would raise `KeyError` in the mapper. A present reading is modelled as all three axes.
- The mapper treats an empty sensor dict as absent. That case is not modelled, because the generator never produces an empty dict.
- Checksum.LuhnCheckDigit requires an ASCII digit string, the domain its docstring names (checksum_utils.py:11). Characters that are not decimal digits make `int()` raise `ValueError`, and that error path is not modelled. Non-ASCII decimal digits, which `int()` accepts, are not modelled either.
- DeviceModels.GetTacByFullModel: the contract states only the no-space case. The split and the lookup are stated through DeviceModels.FullModelSplitsAtFirstSpace and DeviceModels.AllModelsRoundTrip.
- DgProperties.SimIdentityCommands states only the gate-true direction, at the level of the command text. The gate-false direction is stated per slot: DgProperties.SimSlots and DgProperties.SimSlotValues show that all five SIM appends, the operator-name and ICCID ones included, emit nothing when the gate fails.
- Generator.GenerateModel requires the drawn brand and model to exist. The source's `random.choice` raises `IndexError` for an empty catalogue or for a brand with no models (device_info_generator.py:87-89). The catalogue editor can create both: it adds a new brand as `{}` and can delete every model of a brand. That error path is not modelled, and neither is the matching `IndexError` for an empty registry in Generator.GenerateLocation.
- CarrierInfo.WellFormed is the shape of the shipped registry. The registry editor checks MCC and MNC digits but not that prefixes are digits, so an edited registry need not satisfy it.
- The module-level wrappers (`get_carriers_by_region` and the rest) read one fixed table. The model passes the table as a parameter, and `CarrierInfo.CarrierInfoTable` / `DeviceModels.DeviceModelsTable` are the shipped tables.
- The mapper's `__init__` holds no state and is not modelled.
- The editor modules (`config/*_config.py`), the SSH executor, the UI, `main.py` and JSON persistence are not part of this model.
- Macao numbers get the "+852" calling code, as the source writes it.
- Taiwan numbers keep the domestic trunk "0" of the "09" prefix after "+886", so they carry 10 national digits ("09" plus 8), as the source writes it; `Generator.ShippedPhoneNumbers` proves the 10-digit length.
- The inline mapper copy is modelled as one method per commented section. Each section method is proved to append exactly the helper copy's lines.

=== FILE: assoc.dfy ===
/** Python dictionaries as association lists. A `dict` literal keeps its insertion
    order (which `keys()`, `values()`, `items()` and therefore `random.choice` over
    them observe), so a table is a sequence of key/value pairs; lookup returns the
    value of the first pair with the key, which is the only one when keys are unique.
 */
module Assoc {
  import opened Text

  /** `list(d.keys())`: the keys in insertion order. */
  function Keys<K, V>(kvs: seq<(K, V)>): (ks: seq<K>)
    ensures |ks| == |kvs|
    ensures forall i :: 0 <= i < |kvs| ==> ks[i] == kvs[i].0
  {
    if |kvs| == 0 then [] else [kvs[0].0] + Keys(kvs[1..])
  }

  /** `list(d.values())`: the values in insertion order. */
  function Values<K, V>(kvs: seq<(K, V)>): (vs: seq<V>)
    ensures |vs| == |kvs|
    ensures forall i :: 0 <= i < |kvs| ==> vs[i] == kvs[i].1
  {
    if |kvs| == 0 then [] else [kvs[0].1] + Values(kvs[1..])
  }

  /** No key occurs twice, as in every Python `dict`. */
  predicate UniqueKeys<K(==), V>(kvs: seq<(K, V)>) {
    forall i, j :: 0 <= i < j < |kvs| ==> kvs[i].0 != kvs[j].0
  }

  /** `d.get(k)`: the value stored under `k`, or `None` when `k` is not a key. */
  function Get<K(==), V>(kvs: seq<(K, V)>, k: K): (r: Option<V>)
    ensures r.Some? <==> k in Keys(kvs)
    ensures r.Some? ==> exists i :: 0 <= i < |kvs| && kvs[i] == (k, r.value)
  {
    if |kvs| == 0 then None
    else if kvs[0].0 == k then Some(kvs[0].1)
    else
      var r := Get(kvs[1..], k);
      assert Keys(kvs) == [kvs[0].0] + Keys(kvs[1..]);
      assert forall i :: 0 <= i < |kvs[1..]| ==> kvs[1..][i] == kvs[i + 1];
      r
  }

  /** `d.get(k, default)`. */
  function GetOr<K(==), V>(kvs: seq<(K, V)>, k: K, default: V): (v: V)
    ensures k !in Keys(kvs) ==> v == default
    ensures k in Keys(kvs) ==> exists i :: 0 <= i < |kvs| && kvs[i] == (k, v)
  {
    match Get(kvs, k)
    case Some(v) => v
    case None => default
  }

  /** With unique keys, looking up the i-th key finds the i-th value. */
  lemma {:induction false} GetAt<K, V>(kvs: seq<(K, V)>, i: nat)
    requires UniqueKeys(kvs) && i < |kvs|
    ensures Get(kvs, kvs[i].0) == Some(kvs[i].1)
  {
    if i > 0 {
      assert kvs[0].0 != kvs[i].0;
      assert kvs[1..][i - 1] == kvs[i];
      GetAt(kvs[1..], i - 1);
    }
  }

  /** With unique keys, looking up a key finds the value stored at any index holding
      that key. */
  lemma GetUnique<K, V>(kvs: seq<(K, V)>, k: K)
    ensures UniqueKeys(kvs) ==>
      forall i :: 0 <= i < |kvs| && kvs[i].0 == k ==> Get(kvs, k) == Some(kvs[i].1)
  {
    forall i | UniqueKeys(kvs) && 0 <= i < |kvs| && kvs[i].0 == k
      ensures Get(kvs, k) == Some(kvs[i].1)
    {
      GetAt(kvs, i);
    }
  }
}

=== FILE: carrier_info.dfy ===
/** The region registry of `src/config/carrier_info.py`: for each country or region
    its mobile country code (MCC), its carriers with their mobile network codes (MNC),
    and the phone-number prefixes issued there, with the four lookups the generator
    and the directive mapper use. Every lookup on an unknown key returns an empty
    result instead of failing.
 */
module CarrierInfo {
  import opened Text
  import opened Assoc

  /** One region: its MCC, carrier name -> MNC list (in insertion order), and its
      phone-number prefixes. */
  datatype RegionEntry = RegionEntry(mcc: string, mnc: seq<(string, seq<string>)>, phonePrefix: seq<string>)

  /** Region name -> entry, in insertion order (the shape of `CARRIER_INFO`). */
  type CarrierTable = seq<(string, RegionEntry)>

  /** The shipped registry, `CARRIER_INFO`. */
  const CarrierInfoTable: CarrierTable := [
    ("China", China), ("Hong Kong", HongKong), ("Macao", Macao), ("Taiwan", Taiwan), ("USA", Usa)
  ]

  const China := RegionEntry(
    "460",
    [ ("China Mobile", ["00", "02", "07"]),
      ("China Unicom", ["01", "06", "09"]),
      ("China Telecom", ["03", "05", "11"]) ],
    ["139", "138", "137", "136", "135", "134", "159", "158", "157", "152", "151", "150",
     "188", "187", "184", "183", "182", "178", "172", "170", "165", "157", "147", "144"])

  const HongKong := RegionEntry(
    "454",
    [ ("CSL", ["00", "02", "10", "16", "18", "19"]),
      ("HKT", ["03", "04", "12", "13", "29"]),
      ("3", ["05", "06"]),
      ("China Mobile HK", ["12", "13"]),
      ("Smartone", ["07", "15"]) ],
    ["5", "6", "9"])

  const Macao := RegionEntry(
    "455",
    [ ("CTM", ["01", "04"]),
      ("China Telecom", ["02", "07"]),
      ("3", ["03", "05"]) ],
    ["6"])

  const Taiwan := RegionEntry(
    "466",
    [ ("Far EasTone", ["01", "02"]),
      ("Chunghwa Telecom", ["05", "06", "11", "16", "26", "88", "89"]),
      ("TWN Mobile", ["89", "92", "97"]),
      ("Asia Pacific", ["05", "06", "10", "88", "89"]) ],
    ["09"])

  const Usa := RegionEntry(
    "310",
    [ ("Verizon", ["004", "010", "012", "013"]),
      ("AT&T", ["030", "070", "150", "170", "280", "380", "410", "560", "680"]),
      ("T-Mobile", ["260", "310", "660", "800"]),
      ("Sprint", ["012", "120", "260", "490", "800"]) ],
    UsaPrefixes0 + UsaPrefixes1 + UsaPrefixes2 + UsaPrefixes3)

  // The USA prefix list, one constant per row of twelve.
  const UsaPrefixes0: seq<string> :=
    ["201", "202", "203", "205", "206", "207", "208", "209", "210", "212", "213", "214"]
  const UsaPrefixes1: seq<string> :=
    ["215", "216", "217", "218", "219", "224", "225", "228", "229", "231", "234", "239"]
  const UsaPrefixes2: seq<string> :=
    ["248", "251", "252", "253", "254", "256", "260", "262", "267", "269", "270", "272"]
  const UsaPrefixes3: seq<string> :=
    ["276", "281", "283", "301", "302", "303", "304", "305", "307", "308", "309", "310"]

  // ---------------------------------------------------------------------------
  // Well-formedness: the shape every shipped entry has. The registry editor checks
  // MCC and MNC digits but not that prefixes are digits.
  // ---------------------------------------------------------------------------

  /** A mobile country code is exactly three decimal digits. */
  predicate ValidMcc(mcc: string) {
    |mcc| == 3 && IsDigits(mcc)
  }

  /** A mobile network code is two or three decimal digits. */
  predicate ValidMnc(mnc: string) {
    (|mnc| == 2 || |mnc| == 3) && IsDigits(mnc)
  }

  predicate ValidMncList(mncs: seq<string>) {
    forall j :: 0 <= j < |mncs| ==> ValidMnc(mncs[j])
  }

  predicate ValidRegionEntry(e: RegionEntry) {
    && ValidMcc(e.mcc)
    && UniqueKeys(e.mnc)
    && (forall i :: 0 <= i < |e.mnc| ==> ValidMncList(e.mnc[i].1))
    && AllDigitStrings(e.phonePrefix)
  }

  predicate AllDigitStrings(ps: seq<string>) {
    forall i :: 0 <= i < |ps| ==> IsDigits(ps[i])
  }

  /** Region names are unique and every entry is valid. */
  predicate WellFormed(t: CarrierTable) {
    UniqueKeys(t) && forall i :: 0 <= i < |t| ==> ValidRegionEntry(t[i].1)
  }

  /** Every region has at least one carrier, every carrier at least one MNC, and every
      region at least one phone prefix: true of the shipped table, though the editor
      can create regions without them. */
  predicate Populated(t: CarrierTable) {
    forall i :: 0 <= i < |t| ==> PopulatedEntry(t[i].1)
  }

  predicate PopulatedEntry(e: RegionEntry) {
    && |e.mnc| > 0
    && |e.phonePrefix| > 0
    && forall j :: 0 <= j < |e.mnc| ==> |e.mnc[j].1| > 0
  }

  // ---------------------------------------------------------------------------
  // Lookups
  // ---------------------------------------------------------------------------

  /** `get_carriers_by_region`: the carrier names of a known region in table order,
      and [] for an unknown one. */
  function GetCarriersByRegion(t: CarrierTable, region: string): (carriers: seq<string>)
    ensures region !in Keys(t) ==> carriers == []
    ensures UniqueKeys(t) ==>
      forall i :: 0 <= i < |t| && t[i].0 == region ==> carriers == Keys(t[i].1.mnc)
  {
    GetUnique(t, region);
    match Get(t, region)
    case Some(e) => Keys(e.mnc)
    case None => []
  }

  /** `get_mcc_by_region`: the MCC of a known region, `None` for an unknown one. */
  function GetMccByRegion(t: CarrierTable, region: string): (mcc: Option<string>)
    ensures mcc.None? <==> region !in Keys(t)
    ensures UniqueKeys(t) ==>
      forall i :: 0 <= i < |t| && t[i].0 == region ==> mcc == Some(t[i].1.mcc)
  {
    GetUnique(t, region);
    match Get(t, region)
    case Some(e) => Some(e.mcc)
    case None => None
  }

  /** `get_mnc_by_carrier`: the MNC list registered for `carrier` in `region`, and []
      unless both the region and the carrier are known. */
  function GetMncByCarrier(t: CarrierTable, region: string, carrier: string): (mncs: seq<string>)
    ensures carrier !in GetCarriersByRegion(t, region) ==> mncs == []
    ensures UniqueKeys(t) ==>
      forall i, j ::
        (0 <= i < |t| && t[i].0 == region && UniqueKeys(t[i].1.mnc) &&
         0 <= j < |t[i].1.mnc| && t[i].1.mnc[j].0 == carrier) ==> mncs == t[i].1.mnc[j].1
  {
    GetUnique(t, region);
    match Get(t, region)
    case Some(e) =>
      GetUnique(e.mnc, carrier);
      GetOr(e.mnc, carrier, [])
    case None => []
  }

  /** `get_phone_prefix_by_region`: the prefixes of a known region, [] for an unknown
      one. */
  function GetPhonePrefixByRegion(t: CarrierTable, region: string): (prefixes: seq<string>)
    ensures region !in Keys(t) ==> prefixes == []
    ensures UniqueKeys(t) ==>
      forall i :: 0 <= i < |t| && t[i].0 == region ==> prefixes == t[i].1.phonePrefix
  {
    GetUnique(t, region);
    match Get(t, region)
    case Some(e) => e.phonePrefix
    case None => []
  }

  // ---------------------------------------------------------------------------
  // Properties of the registry
  // ---------------------------------------------------------------------------

  /** The shipped table is well formed and populated, region by region and, within
      a region, part by part. */
  lemma CarrierInfoTableWellFormed()
    ensures WellFormed(CarrierInfoTable) && Populated(CarrierInfoTable)
  {
    ChinaValid();
    HongKongValid();
    MacaoValid();
    TaiwanValid();
    UsaValid();
  }

  lemma ChinaValid() ensures ValidRegionEntry(China) && PopulatedEntry(China) {
    ChinaCarriers();
    ChinaMncs();
    ChinaPrefixes();
  }
  lemma ChinaCarriers() ensures ValidMcc(China.mcc) && UniqueKeys(China.mnc) && |China.mnc| > 0 && |China.phonePrefix| > 0 {}
  lemma ChinaMncs() ensures forall i :: 0 <= i < |China.mnc| ==> ValidMncList(China.mnc[i].1) && |China.mnc[i].1| > 0 {}
  lemma ChinaPrefixes() ensures AllDigitStrings(China.phonePrefix) {}

  lemma HongKongValid() ensures ValidRegionEntry(HongKong) && PopulatedEntry(HongKong) {
    HongKongCarriers();
    HongKongMncs();
    HongKongPrefixes();
  }
  lemma HongKongCarriers() ensures ValidMcc(HongKong.mcc) && UniqueKeys(HongKong.mnc) && |HongKong.mnc| > 0 && |HongKong.phonePrefix| > 0 {}
  lemma HongKongMncs() ensures forall i :: 0 <= i < |HongKong.mnc| ==> ValidMncList(HongKong.mnc[i].1) && |HongKong.mnc[i].1| > 0 {}
  lemma HongKongPrefixes() ensures AllDigitStrings(HongKong.phonePrefix) {}

  lemma MacaoValid() ensures ValidRegionEntry(Macao) && PopulatedEntry(Macao) {
    MacaoCarriers();
    MacaoMncs();
    MacaoPrefixes();
  }
  lemma MacaoCarriers() ensures ValidMcc(Macao.mcc) && UniqueKeys(Macao.mnc) && |Macao.mnc| > 0 && |Macao.phonePrefix| > 0 {}
  lemma MacaoMncs() ensures forall i :: 0 <= i < |Macao.mnc| ==> ValidMncList(Macao.mnc[i].1) && |Macao.mnc[i].1| > 0 {}
  lemma MacaoPrefixes() ensures AllDigitStrings(Macao.phonePrefix) {}

  lemma TaiwanValid() ensures ValidRegionEntry(Taiwan) && PopulatedEntry(Taiwan) {
    TaiwanCarriers();
    TaiwanMncs();
    TaiwanPrefixes();
  }
  lemma TaiwanCarriers() ensures ValidMcc(Taiwan.mcc) && UniqueKeys(Taiwan.mnc) && |Taiwan.mnc| > 0 && |Taiwan.phonePrefix| > 0 {}
  lemma TaiwanMncs() ensures forall i :: 0 <= i < |Taiwan.mnc| ==> ValidMncList(Taiwan.mnc[i].1) && |Taiwan.mnc[i].1| > 0 {}
  lemma TaiwanPrefixes() ensures AllDigitStrings(Taiwan.phonePrefix) {}

  lemma UsaValid() ensures ValidRegionEntry(Usa) && PopulatedEntry(Usa) {
    UsaCarriers();
    UsaMncs();
    UsaPrefixes();
  }
  lemma UsaCarriers() ensures ValidMcc(Usa.mcc) && UniqueKeys(Usa.mnc) && |Usa.mnc| > 0 && |Usa.phonePrefix| > 0 {}
  lemma UsaMncs() ensures forall i :: 0 <= i < |Usa.mnc| ==> ValidMncList(Usa.mnc[i].1) && |Usa.mnc[i].1| > 0 {}
  lemma UsaPrefixes() ensures AllDigitStrings(Usa.phonePrefix) {
    assert AllDigitStrings(UsaPrefixes0);
    assert AllDigitStrings(UsaPrefixes1);
    assert AllDigitStrings(UsaPrefixes2);
    assert AllDigitStrings(UsaPrefixes3);
    assert UsaPrefixes0 + UsaPrefixes1 + UsaPrefixes2 + UsaPrefixes3 == Usa.phonePrefix;
  }

  /** In a well-formed table, every MNC a lookup returns is 2 or 3 digits, so an
      MCC and any of its MNCs together take at most 6 of an IMSI's 15 digits. */
  lemma MncLookupValid(t: CarrierTable, region: string, carrier: string)
    requires WellFormed(t)
    ensures ValidMncList(GetMncByCarrier(t, region, carrier))
    ensures forall m :: m in GetMncByCarrier(t, region, carrier) ==> |m| <= 3
  {
    if region in Keys(t) {
      var i :| 0 <= i < |t| && t[i].0 == region;
      var e := t[i].1;
      assert ValidRegionEntry(e);
      if carrier in Keys(e.mnc) {
        var j :| 0 <= j < |e.mnc| && e.mnc[j].0 == carrier;
        assert ValidMncList(e.mnc[j].1);
      }
    }
  }

  /** In a well-formed table, a known region's MCC is three digits. */
  lemma MccLookupValid(t: CarrierTable, region: string)
    requires WellFormed(t) && region in Keys(t)
    ensures GetMccByRegion(t, region).Some? && ValidMcc(GetMccByRegion(t, region).value)
  {
    var i :| 0 <= i < |t| && t[i].0 == region;
    assert ValidRegionEntry(t[i].1);
  }

  /** In a well-formed table every phone prefix a lookup returns is a digit string. */
  lemma PrefixLookupValid(t: CarrierTable, region: string)
    requires WellFormed(t)
    ensures forall p :: p in GetPhonePrefixByRegion(t, region) ==> IsDigits(p)
  {
    if region in Keys(t) {
      var i :| 0 <= i < |t| && t[i].0 == region;
      assert ValidRegionEntry(t[i].1);
    }
  }

  /** In a populated table a known region has carriers and prefixes, and each of its
      carriers has MNCs. */
  lemma PopulatedLookups(t: CarrierTable, region: string)
    requires WellFormed(t) && Populated(t) && region in Keys(t)
    ensures |GetCarriersByRegion(t, region)| > 0
    ensures |GetPhonePrefixByRegion(t, region)| > 0
    ensures forall c :: c in GetCarriersByRegion(t, region) ==> |GetMncByCarrier(t, region, c)| > 0
  {
    var i :| 0 <= i < |t| && t[i].0 == region;
    var e := t[i].1;
    assert ValidRegionEntry(e);
    forall c | c in GetCarriersByRegion(t, region)
      ensures |GetMncByCarrier(t, region, c)| > 0
    {
      var j :| 0 <= j < |e.mnc| && Keys(e.mnc)[j] == c;
      assert e.mnc[j].0 == c;
    }
  }
}

=== FILE: checksum.dfy ===
/** The Luhn check digit of `src/utils/checksum_utils.py` (ISO/IEC 7812-1, Annex B),
    which the generator appends to the fourteen-digit IMEI payload (3GPP TS 23.003,
    Annex B).

    The payload is read from the right: the digit at distance i from the right end is
    doubled when i is even (minus 9 when the double exceeds 9) and taken as is when i
    is odd; the check digit tops the total up to a multiple of 10. Validating a full
    number uses the same weights shifted by one place, since the check digit itself
    sits at distance 0.
 */
module Checksum {
  import opened Text

  /** What one digit adds to the total at distance `i` from the right end. */
  function Contribution(d: nat, i: nat): (c: nat)
    requires d < 10
    ensures c < 10
    ensures i % 2 == 1 ==> c == d
    ensures i % 2 == 0 ==> c == if d < 5 then 2 * d else 2 * d - 9
  {
    if i % 2 == 0 then
      var n := d * 2;
      if n > 9 then n - 9 else n
    else d
  }

  /** The weighted total of `s` when its last digit sits at distance `shift` from the
      right end (so `s[0]` sits at distance |s| - 1 + shift). */
  function WeightedTotal(s: string, shift: nat): (total: nat)
    requires IsDigits(s)
    ensures total <= 9 * |s|
  {
    if |s| == 0 then 0
    else Contribution(DigitValue(s[0]), |s| - 1 + shift) + WeightedTotal(s[1..], shift)
  }

  /** The Luhn total of a payload: each digit weighted by its distance from the right. */
  function LuhnTotal(s: string): nat
    requires IsDigits(s)
  {
    WeightedTotal(s, 0)
  }

  /** `calculate_luhn_check_digit`: the digit that brings the payload's Luhn total to a
      multiple of 10, and the only one that does. */
  function LuhnCheckDigit(s: string): (check: char)
    requires IsDigits(s)
    ensures IsDigit(check)
    ensures (LuhnTotal(s) + DigitValue(check)) % 10 == 0
    ensures forall c :: IsDigit(c) && (LuhnTotal(s) + DigitValue(c)) % 10 == 0 ==> c == check
  {
    var total := LuhnTotal(s);
    var check := DigitChar((10 - total % 10) % 10);
    TopUp(total);
    check
  }

  /** The one digit that tops a total up to a multiple of 10. */
  lemma TopUp(total: nat)
    ensures forall c :: IsDigit(c) ==>
      ((total + DigitValue(c)) % 10 == 0 <==> DigitValue(c) == (10 - total % 10) % 10)
  {
    forall c | IsDigit(c)
      ensures (total + DigitValue(c)) % 10 == 0 <==> DigitValue(c) == (10 - total % 10) % 10
    {
      TopUpValue(total, DigitValue(c));
    }
  }

  lemma TopUpValue(total: nat, v: nat)
    requires v < 10
    ensures (total + v) % 10 == 0 <==> v == (10 - total % 10) % 10
  {
    var q, r := total / 10, total % 10;
    assert total == 10 * q + r;
    if r + v < 10 {
      assert (total + v) % 10 == r + v;
    } else {
      assert total + v == 10 * (q + 1) + (r + v - 10);
      assert (total + v) % 10 == r + v - 10;
    }
  }

  /** The loop of `calculate_luhn_check_digit`, walking the payload right to left with
      `enumerate(reversed(digits))`; it computes `LuhnCheckDigit`. */
  method CalculateLuhnCheckDigit(digits: string) returns (check: char)
    requires IsDigits(digits)
    ensures check == LuhnCheckDigit(digits)
  {
    var total := 0;
    var i := 0;
    while i < |digits|
      invariant 0 <= i <= |digits|
      invariant IsDigits(digits[|digits| - i..])
      invariant total == WeightedTotal(digits[|digits| - i..], 0)
    {
      var suffix := digits[|digits| - 1 - i..];
      assert suffix[1..] == digits[|digits| - i..];
      var n := DigitValue(digits[|digits| - 1 - i]);
      if i % 2 == 0 {
        n := n * 2;
        if n > 9 {
          n := n - 9;
        }
      }
      total := total + n;
      i := i + 1;
    }
    assert digits[|digits| - i..] == digits;
    check := DigitChar((10 - total % 10) % 10);
  }

  /** An empty payload has check digit '0'. */
  lemma EmptyPayloadCheckDigit()
    ensures LuhnCheckDigit("") == '0'
  {
  }

  // ---------------------------------------------------------------------------
  // Validation of a full number
  // ---------------------------------------------------------------------------

  /** ISO/IEC 7812-1 validation: a number (payload followed by check digit) is valid
      when its total, with the check digit at distance 0, is a multiple of 10. */
  predicate LuhnValid(n: string) {
    |n| >= 1 && IsDigits(n) && WeightedTotal(n, 1) % 10 == 0
  }

  /** Only the parity of the distance matters. */
  lemma {:induction false} ShiftParity(s: string, shift: nat)
    requires IsDigits(s)
    ensures WeightedTotal(s, shift + 2) == WeightedTotal(s, shift)
  {
    if |s| > 0 {
      ShiftParity(s[1..], shift);
    }
  }

  /** Appending a digit moves every earlier digit one place further from the right. */
  lemma {:induction false} AppendDigit(s: string, d: char, shift: nat)
    requires IsDigits(s) && IsDigit(d)
    ensures IsDigits(s + [d])
    ensures WeightedTotal(s + [d], shift) == WeightedTotal(s, shift + 1) + Contribution(DigitValue(d), shift)
  {
    var n := s + [d];
    if |s| > 0 {
      assert n[1..] == s[1..] + [d];
      AppendDigit(s[1..], d, shift);
    } else {
      assert n == [d];
    }
  }

  /** Appending a digit to a payload gives a valid number exactly when the digit is the
      payload's Luhn check digit. */
  lemma CheckDigitValidates(s: string, c: char)
    requires IsDigits(s) && IsDigit(c)
    ensures LuhnValid(s + [c]) <==> c == LuhnCheckDigit(s)
  {
    AppendDigit(s, c, 1);
    ShiftParity(s, 0);
  }
}

=== FILE: device_models.dfy ===
/** The device catalogue of `src/config/device_models.py`: brand -> model name ->
    8-digit type allocation code (TAC, the first eight digits of an IMEI), with its
    lookups and the two flat listings (all "brand model" labels, all TACs).
 */
module DeviceModels {
  import opened Text
  import opened Assoc

  /** Brand -> (model name -> TAC), in insertion order (the shape of `DEVICE_MODELS`). */
  type ModelTable = seq<(string, seq<(string, string)>)>

  /** The shipped catalogue, `DEVICE_MODELS`. */
  const DeviceModelsTable: ModelTable := [
    ("Samsung", [("Galaxy S25", "35050556")]),
    ("Apple", [("iPhone 16e", "35281219")]),
    ("Huawei", [("P60 Art", "86312106")]),
    ("Xiaomi", [("14 Ultra", "86749806")]),
    ("OPPO", [("Reno 12 Pro", "86945807")]),
    ("Vivo", [("X90 Pro", "86004106")])
  ]

  /** A type allocation code is exactly eight decimal digits. */
  predicate ValidTac(tac: string) {
    |tac| == 8 && IsDigits(tac)
  }

  predicate ValidBrand(brand: string, models: seq<(string, string)>) {
    && ' ' !in brand
    && UniqueKeys(models)
    && forall j :: 0 <= j < |models| ==> ValidTac(models[j].1)
  }

  /** Brands are unique and hold no space, model names are unique within a brand, and
      every TAC is eight digits. */
  predicate WellFormed(t: ModelTable) {
    UniqueKeys(t) && forall i :: 0 <= i < |t| ==> ValidBrand(t[i].0, t[i].1)
  }

  /** One catalogue row: a brand, one of its models and that model's TAC. */
  datatype Entry = Entry(brand: string, model: string, tac: string)

  /** The rows of one brand, in insertion order. */
  function BrandEntries(brand: string, models: seq<(string, string)>): (es: seq<Entry>)
    ensures |es| == |models|
    ensures forall j :: 0 <= j < |models| ==> es[j] == Entry(brand, models[j].0, models[j].1)
  {
    if |models| == 0 then [] else [Entry(brand, models[0].0, models[0].1)] + BrandEntries(brand, models[1..])
  }

  /** Every row of the catalogue, brand by brand and model by model in insertion
      order: the reference the flat listings are measured against. */
  function Entries(t: ModelTable): seq<Entry> {
    if |t| == 0 then [] else BrandEntries(t[0].0, t[0].1) + Entries(t[1..])
  }

  /** Every row comes from some brand i and model j of the table. */
  lemma {:induction false} EntryOrigin(t: ModelTable, k: nat)
    requires k < |Entries(t)|
    ensures exists i, j ::
      (0 <= i < |t| && 0 <= j < |t[i].1| &&
       t[i].0 == Entries(t)[k].brand && t[i].1[j] == (Entries(t)[k].model, Entries(t)[k].tac))
  {
    var head := BrandEntries(t[0].0, t[0].1);
    if k < |head| {
      assert Entries(t)[k] == head[k];
      assert t[0].1[k] == (head[k].model, head[k].tac);
    } else {
      assert Entries(t)[k] == Entries(t[1..])[k - |head|];
      EntryOrigin(t[1..], k - |head|);
      var i, j :| 0 <= i < |t[1..]| && 0 <= j < |t[1..][i].1| &&
        t[1..][i].0 == Entries(t)[k].brand && t[1..][i].1[j] == (Entries(t)[k].model, Entries(t)[k].tac);
      assert t[i + 1] == t[1..][i];
    }
  }

  /** Every model of every brand appears as a row. */
  lemma {:induction false} EntryCoverage(t: ModelTable, i: nat, j: nat)
    requires i < |t| && j < |t[i].1|
    ensures Entry(t[i].0, t[i].1[j].0, t[i].1[j].1) in Entries(t)
  {
    var head := BrandEntries(t[0].0, t[0].1);
    if i == 0 {
      assert head[j] in head;
    } else {
      assert t[1..][i - 1] == t[i];
      EntryCoverage(t[1..], i - 1, j);
    }
  }

  // ---------------------------------------------------------------------------
  // Lookups
  // ---------------------------------------------------------------------------

  /** `get_models_by_brand`: the model map of a known brand, empty for an unknown one. */
  function GetModelsByBrand(t: ModelTable, brand: string): (models: seq<(string, string)>)
    ensures brand !in Keys(t) ==> models == []
    ensures UniqueKeys(t) ==> forall i :: 0 <= i < |t| && t[i].0 == brand ==> models == t[i].1
  {
    GetUnique(t, brand);
    GetOr(t, brand, [])
  }

  /** `get_all_brands`: the brands in insertion order. */
  function GetAllBrands(t: ModelTable): (brands: seq<string>)
    ensures |brands| == |t|
    ensures forall i :: 0 <= i < |t| ==> brands[i] == t[i].0
  {
    Keys(t)
  }

  /** `get_tac_by_brand_and_model`: the TAC registered for `model` under `brand`, and
      `None` unless both are present. */
  function GetTacByBrandAndModel(t: ModelTable, brand: string, model: string): (tac: Option<string>)
    ensures brand !in Keys(t) ==> tac.None?
    ensures tac.Some? ==> Entry(brand, model, tac.value) in Entries(t)
    ensures WellFormed(t) ==>
      forall i, j :: (0 <= i < |t| && 0 <= j < |t[i].1| && t[i].0 == brand && t[i].1[j].0 == model)
        ==> tac == Some(t[i].1[j].1)
  {
    var models := GetModelsByBrand(t, brand);
    var r := Get(models, model);
    if r.Some? then
      var i :| 0 <= i < |t| && t[i] == (brand, GetOr(t, brand, []));
      var j :| 0 <= j < |models| && models[j] == (model, r.value);
      EntryCoverage(t, i, j);
      GetUniqueNested(t, brand, model);
      r
    else
      GetUniqueNested(t, brand, model);
      r
  }

  lemma GetUniqueNested(t: ModelTable, brand: string, model: string)
    ensures WellFormed(t) ==>
      forall i, j :: (0 <= i < |t| && 0 <= j < |t[i].1| && t[i].0 == brand && t[i].1[j].0 == model)
        ==> Get(GetModelsByBrand(t, brand), model) == Some(t[i].1[j].1)
  {
    forall i, j | WellFormed(t) && 0 <= i < |t| && 0 <= j < |t[i].1| && t[i].0 == brand && t[i].1[j].0 == model
      ensures Get(GetModelsByBrand(t, brand), model) == Some(t[i].1[j].1)
    {
      assert ValidBrand(t[i].0, t[i].1);
      GetAt(t[i].1, j);
    }
  }

  /** `get_all_models`: one "brand model" label per catalogue row, in row order. */
  function GetAllModels(t: ModelTable): (labels: seq<string>)
    ensures |labels| == |Entries(t)|
    ensures forall k :: 0 <= k < |labels| ==>
      labels[k] == Entries(t)[k].brand + " " + Entries(t)[k].model
  {
    if |t| == 0 then [] else BrandLabels(t[0].0, t[0].1) + GetAllModels(t[1..])
  }

  /** The labels of one brand: the inner loop of `get_all_models`. */
  function BrandLabels(brand: string, models: seq<(string, string)>): (labels: seq<string>)
    ensures |labels| == |models|
    ensures forall j :: 0 <= j < |models| ==> labels[j] == brand + " " + models[j].0
  {
    if |models| == 0 then [] else [brand + " " + models[0].0] + BrandLabels(brand, models[1..])
  }

  /** `get_all_tacs`: one TAC per catalogue row, in row order. */
  function GetAllTacs(t: ModelTable): (tacs: seq<string>)
    ensures |tacs| == |Entries(t)|
    ensures forall k :: 0 <= k < |tacs| ==> tacs[k] == Entries(t)[k].tac
  {
    if |t| == 0 then [] else Values(t[0].1) + GetAllTacs(t[1..])
  }

  /** `get_tac_by_full_model`: `None` for "" and for a label with no space; otherwise
      the label is split at its first space into brand and model and looked up. */
  function GetTacByFullModel(t: ModelTable, fullModel: string): (tac: Option<string>)
    ensures ' ' !in fullModel ==> tac.None?
  {
    if fullModel == "" then None
    else
      var parts := SplitFirstSpace(fullModel);
      if |parts| != 2 then None
      else GetTacByBrandAndModel(t, parts[0], parts[1])
  }

  // ---------------------------------------------------------------------------
  // Properties
  // ---------------------------------------------------------------------------

  /** The shipped catalogue is well formed. */
  lemma DeviceModelsTableWellFormed()
    ensures WellFormed(DeviceModelsTable)
  {
    DeviceModelsTableKeys();
    DeviceModelsTableBrands();
  }

  lemma DeviceModelsTableKeys()
    ensures UniqueKeys(DeviceModelsTable)
  {
  }

  lemma DeviceModelsTableBrands()
    ensures forall i :: 0 <= i < |DeviceModelsTable| ==> ValidBrand(DeviceModelsTable[i].0, DeviceModelsTable[i].1)
  {
  }

  /** A label "brand model" whose brand holds no space is looked up as exactly that
      brand and that model: the split happens at the first space. */
  lemma FullModelSplitsAtFirstSpace(t: ModelTable, brand: string, model: string)
    requires ' ' !in brand
    ensures GetTacByFullModel(t, brand + " " + model) == GetTacByBrandAndModel(t, brand, model)
  {
    SplitJoin(brand, model);
  }

  /** Round trip: in a well-formed catalogue, looking up any label `get_all_models`
      produces yields the TAC `get_all_tacs` lists at the same position. */
  lemma AllModelsRoundTrip(t: ModelTable, k: nat)
    requires WellFormed(t) && k < |GetAllModels(t)|
    ensures GetTacByFullModel(t, GetAllModels(t)[k]) == Some(GetAllTacs(t)[k])
  {
    var e := Entries(t)[k];
    EntryOrigin(t, k);
    var i, j :| 0 <= i < |t| && 0 <= j < |t[i].1| && t[i].0 == e.brand && t[i].1[j] == (e.model, e.tac);
    assert ValidBrand(t[i].0, t[i].1);
    FullModelSplitsAtFirstSpace(t, e.brand, e.model);
  }

  /** `get_all_tacs` lists the TAC of every model of every brand. */
  lemma AllTacsComplete(t: ModelTable, i: nat, j: nat)
    requires i < |t| && j < |t[i].1|
    ensures t[i].1[j].1 in GetAllTacs(t)
  {
    EntryCoverage(t, i, j);
    var k :| 0 <= k < |Entries(t)| && Entries(t)[k] == Entry(t[i].0, t[i].1[j].0, t[i].1[j].1);
    assert GetAllTacs(t)[k] == t[i].1[j].1;
  }

  /** Every TAC `get_all_tacs` lists belongs to some model of the table, so in a
      well-formed catalogue it is eight digits. */
  lemma AllTacsValid(t: ModelTable)
    requires WellFormed(t)
    ensures forall k :: 0 <= k < |GetAllTacs(t)| ==> ValidTac(GetAllTacs(t)[k])
  {
    forall k | 0 <= k < |GetAllTacs(t)|
      ensures ValidTac(GetAllTacs(t)[k])
    {
      EntryOrigin(t, k);
      var e := Entries(t)[k];
      var i, j :| 0 <= i < |t| && 0 <= j < |t[i].1| && t[i].0 == e.brand && t[i].1[j] == (e.model, e.tac);
      assert ValidBrand(t[i].0, t[i].1);
    }
  }
}

=== FILE: dg_directives.dfy ===
/** The directive vocabulary of `DGCommandGenerator` (both copies, under
    `src/executor/` and `src/executors/`): every `dg ...` line the mapper can emit,
    the f-string template that renders it, the two lookup tables it consults, and
    the random values one call draws.

    A directive is first chosen as a `Directive` value and then rendered to text with
    exactly the source's template. Every template begins with a fixed head (the text
    before the first interpolated value), and no head is a prefix of another unless
    the two directives are of the same kind, so a line's kind can be read back from
    its first characters.
 */
module DgDirectives {
  import opened Text
  import opened Assoc
  import opened Models
  import CarrierInfo

  datatype Directive =
    | Manufacturer(brand: string)
    | Brand(brand: string)
    | ProductModel(model: string)
    | ProductDevice(model: string)
    | SerialNo(serial: string)
    | SimImei(imei: string)
    | SimState(numeric: string, imsi: string)
    | OperatorNames(spn: string, long: string, short: string)
    | SimIccid(iccid: string)
    | SimMsisdn(msisdn: string)
    | SimNetType(netType: string)
    | SimCountry(code: string)
    | InterfaceMac(mac: string)
    | AndroidId(id: string)
    | WifiSsid(ssid: string)
    | WifiIp(ip: string)
    | GeoFix(longitude: Float, latitude: Float)
    | Acceleration(axes: Axes)
    | Gyroscope(axes: Axes)
    | BatteryLevel(level: nat)
    | SensorMock

  /** The verb of every directive that sets a configuration value. */
  const ConfigVerb: string := "dg config -a "

  /** The fixed text every rendering of a directive of this kind starts with. */
  function Head(d: Directive): string {
    match d
    case Manufacturer(_) => ConfigVerb + "prop.ro.product.manufacturer="
    case Brand(_) => ConfigVerb + "prop.ro.product.brand="
    case ProductModel(_) => ConfigVerb + "prop.ro.product.model="
    case ProductDevice(_) => ConfigVerb + "prop.ro.product.device="
    case SerialNo(_) => ConfigVerb + "prop.ro.serialno="
    case SimImei(_) => ConfigVerb + "sim.imei="
    case SimState(_, _) => ConfigVerb + "sim.state=1 -a sim.numeric="
    case OperatorNames(_, _, _) => ConfigVerb + "sim.spn=\""
    case SimIccid(_) => ConfigVerb + "sim.iccid="
    case SimMsisdn(_) => ConfigVerb + "sim.msisdn="
    case SimNetType(_) => ConfigVerb + "sim.netType="
    case SimCountry(_) => ConfigVerb + "sim.country="
    case InterfaceMac(_) => ConfigVerb + "net.if.mac="
    case AndroidId(_) => ConfigVerb + "prop.android.id="
    case WifiSsid(_) => ConfigVerb + "net.wifi.ssid="
    case WifiIp(_) => ConfigVerb + "net.wifi.ipaddress="
    case GeoFix(_, _) => "dg geo fix "
    case Acceleration(_) => "dg sensor set acceleration "
    case Gyroscope(_) => "dg sensor set gyroscope "
    case BatteryLevel(_) => ConfigVerb + "battery.batteryLevel="
    case SensorMock => ConfigVerb + "sensor.mock=true"
  }

  /** The line the source's f-string produces for a directive. */
  function Render(d: Directive): string {
    match d
      case Manufacturer(b) => Head(d) + b
      case Brand(b) => Head(d) + b
      case ProductModel(m) => Head(d) + m
      case ProductDevice(m) => Head(d) + m
      case SerialNo(s) => Head(d) + s
      case SimImei(s) => Head(d) + s
      case SimState(numeric, imsi) => Head(d) + numeric + " -a sim.imsi=" + imsi
      case OperatorNames(spn, long, short) =>
        Head(d) + spn + "\" -a sim.operatorLongName=\"" + long + "\" -a sim.operatorShortName=\"" + short + "\""
      case SimIccid(s) => Head(d) + s
      case SimMsisdn(s) => Head(d) + s
      case SimNetType(s) => Head(d) + s
      case SimCountry(c) => Head(d) + c
      case InterfaceMac(s) => Head(d) + s
      case AndroidId(s) => Head(d) + s
      case WifiSsid(s) => Head(d) + s
      case WifiIp(s) => Head(d) + s
      case GeoFix(lon, lat) => Head(d) + lon.text + " " + lat.text
      case Acceleration(a) => Head(d) + a.x.text + " " + a.y.text + " " + a.z.text
      case Gyroscope(g) => Head(d) + g.x.text + " " + g.y.text + " " + g.z.text
      case BatteryLevel(n) => Head(d) + NatToString(n)
      case SensorMock => Head(d)
  }

  /** The sensor-mock switch and the battery level, rendered. */
  lemma MockAndBatteryLines(n: nat)
    ensures Render(SensorMock) == "dg config -a sensor.mock=true"
    ensures Render(BatteryLevel(n)) == "dg config -a battery.batteryLevel=" + NatToString(n)
  {
    MockLine();
    BatteryLine(n);
  }

  lemma MockLine()
    ensures Render(SensorMock) == "dg config -a sensor.mock=true"
  {
    assert Render(SensorMock) == ConfigVerb + "sensor.mock=true";
  }

  lemma BatteryLine(n: nat)
    ensures Render(BatteryLevel(n)) == "dg config -a battery.batteryLevel=" + NatToString(n)
  {
    assert Render(BatteryLevel(n)) == ConfigVerb + "battery.batteryLevel=" + NatToString(n);
    assert ConfigVerb + "battery.batteryLevel=" == "dg config -a battery.batteryLevel=";
  }

  /** The lines the mapper's properties quote, as text. */
  lemma SerialText(serial: string)
    ensures Render(SerialNo(serial)) == "dg config -a prop.ro.serialno=" + serial
  {
    assert ConfigVerb + "prop.ro.serialno=" == "dg config -a prop.ro.serialno=";
  }

  lemma SimStateText(numeric: string, imsi: string)
    ensures Render(SimState(numeric, imsi)) == "dg config -a sim.state=1 -a sim.numeric=" + numeric + " -a sim.imsi=" + imsi
  {
    var h := Head(SimState(numeric, imsi));
    assert h == "dg config -a sim.state=1 -a sim.numeric=";
    assert Render(SimState(numeric, imsi)) == h + numeric + " -a sim.imsi=" + imsi;
  }

  lemma OperatorNamesText(spn: string, long: string, short: string)
    ensures Render(OperatorNames(spn, long, short)) ==
      "dg config -a sim.spn=\"" + spn + "\" -a sim.operatorLongName=\"" + long + "\" -a sim.operatorShortName=\"" + short + "\""
  {
    var h := Head(OperatorNames(spn, long, short));
    assert h == "dg config -a sim.spn=\"";
    assert Render(OperatorNames(spn, long, short)) ==
      h + spn + "\" -a sim.operatorLongName=\"" + long + "\" -a sim.operatorShortName=\"" + short + "\"";
  }

  lemma ModelTexts(brand: string, model: string)
    ensures Render(Manufacturer(brand)) == "dg config -a prop.ro.product.manufacturer=" + brand
    ensures Render(Brand(brand)) == "dg config -a prop.ro.product.brand=" + brand
    ensures Render(ProductModel(model)) == "dg config -a prop.ro.product.model=" + model
    ensures Render(ProductDevice(model)) == "dg config -a prop.ro.product.device=" + model
  {
    ManufacturerText(brand);
    BrandText(brand);
    ProductModelText(model);
    ProductDeviceText(model);
  }

  lemma ManufacturerText(brand: string)
    ensures Render(Manufacturer(brand)) == "dg config -a prop.ro.product.manufacturer=" + brand
  {
    var h := Head(Manufacturer(brand));
    assert h == "dg config -a prop.ro.product.manufacturer=";
    assert Render(Manufacturer(brand)) == h + brand;
  }

  lemma BrandText(brand: string)
    ensures Render(Brand(brand)) == "dg config -a prop.ro.product.brand=" + brand
  {
    var h := Head(Brand(brand));
    assert h == "dg config -a prop.ro.product.brand=";
    assert Render(Brand(brand)) == h + brand;
  }

  lemma ProductModelText(model: string)
    ensures Render(ProductModel(model)) == "dg config -a prop.ro.product.model=" + model
  {
    var h := Head(ProductModel(model));
    assert h == "dg config -a prop.ro.product.model=";
    assert Render(ProductModel(model)) == h + model;
  }

  lemma ProductDeviceText(model: string)
    ensures Render(ProductDevice(model)) == "dg config -a prop.ro.product.device=" + model
  {
    var h := Head(ProductDevice(model));
    assert h == "dg config -a prop.ro.product.device=";
    assert Render(ProductDevice(model)) == h + model;
  }

  lemma SimIccidText(iccid: string)
    ensures Render(SimIccid(iccid)) == "dg config -a sim.iccid=" + iccid
  {
    assert ConfigVerb + "sim.iccid=" == "dg config -a sim.iccid=";
  }

  lemma SimMsisdnText(msisdn: string)
    ensures Render(SimMsisdn(msisdn)) == "dg config -a sim.msisdn=" + msisdn
  {
    assert ConfigVerb + "sim.msisdn=" == "dg config -a sim.msisdn=";
  }

  lemma SimNetTypeText(netType: string)
    ensures Render(SimNetType(netType)) == "dg config -a sim.netType=" + netType
  {
    assert ConfigVerb + "sim.netType=" == "dg config -a sim.netType=";
  }

  lemma SimCountryText(code: string)
    ensures Render(SimCountry(code)) == "dg config -a sim.country=" + code
  {
    assert ConfigVerb + "sim.country=" == "dg config -a sim.country=";
  }

  lemma GeoFixText(lon: Float, lat: Float)
    ensures Render(GeoFix(lon, lat)) == "dg geo fix " + lon.text + " " + lat.text
  {
  }

  /** The rendered lines of a directive list, in order. */
  function RenderAll(plan: seq<Directive>): seq<string> {
    if |plan| == 0 then [] else [Render(plan[0])] + RenderAll(plan[1..])
  }

  /** Line i is the rendering of directive i. */
  lemma {:induction false} RenderAllAt(plan: seq<Directive>)
    ensures |RenderAll(plan)| == |plan|
    ensures forall i :: 0 <= i < |plan| ==> RenderAll(plan)[i] == Render(plan[i])
  {
    if |plan| > 0 {
      RenderAllAt(plan[1..]);
    }
  }

  lemma {:induction false} RenderAllConcat(a: seq<Directive>, b: seq<Directive>)
    ensures RenderAll(a + b) == RenderAll(a) + RenderAll(b)
  {
    if |a| > 0 {
      assert (a + b)[1..] == a[1..] + b;
      RenderAllConcat(a[1..], b);
    } else {
      assert a + b == b;
    }
  }

  // ---------------------------------------------------------------------------
  // Reading a line's kind back from its first characters
  // ---------------------------------------------------------------------------

  /** One of the two strings is a prefix of the other. */
  predicate Comparable(a: string, b: string) {
    a <= b || b <= a
  }

  /** Two prefixes of one line are comparable. */
  lemma PrefixesComparable(p: string, q: string, line: string)
    requires p <= line && q <= line
    ensures Comparable(p, q)
  {
    if |p| <= |q| {
      assert p == line[..|p|] == q[..|p|];
    } else {
      assert q == line[..|q|] == p[..|q|];
    }
  }

  /** The kind of a directive: which template renders it. */
  function Kind(d: Directive): nat {
    match d
    case Manufacturer(_) => 0
    case Brand(_) => 1
    case ProductModel(_) => 2
    case ProductDevice(_) => 3
    case SerialNo(_) => 4
    case SimImei(_) => 5
    case SimState(_, _) => 6
    case OperatorNames(_, _, _) => 7
    case SimIccid(_) => 8
    case SimMsisdn(_) => 9
    case SimNetType(_) => 10
    case SimCountry(_) => 11
    case InterfaceMac(_) => 12
    case AndroidId(_) => 13
    case WifiSsid(_) => 14
    case WifiIp(_) => 15
    case GeoFix(_, _) => 16
    case Acceleration(_) => 17
    case Gyroscope(_) => 18
    case BatteryLevel(_) => 19
    case SensorMock => 20
  }

  predicate DiffersAt(a: string, b: string, k: nat) {
    k < |a| && k < |b| && a[k] != b[k]
  }

  lemma Incomparable(a: string, b: string)
    ensures forall k :: DiffersAt(a, b, k) ==> !Comparable(a, b)
  {
    forall k: nat | DiffersAt(a, b, k)
      ensures !Comparable(a, b)
    {
      assert a[k] != b[k];
    }
  }

  // The lines the mapper's properties single out are recognised by their heads: each
  // of the following heads is a prefix of a rendered line exactly when the line
  // renders a directive of that kind. A "dg config -a sim.<field>=" head parts from
  // the head of another kind at character 3 (the geo and sensor verbs), 14
  // ("sensor.mock"), 17 (the letter after "sim.", for the other SIM fields; 18 for
  // "sim.state" against "sim.spn") or 13 (the setting's first letter, for everything
  // else).

  /** The SIM-state head "dg config -a sim.state=1 -a sim.numeric=" is comparable only
      with itself. */
  lemma SimStateHead(d: Directive)
    ensures d.SimState? ==> Head(d) == Head(SimState("", ""))
    ensures !d.SimState? ==> !Comparable(Head(SimState("", "")), Head(d))
  {
    var h := Head(SimState("", ""));
    if !d.SimState? {
      assert DiffersAt(h, Head(d), 3) || DiffersAt(h, Head(d), 13) || DiffersAt(h, Head(d), 14) || DiffersAt(h, Head(d), 17) || DiffersAt(h, Head(d), 18);
      Incomparable(h, Head(d));
    }
  }

  /** A line is a SIM-state line exactly when it starts with that head. */
  lemma SimStateLine(d: Directive)
    ensures Head(SimState("", "")) <= Render(d) <==> d.SimState?
  {
    SimStateHead(d);
    HeadedLine(Head(SimState("", "")), d);
  }

  /** The msisdn head "dg config -a sim.msisdn=" is comparable only with itself. */
  lemma SimMsisdnHead(d: Directive)
    ensures d.SimMsisdn? ==> Head(d) == Head(SimMsisdn(""))
    ensures !d.SimMsisdn? ==> !Comparable(Head(SimMsisdn("")), Head(d))
  {
    var h := Head(SimMsisdn(""));
    if !d.SimMsisdn? {
      assert DiffersAt(h, Head(d), 3) || DiffersAt(h, Head(d), 13) || DiffersAt(h, Head(d), 14) || DiffersAt(h, Head(d), 17);
      Incomparable(h, Head(d));
    }
  }

  /** A line is an msisdn line exactly when it starts with that head. */
  lemma SimMsisdnLine(d: Directive)
    ensures Head(SimMsisdn("")) <= Render(d) <==> d.SimMsisdn?
  {
    SimMsisdnHead(d);
    HeadedLine(Head(SimMsisdn("")), d);
  }

  /** The netType head "dg config -a sim.netType=" is comparable only with itself. */
  lemma SimNetTypeHead(d: Directive)
    ensures d.SimNetType? ==> Head(d) == Head(SimNetType(""))
    ensures !d.SimNetType? ==> !Comparable(Head(SimNetType("")), Head(d))
  {
    var h := Head(SimNetType(""));
    if !d.SimNetType? {
      assert DiffersAt(h, Head(d), 3) || DiffersAt(h, Head(d), 13) || DiffersAt(h, Head(d), 14) || DiffersAt(h, Head(d), 17);
      Incomparable(h, Head(d));
    }
  }

  /** A line is a netType line exactly when it starts with that head. */
  lemma SimNetTypeLine(d: Directive)
    ensures Head(SimNetType("")) <= Render(d) <==> d.SimNetType?
  {
    SimNetTypeHead(d);
    HeadedLine(Head(SimNetType("")), d);
  }

  /** The country head "dg config -a sim.country=" is comparable only with itself. */
  lemma SimCountryHead(d: Directive)
    ensures d.SimCountry? ==> Head(d) == Head(SimCountry(""))
    ensures !d.SimCountry? ==> !Comparable(Head(SimCountry("")), Head(d))
  {
    var h := Head(SimCountry(""));
    if !d.SimCountry? {
      assert DiffersAt(h, Head(d), 3) || DiffersAt(h, Head(d), 13) || DiffersAt(h, Head(d), 14) || DiffersAt(h, Head(d), 17);
      Incomparable(h, Head(d));
    }
  }

  /** A line is a country line exactly when it starts with that head. */
  lemma SimCountryLine(d: Directive)
    ensures Head(SimCountry("")) <= Render(d) <==> d.SimCountry?
  {
    SimCountryHead(d);
    HeadedLine(Head(SimCountry("")), d);
  }

  /** The location head "dg geo fix " parts from every other head at character 3. */
  lemma GeoFixHead(d: Directive)
    ensures d.GeoFix? ==> Head(d) == Head(GeoFix(Zero, Zero))
    ensures !d.GeoFix? ==> !Comparable(Head(GeoFix(Zero, Zero)), Head(d))
  {
    var h := Head(GeoFix(Zero, Zero));
    if !d.GeoFix? {
      assert DiffersAt(h, Head(d), 3);
      Incomparable(h, Head(d));
    }
  }

  /** A line is a location line exactly when it starts with that head. */
  lemma GeoFixLine(d: Directive)
    ensures Head(GeoFix(Zero, Zero)) <= Render(d) <==> d.GeoFix?
  {
    GeoFixHead(d);
    HeadedLine(Head(GeoFix(Zero, Zero)), d);
  }

  /** Every rendering starts with its kind's head. */
  lemma RenderHead(d: Directive)
    ensures Head(d) <= Render(d)
  {
  }

  /** A head that equals the line's own head or is incomparable with it starts the
      line exactly in the first case. */
  lemma HeadedLine(h: string, d: Directive)
    requires h == Head(d) || !Comparable(h, Head(d))
    ensures h <= Render(d) <==> h == Head(d)
  {
    RenderHead(d);
    if h <= Render(d) {
      PrefixesComparable(h, Head(d), Render(d));
    }
  }

  // ---------------------------------------------------------------------------
  // Guarded appends
  // ---------------------------------------------------------------------------

  /** `if guard: commands.append(line)`: the directive when its guard holds. */
  function When(guard: bool, d: Directive): Option<Directive> {
    if guard then Some(d) else None
  }

  /** The directives of the appends whose guard held, in order. */
  function Compact(steps: seq<Option<Directive>>): seq<Directive> {
    if |steps| == 0 then []
    else
      var rest := Compact(steps[1..]);
      match steps[0]
      case Some(d) => [d] + rest
      case None => rest
  }

  /** A directive is emitted exactly when some append whose guard held carries it. */
  lemma {:induction false} CompactMembers(steps: seq<Option<Directive>>)
    ensures |Compact(steps)| <= |steps|
    ensures forall d :: d in Compact(steps) <==> Some(d) in steps
  {
    if |steps| > 0 {
      CompactMembers(steps[1..]);
      assert forall o :: o in steps <==> o == steps[0] || o in steps[1..];
    }
  }

  lemma {:induction false} CompactConcat(a: seq<Option<Directive>>, b: seq<Option<Directive>>)
    ensures Compact(a + b) == Compact(a) + Compact(b)
    decreases |a|
  {
    if |a| > 0 {
      assert (a + b)[0] == a[0];
      assert (a + b)[1..] == a[1..] + b;
      CompactConcat(a[1..], b);
    } else {
      assert a + b == b;
    }
  }

  /** Slot k of `steps` can only hold a directive of kind `base + k`. */
  predicate Slotted(steps: seq<Option<Directive>>, base: nat)
    decreases |steps|
  {
    |steps| == 0 || ((steps[0].Some? ==> Kind(steps[0].value) == base) && Slotted(steps[1..], base + 1))
  }

  lemma {:induction false} SlotKind(steps: seq<Option<Directive>>, base: nat, k: nat)
    requires Slotted(steps, base) && k < |steps| && steps[k].Some?
    ensures Kind(steps[k].value) == base + k
    decreases k
  {
    if k > 0 {
      assert steps[1..][k - 1] == steps[k];
      SlotKind(steps[1..], base + 1, k - 1);
    }
  }

  lemma {:induction false} SlottedConcat(a: seq<Option<Directive>>, b: seq<Option<Directive>>, base: nat)
    requires Slotted(a, base) && Slotted(b, base + |a|)
    ensures Slotted(a + b, base)
    decreases |a|
  {
    if |a| > 0 {
      assert (a + b)[1..] == a[1..] + b;
      SlottedConcat(a[1..], b, base + 1);
    } else {
      assert a + b == b;
    }
  }

  /** Kinds strictly increase along the list: the kinds come in template order and
      none occurs twice. */
  predicate Increasing(plan: seq<Directive>) {
    forall i, j :: 0 <= i < j < |plan| ==> Kind(plan[i]) < Kind(plan[j])
  }

  /** Compacting slotted appends lists the emitted directives in kind order. */
  lemma {:induction false} CompactIncreasing(steps: seq<Option<Directive>>, base: nat)
    requires Slotted(steps, base)
    ensures Increasing(Compact(steps))
    ensures forall i :: 0 <= i < |Compact(steps)| ==> base <= Kind(Compact(steps)[i]) < base + |steps|
    decreases |steps|
  {
    if |steps| > 0 {
      CompactIncreasing(steps[1..], base + 1);
      CompactMembers(steps[1..]);
    }
  }

  /** In slotted appends, a directive of kind `base + k` is emitted exactly when slot k
      holds one. */
  lemma KindEmitted(steps: seq<Option<Directive>>, base: nat, k: nat)
    requires Slotted(steps, base) && k < |steps|
    ensures (exists i :: 0 <= i < |Compact(steps)| && Kind(Compact(steps)[i]) == base + k) <==> steps[k].Some?
  {
    var plan := Compact(steps);
    CompactMembers(steps);
    if steps[k].Some? {
      assert steps[k].value in plan;
      var i :| 0 <= i < |plan| && plan[i] == steps[k].value;
      SlotKind(steps, base, k);
    }
    if exists i :: 0 <= i < |plan| && Kind(plan[i]) == base + k {
      var i :| 0 <= i < |plan| && Kind(plan[i]) == base + k;
      assert plan[i] in plan;
      assert Some(plan[i]) in steps;
      var j :| 0 <= j < |steps| && steps[j] == Some(plan[i]);
      SlotKind(steps, base, j);
      assert steps[j].value == plan[i];
      assert j == k;
      assert steps[k].Some?;
      assert exists i :: 0 <= i < |Compact(steps)| && Kind(Compact(steps)[i]) == base + k;
    }
  }

  /** Slotting stated index by index. */
  lemma {:induction false} SlottedByIndex(steps: seq<Option<Directive>>, base: nat)
    requires forall k :: 0 <= k < |steps| && steps[k].Some? ==> Kind(steps[k].value) == base + k
    ensures Slotted(steps, base)
    decreases |steps|
  {
    if |steps| > 0 {
      assert forall k :: 0 <= k < |steps| - 1 ==> steps[1..][k] == steps[k + 1];
      SlottedByIndex(steps[1..], base + 1);
    }
  }

  /** Appending one more guarded append adds its line, if any, to the rendered list. */
  lemma Extend(steps: seq<Option<Directive>>, o: Option<Directive>)
    ensures RenderAll(Compact(steps + [o])) ==
      RenderAll(Compact(steps)) + (if o.Some? then [Render(o.value)] else [])
  {
    CompactConcat(steps, [o]);
    assert Compact([o]) == (if o.Some? then [o.value] else []);
    RenderAllConcat(Compact(steps), Compact([o]));
  }

  /** Head `h` marks kind `k`: a rendered line starts with `h` exactly when it renders
      a directive of kind `k`. */
  ghost predicate Marks(h: string, k: nat) {
    forall d :: h <= Render(d) <==> Kind(d) == k
  }

  lemma SimStateMarks()
    ensures Marks(Head(SimState("", "")), 6)
  {
    forall d: Directive ensures Head(SimState("", "")) <= Render(d) <==> Kind(d) == 6 {
      SimStateLine(d);
    }
  }

  lemma SimMsisdnMarks()
    ensures Marks(Head(SimMsisdn("")), 9)
  {
    forall d: Directive ensures Head(SimMsisdn("")) <= Render(d) <==> Kind(d) == 9 {
      SimMsisdnLine(d);
    }
  }

  lemma SimNetTypeMarks()
    ensures Marks(Head(SimNetType("")), 10)
  {
    forall d: Directive ensures Head(SimNetType("")) <= Render(d) <==> Kind(d) == 10 {
      SimNetTypeLine(d);
    }
  }

  lemma SimCountryMarks()
    ensures Marks(Head(SimCountry("")), 11)
  {
    forall d: Directive ensures Head(SimCountry("")) <= Render(d) <==> Kind(d) == 11 {
      SimCountryLine(d);
    }
  }

  lemma GeoFixMarks()
    ensures Marks(Head(GeoFix(Zero, Zero)), 16)
  {
    forall d: Directive ensures Head(GeoFix(Zero, Zero)) <= Render(d) <==> Kind(d) == 16 {
      GeoFixLine(d);
    }
  }

  /** The emitted lines of slotted appends. */
  function Lines(steps: seq<Option<Directive>>): seq<string> {
    RenderAll(Compact(steps))
  }

  /** Line i renders the i-th emitted directive. */
  lemma LinesAt(steps: seq<Option<Directive>>)
    ensures |Lines(steps)| == |Compact(steps)|
    ensures forall i :: 0 <= i < |Lines(steps)| ==> Lines(steps)[i] == Render(Compact(steps)[i])
  {
    RenderAllAt(Compact(steps));
  }

  /** The line one append contributes: its directive's rendering when the guard
      held, nothing otherwise. */
  function LineOf(o: Option<Directive>): seq<string> {
    if o.Some? then [Render(o.value)] else []
  }

  /** The lines of a nonempty list of appends: the first append's line, if any,
      then the lines of the rest. */
  lemma LinesFirst(steps: seq<Option<Directive>>)
    requires |steps| > 0
    ensures Lines(steps) == LineOf(steps[0]) + Lines(steps[1..])
  {
  }

  /** The lines of four appends, append by append. */
  lemma LinesOfFour(a: Option<Directive>, b: Option<Directive>, c: Option<Directive>, d: Option<Directive>)
    ensures Lines([a, b, c, d]) == LineOf(a) + LineOf(b) + LineOf(c) + LineOf(d)
  {
    var s := [a, b, c, d];
    var la, lb, lc, ld := LineOf(a), LineOf(b), LineOf(c), LineOf(d);
    LinesFirst(s[3..]);
    assert s[3..][1..] == [];
    LinesFirst(s[2..]);
    assert s[2..][1..] == s[3..];
    LinesFirst(s[1..]);
    assert s[1..][1..] == s[2..];
    LinesFirst(s);
    Associate(la, lb, lc, ld, []);
  }

  /** The lines of five appends, append by append. */
  lemma LinesOfFive(a: Option<Directive>, b: Option<Directive>, c: Option<Directive>, d: Option<Directive>, e: Option<Directive>)
    ensures Lines([a, b, c, d, e]) == LineOf(a) + LineOf(b) + LineOf(c) + LineOf(d) + LineOf(e)
  {
    var s := [a, b, c, d, e];
    var la, lb, lc, ld, le := LineOf(a), LineOf(b), LineOf(c), LineOf(d), LineOf(e);
    LinesFirst(s[4..]);
    assert s[4..][1..] == [];
    LinesFirst(s[3..]);
    assert s[3..][1..] == s[4..];
    LinesFirst(s[2..]);
    assert s[2..][1..] == s[3..];
    LinesFirst(s[1..]);
    assert s[1..][1..] == s[2..];
    LinesFirst(s);
    Associate(la, lb, lc, ld, le);
  }

  lemma LinesConcat(a: seq<Option<Directive>>, b: seq<Option<Directive>>)
    ensures Lines(a + b) == Lines(a) + Lines(b)
  {
    CompactConcat(a, b);
    RenderAllConcat(Compact(a), Compact(b));
  }

  /** In the rendered lines of slotted appends, some line starts with the head
      marking slot k's kind exactly when slot k's guard held. */
  lemma LineOfKind(steps: seq<Option<Directive>>, base: nat, h: string, k: nat)
    requires Slotted(steps, base) && k < |steps| && Marks(h, base + k)
    ensures (exists i :: 0 <= i < |Lines(steps)| && h <= Lines(steps)[i]) <==> steps[k].Some?
  {
    var plan := Compact(steps);
    LinesAt(steps);
    KindEmitted(steps, base, k);
    if steps[k].Some? {
      var i :| 0 <= i < |plan| && Kind(plan[i]) == base + k;
      assert h <= Lines(steps)[i];
    }
  }

  /** Every line starting with the head marking slot k's kind renders slot k's
      directive. */
  lemma LineOfKindContent(steps: seq<Option<Directive>>, base: nat, h: string, k: nat, i: nat)
    requires Slotted(steps, base) && k < |steps| && Marks(h, base + k)
    requires i < |Lines(steps)| && h <= Lines(steps)[i]
    ensures steps[k].Some? && Lines(steps)[i] == Render(steps[k].value)
  {
    var plan := Compact(steps);
    LinesAt(steps);
    CompactMembers(steps);
    assert plan[i] in plan;
    var j :| 0 <= j < |steps| && steps[j] == Some(plan[i]);
    SlotKind(steps, base, j);
  }

  /** The directive of every append whose guard held is rendered among the lines. */
  lemma SlotLine(steps: seq<Option<Directive>>, k: nat)
    requires k < |steps| && steps[k].Some?
    ensures Render(steps[k].value) in Lines(steps)
  {
    var plan := Compact(steps);
    LinesAt(steps);
    CompactMembers(steps);
    assert Some(steps[k].value) in steps;
    var i :| 0 <= i < |plan| && plan[i] == steps[k].value;
    assert Lines(steps)[i] == Render(steps[k].value);
  }

  /** At most one line starts with the head marking a kind. */
  lemma LineOfKindUnique(steps: seq<Option<Directive>>, base: nat, h: string, k: nat, i: nat, j: nat)
    requires Slotted(steps, base) && Marks(h, k)
    requires i < |Lines(steps)| && j < |Lines(steps)| && h <= Lines(steps)[i] && h <= Lines(steps)[j]
    ensures i == j
  {
    LinesAt(steps);
    CompactIncreasing(steps, base);
  }

  // ---------------------------------------------------------------------------
  // Lookup tables and draws
  // ---------------------------------------------------------------------------

  /** `net_type_map`: access technology -> the netType value the dg tool accepts. */
  const NetTypeMap: seq<(string, string)> :=
    [("2G", "gsm"), ("3G", "cdma"), ("4G", "lte"), ("5G", "nr"), ("WiFi", "wifi")]

  /** `net_type_map.get(network_type, "wifi")`, key by key. */
  function NetTypeOf(networkType: string): (netType: string) {
    if networkType == "2G" then "gsm"
    else if networkType == "3G" then "cdma"
    else if networkType == "4G" then "lte"
    else if networkType == "5G" then "nr"
    else "wifi"
  }

  /** The chain is the dictionary lookup: a listed technology gets its own value,
      anything else "wifi". */
  lemma NetTypeLookup(networkType: string)
    ensures NetTypeOf(networkType) == GetOr(NetTypeMap, networkType, "wifi")
  {
    var m := NetTypeMap;
    assert m[0].0 == "2G" && m[1..][0].0 == "3G" && m[2..][0].0 == "4G";
    assert m[3..][0].0 == "5G" && m[4..][0].0 == "WiFi" && m[5..] == [];
    assert Get(m, networkType) == Get(m[1..], networkType) || m[0].0 == networkType;
  }

  /** `country_code_map`: region -> two-letter country code, "Unknown" included. */
  const CountryCodeMap: seq<(string, string)> :=
    [("China", "CN"), ("Hong Kong", "HK"), ("Macao", "MO"), ("Taiwan", "TW"), ("USA", "US"), ("Unknown", "US")]

  /** The guard of the SIM block, identical in both copies: imsi, region and carrier
      are set, the region has a non-empty MCC and the carrier a non-empty MNC list. */
  predicate SimGate(reg: CarrierInfo.CarrierTable, info: DeviceInfo) {
    && info.imsi != "" && info.region != "" && info.carrier != ""
    && var mcc := CarrierInfo.GetMccByRegion(reg, info.region);
    && mcc.Some? && mcc.value != ""
    && |CarrierInfo.GetMncByCarrier(reg, info.region, info.carrier)| > 0
  }

  /** `sim.numeric` when the SIM block is emitted: the MCC and the carrier's first MNC. */
  function SimNumeric(reg: CarrierInfo.CarrierTable, info: DeviceInfo): string
    requires SimGate(reg, info)
  {
    CarrierInfo.GetMccByRegion(reg, info.region).value + CarrierInfo.GetMncByCarrier(reg, info.region, info.carrier)[0]
  }

  const DecimalDigits: string := "0123456789"

  /** The values one `generate_commands` call draws: sixteen indices into
      `0123456789ABCDEF` for the serial number, ten indices into `0123456789` for the
      ICCID (drawn only when the SIM block is emitted) and `randint(20, 90)` for the
      battery level. */
  datatype MapperDraws = MapperDraws(serialPicks: seq<nat>, iccidPicks: seq<nat>, batteryLevel: nat)

  predicate ValidDraws(d: MapperDraws) {
    && |d.serialPicks| == 16 && (forall i :: 0 <= i < 16 ==> d.serialPicks[i] < 16)
    && |d.iccidPicks| == 10 && (forall i :: 0 <= i < 10 ==> d.iccidPicks[i] < 10)
    && 20 <= d.batteryLevel <= 90
  }

  /** `''.join(random.choices('0123456789ABCDEF', k=16))`. */
  function SerialNumber(d: MapperDraws): (serial: string)
    requires ValidDraws(d)
    ensures |serial| == 16 && forall i :: 0 <= i < 16 ==> IsUpperHex(serial[i])
    ensures forall i :: 0 <= i < 16 ==> serial[i] == UpperHexDigits[d.serialPicks[i]]
  {
    var serial := Choices(UpperHexDigits, d.serialPicks);
    assert forall c :: c in UpperHexDigits ==> IsUpperHex(c);
    serial
  }

  /** `''.join(random.choices('0123456789', k=10))`. */
  function IccidTail(d: MapperDraws): (tail: string)
    requires ValidDraws(d)
    ensures |tail| == 10 && IsDigits(tail)
    ensures SpellsDraws(tail, d.iccidPicks)
  {
    var tail := Choices(DecimalDigits, d.iccidPicks);
    assert forall c :: c in DecimalDigits ==> IsDigit(c);
    assert forall k :: 0 <= k < 10 ==> DigitValue(DecimalDigits[k]) == k;
    tail
  }
}

=== FILE: dg_helpers.dfy ===
/** `DGCommandGenerator` of `src/executors/dg_command_generator.py`: the copy that
    factors brand inference, operator naming and the country code into helpers.

    `generate_commands` is a fixed sequence of guarded appends, one per directive
    kind in template order; the model lists those appends (`Steps`) and the
    commands are the rendered directives of the appends whose guard held. The random
    serial number, ICCID digits and battery level come from `MapperDraws`.
 */
module DgHelpers {
  import opened Text
  import opened Assoc
  import opened Models
  import opened DgDirectives
  import CarrierInfo

  // ---------------------------------------------------------------------------
  // _infer_brand_from_model
  // ---------------------------------------------------------------------------

  /** The brand rules in the order they are tried: a model naming any of a rule's
      substrings gets that rule's brand. */
  const BrandRules: seq<(seq<string>, string)> := [
    (["Samsung", "SM-"], "samsung"),
    (["iPhone"], "apple"),
    (["Huawei", "ELE-", "VOG-"], "huawei"),
    (["Xiaomi", "POCO", "Redmi"], "xiaomi"),
    (["OPPO", "CPH"], "oppo"),
    (["Vivo", "V20"], "vivo")
  ]

  /** `s` contains at least one of `needles`. */
  predicate AnyContains(s: string, needles: seq<string>) {
    exists i :: 0 <= i < |needles| && Contains(s, needles[i])
  }

  /** The index of the first rule that matches `s`, or |rules| when none does. */
  function FirstRule(rules: seq<(seq<string>, string)>, s: string): (k: nat)
    ensures k <= |rules|
    ensures forall j :: 0 <= j < k ==> !AnyContains(s, rules[j].0)
    ensures k < |rules| ==> AnyContains(s, rules[k].0)
  {
    if |rules| == 0 then 0
    else if AnyContains(s, rules[0].0) then 0
    else
      var k := FirstRule(rules[1..], s);
      assert forall j :: 1 <= j < |rules| ==> rules[j] == rules[1..][j - 1];
      k + 1
  }

  /** First-match-wins over a rule list: the brand of the first rule that matches,
      `fallback` when none does. */
  function FirstMatch(rules: seq<(seq<string>, string)>, s: string, fallback: string): string {
    var k := FirstRule(rules, s);
    if k < |rules| then rules[k].1 else fallback
  }

  /** `_infer_brand_from_model`: one of six brand names, or "Unknown". */
  function InferBrandFromModel(model: string): (brand: string)
    ensures brand in ["samsung", "apple", "huawei", "xiaomi", "oppo", "vivo", "Unknown"]
  {
    if Contains(model, "Samsung") || Contains(model, "SM-") then "samsung"
    else if Contains(model, "iPhone") then "apple"
    else if Contains(model, "Huawei") || Contains(model, "ELE-") || Contains(model, "VOG-") then "huawei"
    else if Contains(model, "Xiaomi") || Contains(model, "POCO") || Contains(model, "Redmi") then "xiaomi"
    else if Contains(model, "OPPO") || Contains(model, "CPH") then "oppo"
    else if Contains(model, "Vivo") || Contains(model, "V20") then "vivo"
    else "Unknown"
  }

  /** The if/elif chain is first-match-wins over `BrandRules`, falling back to
      "Unknown". */
  lemma InferBrandFirstMatch(model: string)
    ensures InferBrandFromModel(model) == FirstMatch(BrandRules, model, "Unknown")
  {
    RuleMatches(model);
    var k := FirstRule(BrandRules, model);
    if k < 6 {
      assert AnyContains(model, BrandRules[k].0);
    }
  }

  /** What matching each rule means, needle by needle. */
  lemma RuleMatches(model: string)
    ensures AnyContains(model, BrandRules[0].0) <==> Contains(model, "Samsung") || Contains(model, "SM-")
    ensures AnyContains(model, BrandRules[1].0) <==> Contains(model, "iPhone")
    ensures AnyContains(model, BrandRules[2].0) <==> Contains(model, "Huawei") || Contains(model, "ELE-") || Contains(model, "VOG-")
    ensures AnyContains(model, BrandRules[3].0) <==> Contains(model, "Xiaomi") || Contains(model, "POCO") || Contains(model, "Redmi")
    ensures AnyContains(model, BrandRules[4].0) <==> Contains(model, "OPPO") || Contains(model, "CPH")
    ensures AnyContains(model, BrandRules[5].0) <==> Contains(model, "Vivo") || Contains(model, "V20")
  {
    AnyOfThree(model, "Samsung", "SM-", "SM-");
    AnyOfThree(model, "iPhone", "iPhone", "iPhone");
    AnyOfThree(model, "Huawei", "ELE-", "VOG-");
    AnyOfThree(model, "Xiaomi", "POCO", "Redmi");
    AnyOfThree(model, "OPPO", "CPH", "CPH");
    AnyOfThree(model, "Vivo", "V20", "V20");
  }

  /** Matching a rule of up to three needles (repeating one to fill the rest). */
  lemma AnyOfThree(s: string, a: string, b: string, c: string)
    ensures AnyContains(s, [a]) <==> Contains(s, a)
    ensures AnyContains(s, [a, b]) <==> Contains(s, a) || Contains(s, b)
    ensures AnyContains(s, [a, b, c]) <==> Contains(s, a) || Contains(s, b) || Contains(s, c)
  {
    if Contains(s, a) {
      assert Contains(s, [a][0]) && Contains(s, [a, b][0]) && Contains(s, [a, b, c][0]);
    }
    if Contains(s, b) {
      assert Contains(s, [a, b][1]) && Contains(s, [a, b, c][1]);
    }
    if Contains(s, c) {
      assert Contains(s, [a, b, c][2]);
    }
  }

  // ---------------------------------------------------------------------------
  // _generate_operator_names
  // ---------------------------------------------------------------------------

  /** The carriers `_generate_operator_names` renames: "Verizon" exactly, anything
      naming AT&T, and China carriers naming Mobile, Unicom or Telecom. */
  predicate RenamedCarrier(carrier: string) {
    || carrier == "Verizon"
    || Contains(carrier, "AT&T")
    || (Contains(carrier, "China") &&
        (Contains(carrier, "Mobile") || Contains(carrier, "Unicom") || Contains(carrier, "Telecom")))
  }

  /** `_generate_operator_names`: (spn, long name, short name). All three names are
      the carrier's own exactly when the carrier is not one the helper renames. */
  function GenerateOperatorNames(carrier: string): (names: (string, string, string))
    ensures names == (carrier, carrier, carrier) <==> !RenamedCarrier(carrier)
  {
    if carrier == "Verizon" then (carrier, "Verizon Wireless", "Verizon")
    else if Contains(carrier, "AT&T") then ("AT&T Mobility", "AT&T Mobility", "AT&T")
    else if Contains(carrier, "China") then
      if Contains(carrier, "Mobile") then (carrier, "China Mobile", "CMCC")
      else if Contains(carrier, "Unicom") then (carrier, "China Unicom", "CU")
      else if Contains(carrier, "Telecom") then (carrier, "China Telecom", "CT")
      else (carrier, carrier, carrier)
    else (carrier, carrier, carrier)
  }

  /** The renaming rules in the order they are tried. The service-provider name
      changes only for AT&T carriers. A China carrier naming Mobile gets China Mobile /
      CMCC; otherwise one naming Unicom gets China Unicom / CU; otherwise one naming
      Telecom gets China Telecom / CT. */
  lemma OperatorNamesRenamed(carrier: string)
    ensures !Contains(carrier, "AT&T") ==> GenerateOperatorNames(carrier).0 == carrier
    ensures carrier != "Verizon" && Contains(carrier, "AT&T") ==>
      GenerateOperatorNames(carrier) == ("AT&T Mobility", "AT&T Mobility", "AT&T")
    ensures carrier != "Verizon" && !Contains(carrier, "AT&T") && Contains(carrier, "China") ==>
      && (Contains(carrier, "Mobile") ==>
            GenerateOperatorNames(carrier) == (carrier, "China Mobile", "CMCC"))
      && (!Contains(carrier, "Mobile") && Contains(carrier, "Unicom") ==>
            GenerateOperatorNames(carrier) == (carrier, "China Unicom", "CU"))
      && (!Contains(carrier, "Mobile") && !Contains(carrier, "Unicom") && Contains(carrier, "Telecom") ==>
            GenerateOperatorNames(carrier) == (carrier, "China Telecom", "CT"))
  {
  }

  /** The shipped carriers the helper renames: Verizon keeps its service-provider
      name, AT&T's becomes "AT&T Mobility", and the three Chinese carriers get their
      short names CMCC, CU and CT. */
  lemma ShippedOperatorNames()
    ensures GenerateOperatorNames("Verizon") == ("Verizon", "Verizon Wireless", "Verizon")
    ensures GenerateOperatorNames("AT&T") == ("AT&T Mobility", "AT&T Mobility", "AT&T")
    ensures GenerateOperatorNames("China Mobile") == ("China Mobile", "China Mobile", "CMCC")
    ensures GenerateOperatorNames("China Unicom") == ("China Unicom", "China Unicom", "CU")
    ensures GenerateOperatorNames("China Telecom") == ("China Telecom", "China Telecom", "CT")
  {
    ContainsAt("AT&T", "AT&T", 0);
    ChinaMobileNames("China Mobile");
    OperatorNamesRenamed("China Mobile");
    ChinaUnicomNames("China Unicom");
    OperatorNamesRenamed("China Unicom");
    ChinaTelecomNames("China Telecom");
    OperatorNamesRenamed("China Telecom");
  }

  /** The words each shipped Chinese carrier name contains and lacks. */
  lemma ChinaMobileNames(c: string)
    requires c == "China Mobile"
    ensures Contains(c, "China") && Contains(c, "Mobile") && !Contains(c, "AT&T")
  {
    assert 'A' !in c;
    MissingFirstChar(c, "AT&T");
    ContainsAt(c, "China", 0);
    assert OccursAt(c, "Mobile", 6);
    ContainsAt(c, "Mobile", 6);
  }

  lemma ChinaUnicomNames(c: string)
    requires c == "China Unicom"
    ensures Contains(c, "China") && Contains(c, "Unicom")
    ensures !Contains(c, "AT&T") && !Contains(c, "Mobile")
  {
    assert 'A' !in c && 'M' !in c;
    MissingFirstChar(c, "AT&T");
    MissingFirstChar(c, "Mobile");
    ContainsAt(c, "China", 0);
    assert OccursAt(c, "Unicom", 6);
    ContainsAt(c, "Unicom", 6);
  }

  lemma ChinaTelecomNames(c: string)
    requires c == "China Telecom"
    ensures Contains(c, "China") && Contains(c, "Telecom")
    ensures !Contains(c, "AT&T") && !Contains(c, "Mobile") && !Contains(c, "Unicom")
  {
    ChinaTelecomLacks(c);
    ContainsAt(c, "China", 0);
    assert OccursAt(c, "Telecom", 6);
    ContainsAt(c, "Telecom", 6);
  }

  lemma ChinaTelecomLacks(c: string)
    requires c == "China Telecom"
    ensures !Contains(c, "AT&T") && !Contains(c, "Mobile") && !Contains(c, "Unicom")
  {
    assert 'A' !in c && 'M' !in c && 'U' !in c;
    MissingFirstChar(c, "AT&T");
    MissingFirstChar(c, "Mobile");
    MissingFirstChar(c, "Unicom");
  }

  // ---------------------------------------------------------------------------
  // _get_country_code
  // ---------------------------------------------------------------------------

  /** `_get_country_code`, key by key: a two-letter code, and "US" for every country
      other than the four the map gives a code of their own. */
  function GetCountryCode(country: string): (code: string)
    ensures |code| == 2
    ensures code == "US" <==> country !in ["China", "Hong Kong", "Macao", "Taiwan"]
  {
    if country == "China" then "CN"
    else if country == "Hong Kong" then "HK"
    else if country == "Macao" then "MO"
    else if country == "Taiwan" then "TW"
    else "US"
  }

  /** The chain is `country_code_map.get(country, "US")`: a country the map names
      gets the code stored under it, any other "US". */
  lemma CountryCodeLookup(country: string)
    ensures GetCountryCode(country) == GetOr(CountryCodeMap, country, "US")
  {
    var m := CountryCodeMap;
    assert m[0].0 == "China" && m[1..][0].0 == "Hong Kong" && m[2..][0].0 == "Macao";
    assert m[3..][0].0 == "Taiwan" && m[4..][0].0 == "USA" && m[5..][0].0 == "Unknown" && m[6..] == [];
    assert Get(m, country) == Get(m[1..], country) || m[0].0 == country;
  }

  /** Every region of the carrier registry has its own entry in the country-code map. */
  lemma RegionsHaveCountryCodes()
    ensures forall r :: r in Keys(CarrierInfo.CarrierInfoTable) ==> r in Keys(CountryCodeMap)
  {
  }

  // ---------------------------------------------------------------------------
  // generate_commands
  // ---------------------------------------------------------------------------

  /** Manufacturer and brand (the inferred brand), then model and device, all four
      only when a model is set. */
  function ModelSteps(info: DeviceInfo): seq<Option<Directive>> {
    var brand := InferBrandFromModel(info.model);
    [ When(info.model != "", Manufacturer(brand)),
      When(info.model != "", Brand(brand)),
      When(info.model != "", ProductModel(info.model)),
      When(info.model != "", ProductDevice(info.model)) ]
  }

  /** The serial number, always, then the IMEI when set. */
  function SerialSteps(info: DeviceInfo, draws: MapperDraws): seq<Option<Directive>>
    requires ValidDraws(draws)
  {
    [ Some(SerialNo(SerialNumber(draws))),
      When(info.imei != "", SimImei(info.imei)) ]
  }

  /** The SIM block: nothing unless imsi, region and carrier are set, the region has
      a non-empty MCC and the carrier a non-empty MNC list; otherwise the five appends
      with the MCC and the carrier's first MNC. */
  function SimSteps(reg: CarrierInfo.CarrierTable, info: DeviceInfo, draws: MapperDraws): (steps: seq<Option<Directive>>)
    requires ValidDraws(draws)
    ensures |steps| == 5
  {
    if info.imsi != "" && info.region != "" && info.carrier != "" then
      var mcc := CarrierInfo.GetMccByRegion(reg, info.region);
      var mncs := CarrierInfo.GetMncByCarrier(reg, info.region, info.carrier);
      if mcc.Some? && mcc.value != "" && |mncs| > 0 then SimAppends(info, mcc.value, mncs[0], IccidTail(draws))
      else [None, None, None, None, None]
    else [None, None, None, None, None]
  }

  /** The five appends of the SIM block, in order: state, operator names, ICCID (the
      drawn ten digits after "89", the MCC and the MNC), then msisdn and netType when
      set. */
  function SimAppends(info: DeviceInfo, mcc: string, mnc: string, tail: string): seq<Option<Directive>> {
    var names := GenerateOperatorNames(info.carrier);
    [ Some(SimState(mcc + mnc, info.imsi)),
      Some(OperatorNames(names.0, names.1, names.2)),
      Some(SimIccid("89" + mcc + mnc + tail)),
      When(info.phoneNumber != "", SimMsisdn(info.phoneNumber)),
      When(info.networkType != "", SimNetType(NetTypeOf(info.networkType))) ]
  }

  /** Country code, MAC, Android ID, SSID and IP address, each when set. */
  function NetworkSteps(info: DeviceInfo): seq<Option<Directive>> {
    [ When(info.country != "", SimCountry(GetCountryCode(info.country))),
      When(info.macAddress != "", InterfaceMac(info.macAddress)),
      When(info.androidId != "", AndroidId(info.androidId)),
      When(info.ssid != "", WifiSsid(info.ssid)),
      When(info.ipAddress != "", WifiIp(info.ipAddress)) ]
  }

  /** The location, always; the two sensor readings when present; then the battery
      level and the sensor-mock switch, always. */
  function TailSteps(info: DeviceInfo, draws: MapperDraws): seq<Option<Directive>> {
    [ Some(GeoFix(info.longitude, info.latitude)),
      if info.accelerometerData.Some? then Some(Acceleration(info.accelerometerData.value)) else None,
      if info.gyroscopeData.Some? then Some(Gyroscope(info.gyroscopeData.value)) else None,
      Some(BatteryLevel(draws.batteryLevel)),
      Some(SensorMock) ]
  }

  /** The commented sections of `generate_commands`, in source order: model,
      serial number, SIM, network, then location through the sensor-mock switch. */
  function Section(n: nat, reg: CarrierInfo.CarrierTable, info: DeviceInfo, draws: MapperDraws): seq<Option<Directive>>
    requires n < 5 && ValidDraws(draws)
  {
    if n == 0 then ModelSteps(info)
    else if n == 1 then SerialSteps(info, draws)
    else if n == 2 then SimSteps(reg, info, draws)
    else if n == 3 then NetworkSteps(info)
    else TailSteps(info, draws)
  }

  /** The appends of sections n onwards. */
  function StepsFrom(n: nat, reg: CarrierInfo.CarrierTable, info: DeviceInfo, draws: MapperDraws): seq<Option<Directive>>
    requires n <= 5 && ValidDraws(draws)
    decreases 5 - n
  {
    if n == 5 then [] else Section(n, reg, info, draws) + StepsFrom(n + 1, reg, info, draws)
  }

  /** Every append of `generate_commands`, in order, one slot per directive kind. */
  function Steps(reg: CarrierInfo.CarrierTable, info: DeviceInfo, draws: MapperDraws): seq<Option<Directive>>
    requires ValidDraws(draws)
  {
    StepsFrom(0, reg, info, draws)
  }

  /** The appends are the five sections' appends, concatenated. */
  lemma StepsSections(reg: CarrierInfo.CarrierTable, info: DeviceInfo, draws: MapperDraws)
    requires ValidDraws(draws)
    ensures Steps(reg, info, draws) ==
      ModelSteps(info) + SerialSteps(info, draws) + SimSteps(reg, info, draws) + NetworkSteps(info) + TailSteps(info, draws)
  {
    var a, b, c := ModelSteps(info), SerialSteps(info, draws), SimSteps(reg, info, draws);
    var d, e := NetworkSteps(info), TailSteps(info, draws);
    NextSection(4, reg, info, draws);
    NextSection(3, reg, info, draws);
    NextSection(2, reg, info, draws);
    NextSection(1, reg, info, draws);
    NextSection(0, reg, info, draws);
    Associate(a, b, c, d, e);
  }

  lemma NextSection(n: nat, reg: CarrierInfo.CarrierTable, info: DeviceInfo, draws: MapperDraws)
    requires n < 5 && ValidDraws(draws)
    ensures StepsFrom(n, reg, info, draws) == Section(n, reg, info, draws) + StepsFrom(n + 1, reg, info, draws)
  {
  }

  /** Slot k of the appends can only emit a directive of kind k: the appends follow
      the template order, one kind each. */
  lemma StepsSlotted(reg: CarrierInfo.CarrierTable, info: DeviceInfo, draws: MapperDraws)
    requires ValidDraws(draws)
    ensures |Steps(reg, info, draws)| == 21 && Slotted(Steps(reg, info, draws), 0)
  {
    StepsSections(reg, info, draws);
    BlocksSlotted(reg, info, draws);
    SlottedBlocks(ModelSteps(info), SerialSteps(info, draws), SimSteps(reg, info, draws), NetworkSteps(info), TailSteps(info, draws));
  }

  /** Blocks of 4, 2, 5, 5 and 5 slots, each slotted from where the previous ends,
      are slotted from 0 together. */
  lemma SlottedBlocks(a: seq<Option<Directive>>, b: seq<Option<Directive>>, c: seq<Option<Directive>>,
                      d: seq<Option<Directive>>, e: seq<Option<Directive>>)
    requires |a| == 4 && Slotted(a, 0) && |b| == 2 && Slotted(b, 4) && |c| == 5 && Slotted(c, 6)
    requires |d| == 5 && Slotted(d, 11) && |e| == 5 && Slotted(e, 16)
    ensures |a + b + c + d + e| == 21 && Slotted(a + b + c + d + e, 0)
  {
    SlottedConcat(a, b, 0);
    SlottedConcat(a + b, c, 0);
    SlottedConcat(a + b + c, d, 0);
    SlottedConcat(a + b + c + d, e, 0);
  }

  /** Each block fills its own range of slots. */
  lemma BlocksSlotted(reg: CarrierInfo.CarrierTable, info: DeviceInfo, draws: MapperDraws)
    requires ValidDraws(draws)
    ensures |ModelSteps(info)| == 4 && Slotted(ModelSteps(info), 0)
    ensures |SerialSteps(info, draws)| == 2 && Slotted(SerialSteps(info, draws), 4)
    ensures |SimSteps(reg, info, draws)| == 5 && Slotted(SimSteps(reg, info, draws), 6)
    ensures |NetworkSteps(info)| == 5 && Slotted(NetworkSteps(info), 11)
    ensures |TailSteps(info, draws)| == 5 && Slotted(TailSteps(info, draws), 16)
  {
    ModelSlotted(info);
    SerialSlotted(info, draws);
    SimSlotted(reg, info, draws);
    NetworkSlotted(info);
    TailSlotted(info, draws);
  }

  lemma ModelSlotted(info: DeviceInfo)
    ensures |ModelSteps(info)| == 4 && Slotted(ModelSteps(info), 0)
  {
    SlottedByIndex(ModelSteps(info), 0);
  }

  lemma SerialSlotted(info: DeviceInfo, draws: MapperDraws)
    requires ValidDraws(draws)
    ensures |SerialSteps(info, draws)| == 2 && Slotted(SerialSteps(info, draws), 4)
  {
    SlottedByIndex(SerialSteps(info, draws), 4);
  }

  lemma NetworkSlotted(info: DeviceInfo)
    ensures |NetworkSteps(info)| == 5 && Slotted(NetworkSteps(info), 11)
  {
    SlottedByIndex(NetworkSteps(info), 11);
  }

  lemma TailSlotted(info: DeviceInfo, draws: MapperDraws)
    ensures |TailSteps(info, draws)| == 5 && Slotted(TailSteps(info, draws), 16)
  {
    SlottedByIndex(TailSteps(info, draws), 16);
  }

  lemma SimSlotted(reg: CarrierInfo.CarrierTable, info: DeviceInfo, draws: MapperDraws)
    requires ValidDraws(draws)
    ensures |SimSteps(reg, info, draws)| == 5 && Slotted(SimSteps(reg, info, draws), 6)
  {
    if SimGate(reg, info) {
      GatedSimSlotted(reg, info, draws);
    } else {
      assert SimSteps(reg, info, draws) == [None, None, None, None, None];
      NoneSlotted(SimSteps(reg, info, draws), 6);
    }
  }

  lemma GatedSimSlotted(reg: CarrierInfo.CarrierTable, info: DeviceInfo, draws: MapperDraws)
    requires ValidDraws(draws) && SimGate(reg, info)
    ensures |SimSteps(reg, info, draws)| == 5 && Slotted(SimSteps(reg, info, draws), 6)
  {
    var mcc := CarrierInfo.GetMccByRegion(reg, info.region).value;
    var mnc := CarrierInfo.GetMncByCarrier(reg, info.region, info.carrier)[0];
    SimAppendsSlotted(info, mcc, mnc, IccidTail(draws));
  }

  /** Appends that all emit nothing are slotted at any base. */
  lemma NoneSlotted(steps: seq<Option<Directive>>, base: nat)
    requires forall k :: 0 <= k < |steps| ==> steps[k].None?
    ensures Slotted(steps, base)
  {
    SlottedByIndex(steps, base);
  }

  lemma SimAppendsSlotted(info: DeviceInfo, mcc: string, mnc: string, tail: string)
    ensures |SimAppends(info, mcc, mnc, tail)| == 5 && Slotted(SimAppends(info, mcc, mnc, tail), 6)
  {
    SlottedByIndex(SimAppends(info, mcc, mnc, tail), 6);
  }

  // The lines each block contributes, written out.

  lemma ModelLines(info: DeviceInfo)
    ensures Lines(ModelSteps(info)) ==
      if info.model == "" then []
      else
        var brand := InferBrandFromModel(info.model);
        [ Render(Manufacturer(brand)), Render(Brand(brand)),
          Render(ProductModel(info.model)), Render(ProductDevice(info.model)) ]
  {
    var brand := InferBrandFromModel(info.model);
    LinesOfFour(
      When(info.model != "", Manufacturer(brand)), When(info.model != "", Brand(brand)),
      When(info.model != "", ProductModel(info.model)), When(info.model != "", ProductDevice(info.model)));
  }

  lemma SerialLines(info: DeviceInfo, draws: MapperDraws)
    requires ValidDraws(draws)
    ensures Lines(SerialSteps(info, draws)) ==
      [Render(SerialNo(SerialNumber(draws)))] + LineOf(When(info.imei != "", SimImei(info.imei)))
  {
    var s := SerialSteps(info, draws);
    LinesFirst(s);
    LinesFirst(s[1..]);
    assert s[2..] == [];
  }

  lemma TailLines(info: DeviceInfo, draws: MapperDraws)
    ensures Lines(TailSteps(info, draws)) ==
      [Render(GeoFix(info.longitude, info.latitude))] +
      (if info.accelerometerData.Some? then [Render(Acceleration(info.accelerometerData.value))] else []) +
      (if info.gyroscopeData.Some? then [Render(Gyroscope(info.gyroscopeData.value))] else []) +
      [Render(BatteryLevel(draws.batteryLevel)), Render(SensorMock)]
  {
    LinesOfFive(
      Some(GeoFix(info.longitude, info.latitude)),
      if info.accelerometerData.Some? then Some(Acceleration(info.accelerometerData.value)) else None,
      if info.gyroscopeData.Some? then Some(Gyroscope(info.gyroscopeData.value)) else None,
      Some(BatteryLevel(draws.batteryLevel)),
      Some(SensorMock));
  }

  /** The commands are the blocks' lines in order. */
  lemma CommandBlocks(reg: CarrierInfo.CarrierTable, info: DeviceInfo, draws: MapperDraws)
    requires ValidDraws(draws)
    ensures GenerateCommands(reg, info, draws) ==
      Lines(ModelSteps(info)) + Lines(SerialSteps(info, draws)) + Lines(SimSteps(reg, info, draws)) +
      Lines(NetworkSteps(info)) + Lines(TailSteps(info, draws))
  {
    var a, b, c := ModelSteps(info), SerialSteps(info, draws), SimSteps(reg, info, draws);
    var d, e := NetworkSteps(info), TailSteps(info, draws);
    StepsSections(reg, info, draws);
    LinesConcat(a + b + c + d, e);
    LinesConcat(a + b + c, d);
    LinesConcat(a + b, c);
    LinesConcat(a, b);
  }

  /** `generate_commands`: the rendered directives of the appends whose guard held. */
  function GenerateCommands(reg: CarrierInfo.CarrierTable, info: DeviceInfo, draws: MapperDraws): (commands: seq<string>)
    requires ValidDraws(draws)
    ensures |commands| <= 21
  {
    StepsSlotted(reg, info, draws);
    CompactMembers(Steps(reg, info, draws));
    LinesAt(Steps(reg, info, draws));
    Lines(Steps(reg, info, draws))
  }

  /** `generate_commands_batch`: one command list per record, in input order. */
  method GenerateCommandsBatch(reg: CarrierInfo.CarrierTable, infos: seq<DeviceInfo>, draws: seq<MapperDraws>)
    returns (batches: seq<seq<string>>)
    requires |draws| == |infos| && forall i :: 0 <= i < |draws| ==> ValidDraws(draws[i])
    ensures |batches| == |infos|
    ensures forall i :: 0 <= i < |infos| ==> batches[i] == GenerateCommands(reg, infos[i], draws[i])
  {
    batches := seq(|infos|, i requires 0 <= i < |infos| => GenerateCommands(reg, infos[i], draws[i]));
  }
}

=== FILE: dg_inline.dfy ===
/** `DGCommandGenerator` of `src/executor/dg_command_generator.py`: the copy that
    writes brand inference, operator naming and both dictionary lookups inline.

    `GenerateCommands` runs the commented sections of the source method in order,
    each one a method of its own here that appends the rendered line of every
    directive whose guard holds. Each section method states the lines it appends in
    terms of the helper-based copy's appends, so the inline copy emits exactly the
    commands of the helper-based copy.
 */
module DgInline {
  import opened Text
  import opened Assoc
  import opened Models
  import opened DgDirectives
  import CarrierInfo
  import DgHelpers

  /** `generate_commands`. */
  method GenerateCommands(reg: CarrierInfo.CarrierTable, info: DeviceInfo, draws: MapperDraws)
    returns (commands: seq<string>)
    requires ValidDraws(draws)
    ensures commands == DgHelpers.GenerateCommands(reg, info, draws)
  {
    commands := [];
    commands := ModelSection(info, commands);
    commands := SerialSection(info, draws, commands);
    commands := SimSection(reg, info, draws, commands);
    commands := NetworkSection(info, commands);
    commands := TailSection(info, draws, commands);
    DgHelpers.CommandBlocks(reg, info, draws);
    assert [] + Lines(DgHelpers.ModelSteps(info)) == Lines(DgHelpers.ModelSteps(info));
  }

  /** Manufacturer and brand from the brand the inline if/elif chain infers, then
      model and device, all only when a model is set. */
  method ModelSection(info: DeviceInfo, commands: seq<string>) returns (out: seq<string>)
    ensures out == commands + Lines(DgHelpers.ModelSteps(info))
  {
    out := commands;
    if info.model != "" {
      var brand := InlineBrand(info.model);
      out := out + [Render(Manufacturer(brand))];
      out := out + [Render(Brand(brand))];
    }
    if info.model != "" {
      out := out + [Render(ProductModel(info.model))];
      out := out + [Render(ProductDevice(info.model))];
    }
    DgHelpers.ModelLines(info);
  }

  /** The if/elif chain that infers the brand from the model name, written out in
      the method; it agrees with the helper-based copy's `_infer_brand_from_model`. */
  method InlineBrand(model: string) returns (brand: string)
    ensures brand == DgHelpers.InferBrandFromModel(model)
  {
    brand := "Unknown";
    if Contains(model, "Samsung") || Contains(model, "SM-") {
      brand := "samsung";
    } else if Contains(model, "iPhone") {
      brand := "apple";
    } else if Contains(model, "Huawei") || Contains(model, "ELE-") || Contains(model, "VOG-") {
      brand := "huawei";
    } else if Contains(model, "Xiaomi") || Contains(model, "POCO") || Contains(model, "Redmi") {
      brand := "xiaomi";
    } else if Contains(model, "OPPO") || Contains(model, "CPH") {
      brand := "oppo";
    } else if Contains(model, "Vivo") || Contains(model, "V20") {
      brand := "vivo";
    }
  }

  /** The drawn serial number, then the IMEI when set. */
  method SerialSection(info: DeviceInfo, draws: MapperDraws, commands: seq<string>) returns (out: seq<string>)
    requires ValidDraws(draws)
    ensures out == commands + Lines(DgHelpers.SerialSteps(info, draws))
  {
    var serial := SerialNumber(draws);
    out := commands + [Render(SerialNo(serial))];
    if info.imei != "" {
      out := out + [Render(SimImei(info.imei))];
    }
    DgHelpers.SerialLines(info, draws);
  }

  /** The SIM block: state, operator names from the inline chain, ICCID, then msisdn
      and netType (from the inline dictionary) when set; nothing when the gate fails. */
  method SimSection(reg: CarrierInfo.CarrierTable, info: DeviceInfo, draws: MapperDraws, commands: seq<string>)
    returns (out: seq<string>)
    requires ValidDraws(draws)
    ensures out == commands + Lines(DgHelpers.SimSteps(reg, info, draws))
  {
    out := commands;
    if info.imsi != "" && info.region != "" && info.carrier != "" {
      var mcc := CarrierInfo.GetMccByRegion(reg, info.region);
      var mncList := CarrierInfo.GetMncByCarrier(reg, info.region, info.carrier);
      if mcc.Some? && mcc.value != "" && |mncList| > 0 {
        var mnc := mncList[0];
        var spn, operatorLong, operatorShort := info.carrier, info.carrier, info.carrier;
        if info.carrier == "Verizon" {
          operatorLong, operatorShort := "Verizon Wireless", "Verizon";
        } else if Contains(info.carrier, "AT&T") {
          spn, operatorLong, operatorShort := "AT&T Mobility", "AT&T Mobility", "AT&T";
        } else if Contains(info.carrier, "China") {
          if Contains(info.carrier, "Mobile") {
            operatorLong, operatorShort := "China Mobile", "CMCC";
          } else if Contains(info.carrier, "Unicom") {
            operatorLong, operatorShort := "China Unicom", "CU";
          } else if Contains(info.carrier, "Telecom") {
            operatorLong, operatorShort := "China Telecom", "CT";
          }
        }
        var netType := "";
        if info.networkType != "" {
          netType := GetOr(NetTypeMap, info.networkType, "wifi");
          NetTypeLookup(info.networkType);
        }
        out := SimLines(info, mcc.value, mnc, (spn, operatorLong, operatorShort), IccidTail(draws), netType, commands);
      } else {
        NoLines();
      }
    } else {
      NoLines();
    }
  }

  /** The five appends of a SIM block whose gate held. */
  method SimLines(info: DeviceInfo, mcc: string, mnc: string, names: (string, string, string), tail: string,
                  netType: string, commands: seq<string>)
    returns (out: seq<string>)
    requires names == DgHelpers.GenerateOperatorNames(info.carrier)
    requires info.networkType != "" ==> netType == NetTypeOf(info.networkType)
    ensures out == commands + Lines(DgHelpers.SimAppends(info, mcc, mnc, tail))
  {
    ghost var trail: seq<Option<Directive>> := [];
    ghost var prev := commands;
    out := commands + [Render(SimState(mcc + mnc, info.imsi))];
    Step(commands, trail, prev, out, Some(SimState(mcc + mnc, info.imsi)));
    trail := trail + [Some(SimState(mcc + mnc, info.imsi))];
    prev := out;
    out := out + [Render(OperatorNames(names.0, names.1, names.2))];
    Step(commands, trail, prev, out, Some(OperatorNames(names.0, names.1, names.2)));
    trail := trail + [Some(OperatorNames(names.0, names.1, names.2))];
    prev := out;
    out := out + [Render(SimIccid("89" + mcc + mnc + tail))];
    Step(commands, trail, prev, out, Some(SimIccid("89" + mcc + mnc + tail)));
    trail := trail + [Some(SimIccid("89" + mcc + mnc + tail))];
    prev := out;
    if info.phoneNumber != "" {
      out := out + [Render(SimMsisdn(info.phoneNumber))];
    }
    Step(commands, trail, prev, out, When(info.phoneNumber != "", SimMsisdn(info.phoneNumber)));
    trail := trail + [When(info.phoneNumber != "", SimMsisdn(info.phoneNumber))];
    prev := out;
    if info.networkType != "" {
      out := out + [Render(SimNetType(netType))];
    }
    Step(commands, trail, prev, out, When(info.networkType != "", SimNetType(NetTypeOf(info.networkType))));
    trail := trail + [When(info.networkType != "", SimNetType(NetTypeOf(info.networkType)))];
    Singletons(
      Some(SimState(mcc + mnc, info.imsi)),
      Some(OperatorNames(names.0, names.1, names.2)),
      Some(SimIccid("89" + mcc + mnc + tail)),
      When(info.phoneNumber != "", SimMsisdn(info.phoneNumber)),
      When(info.networkType != "", SimNetType(NetTypeOf(info.networkType))));
  }

  /** Country code (from the inline dictionary), MAC address, Android ID, SSID and IP
      address, each when set. */
  method NetworkSection(info: DeviceInfo, commands: seq<string>) returns (out: seq<string>)
    ensures out == commands + Lines(DgHelpers.NetworkSteps(info))
  {
    ghost var trail: seq<Option<Directive>> := [];
    ghost var prev := commands;
    out := CountrySection(info, commands);
    Step(commands, trail, prev, out, When(info.country != "", SimCountry(DgHelpers.GetCountryCode(info.country))));
    trail := trail + [When(info.country != "", SimCountry(DgHelpers.GetCountryCode(info.country)))];
    prev := out;
    if info.macAddress != "" {
      out := out + [Render(InterfaceMac(info.macAddress))];
    }
    Step(commands, trail, prev, out, When(info.macAddress != "", InterfaceMac(info.macAddress)));
    trail := trail + [When(info.macAddress != "", InterfaceMac(info.macAddress))];
    prev := out;
    if info.androidId != "" {
      out := out + [Render(AndroidId(info.androidId))];
    }
    Step(commands, trail, prev, out, When(info.androidId != "", AndroidId(info.androidId)));
    trail := trail + [When(info.androidId != "", AndroidId(info.androidId))];
    prev := out;
    if info.ssid != "" {
      out := out + [Render(WifiSsid(info.ssid))];
    }
    Step(commands, trail, prev, out, When(info.ssid != "", WifiSsid(info.ssid)));
    trail := trail + [When(info.ssid != "", WifiSsid(info.ssid))];
    prev := out;
    if info.ipAddress != "" {
      out := out + [Render(WifiIp(info.ipAddress))];
    }
    Step(commands, trail, prev, out, When(info.ipAddress != "", WifiIp(info.ipAddress)));
    trail := trail + [When(info.ipAddress != "", WifiIp(info.ipAddress))];
    Singletons(
      When(info.country != "", SimCountry(DgHelpers.GetCountryCode(info.country))),
      When(info.macAddress != "", InterfaceMac(info.macAddress)),
      When(info.androidId != "", AndroidId(info.androidId)),
      When(info.ssid != "", WifiSsid(info.ssid)),
      When(info.ipAddress != "", WifiIp(info.ipAddress)));
  }

  /** Five appends of one element each build the five-element list. */
  lemma Singletons<T>(a: T, b: T, c: T, d: T, e: T)
    ensures [] + [a] + [b] + [c] + [d] + [e] == [a, b, c, d, e]
  {
  }

  /** One append: if `prev` holds the lines of `trail`, then `out`, which adds the
      line of `o` when `o` is present, holds the lines of `trail` extended by `o`. */
  lemma Step(commands: seq<string>, trail: seq<Option<Directive>>, prev: seq<string>, out: seq<string>, o: Option<Directive>)
    requires prev == commands + Lines(trail)
    requires out == prev + LineOf(o)
    ensures out == commands + Lines(trail + [o])
  {
    Extend(trail, o);
  }

  /** The country code of the inline dictionary, when a country is set. */
  method CountrySection(info: DeviceInfo, commands: seq<string>) returns (out: seq<string>)
    ensures out == commands + LineOf(When(info.country != "", SimCountry(DgHelpers.GetCountryCode(info.country))))
  {
    out := commands;
    if info.country != "" {
      var countryCode := GetOr(CountryCodeMap, info.country, "US");
      DgHelpers.CountryCodeLookup(info.country);
      out := out + [Render(SimCountry(countryCode))];
    }
  }

  /** Location, then each sensor reading present, the drawn battery level and the
      sensor-mock switch. */
  method TailSection(info: DeviceInfo, draws: MapperDraws, commands: seq<string>) returns (out: seq<string>)
    ensures out == commands + Lines(DgHelpers.TailSteps(info, draws))
  {
    out := commands + [Render(GeoFix(info.longitude, info.latitude))];
    if info.accelerometerData.Some? {
      out := out + [Render(Acceleration(info.accelerometerData.value))];
    }
    if info.gyroscopeData.Some? {
      out := out + [Render(Gyroscope(info.gyroscopeData.value))];
    }
    out := out + [Render(BatteryLevel(draws.batteryLevel))];
    out := out + [Render(SensorMock)];
    DgHelpers.TailLines(info, draws);
  }

  /** Appends whose guards all failed add no line. */
  lemma NoLines()
    ensures Lines([None, None, None, None, None]) == []
  {
    LinesOfFive(None, None, None, None, None);
  }

  /** `generate_commands_batch`: one command list per record, in input order, each
      the one the helper-based copy produces. */
  method GenerateCommandsBatch(reg: CarrierInfo.CarrierTable, infos: seq<DeviceInfo>, draws: seq<MapperDraws>)
    returns (batches: seq<seq<string>>)
    requires |draws| == |infos| && forall i :: 0 <= i < |draws| ==> ValidDraws(draws[i])
    ensures |batches| == |infos|
    ensures forall i :: 0 <= i < |infos| ==> batches[i] == DgHelpers.GenerateCommands(reg, infos[i], draws[i])
  {
    batches := [];
    var i := 0;
    while i < |infos|
      invariant 0 <= i <= |infos|
      invariant |batches| == i
      invariant forall j :: 0 <= j < i ==> batches[j] == DgHelpers.GenerateCommands(reg, infos[j], draws[j])
    {
      var commands := GenerateCommands(reg, infos[i], draws[i]);
      Snoc(batches, commands);
      batches := batches + [commands];
      i := i + 1;
    }
  }
}

=== FILE: dg_properties.dfy ===
/** What `generate_commands` promises about the commands it returns, proved of the
    helper-based copy (the inline copy emits the same commands, see `DgInline`):
    where each directive sits, which directives are emitted under which conditions,
    and what the commands are for a record with every field at its default.
 */
module DgProperties {
  import opened Text
  import opened Assoc
  import opened Models
  import opened DgDirectives
  import CarrierInfo
  import DgHelpers

  // ---------------------------------------------------------------------------
  // Where the blocks' appends sit
  // ---------------------------------------------------------------------------

  /** Slot j of each block sits at the block's offset in the whole list. */
  lemma BlockOffsets<T>(a: seq<T>, b: seq<T>, c: seq<T>, d: seq<T>, e: seq<T>)
    requires |a| == 4 && |b| == 2 && |c| == 5 && |d| == 5 && |e| == 5
    ensures |a + b + c + d + e| == 21
    ensures forall j :: 0 <= j < 4 ==> (a + b + c + d + e)[j] == a[j]
    ensures forall j :: 0 <= j < 2 ==> (a + b + c + d + e)[4 + j] == b[j]
    ensures forall j :: 0 <= j < 5 ==> (a + b + c + d + e)[6 + j] == c[j]
    ensures forall j :: 0 <= j < 5 ==> (a + b + c + d + e)[11 + j] == d[j]
    ensures forall j :: 0 <= j < 5 ==> (a + b + c + d + e)[16 + j] == e[j]
  {
  }

  /** The appends: 21 slots, slot k holding only directives of kind k, the SIM block
      in slots 6 to 10, the country code in slot 11 and the location in slot 16. */
  lemma Slots(reg: CarrierInfo.CarrierTable, info: DeviceInfo, draws: MapperDraws)
    requires ValidDraws(draws)
    ensures var steps := DgHelpers.Steps(reg, info, draws);
      && |steps| == 21 && Slotted(steps, 0)
      && (forall j :: 0 <= j < 5 ==> steps[6 + j] == DgHelpers.SimSteps(reg, info, draws)[j])
      && steps[11] == When(info.country != "", SimCountry(DgHelpers.GetCountryCode(info.country)))
      && steps[16] == Some(GeoFix(info.longitude, info.latitude))
      && steps[19] == Some(BatteryLevel(draws.batteryLevel))
      && steps[20] == Some(SensorMock)
  {
    DgHelpers.StepsSlotted(reg, info, draws);
    DgHelpers.StepsSections(reg, info, draws);
    DgHelpers.BlocksSlotted(reg, info, draws);
    BlockOffsets(
      DgHelpers.ModelSteps(info), DgHelpers.SerialSteps(info, draws), DgHelpers.SimSteps(reg, info, draws),
      DgHelpers.NetworkSteps(info), DgHelpers.TailSteps(info, draws));
  }

  /** The model block in slots 0 to 3, then the serial number and the IMEI. */
  lemma FrontSlots(reg: CarrierInfo.CarrierTable, info: DeviceInfo, draws: MapperDraws)
    requires ValidDraws(draws)
    ensures var steps := DgHelpers.Steps(reg, info, draws);
      && |steps| == 21 && Slotted(steps, 0)
      && var brand := DgHelpers.InferBrandFromModel(info.model);
      && steps[0] == When(info.model != "", Manufacturer(brand))
      && steps[1] == When(info.model != "", Brand(brand))
      && steps[2] == When(info.model != "", ProductModel(info.model))
      && steps[3] == When(info.model != "", ProductDevice(info.model))
      && steps[4] == Some(SerialNo(SerialNumber(draws)))
      && steps[5] == When(info.imei != "", SimImei(info.imei))
  {
    DgHelpers.StepsSlotted(reg, info, draws);
    DgHelpers.StepsSections(reg, info, draws);
    BlockOffsets(
      DgHelpers.ModelSteps(info), DgHelpers.SerialSteps(info, draws), DgHelpers.SimSteps(reg, info, draws),
      DgHelpers.NetworkSteps(info), DgHelpers.TailSteps(info, draws));
  }

  /** The network block in slots 11 to 15 and the two sensor readings in 17 and 18. */
  lemma NetworkSlots(reg: CarrierInfo.CarrierTable, info: DeviceInfo, draws: MapperDraws)
    requires ValidDraws(draws)
    ensures var steps := DgHelpers.Steps(reg, info, draws);
      && |steps| == 21
      && (forall j :: 0 <= j < 5 ==> steps[11 + j] == DgHelpers.NetworkSteps(info)[j])
      && steps[17] == (if info.accelerometerData.Some? then Some(Acceleration(info.accelerometerData.value)) else None)
      && steps[18] == (if info.gyroscopeData.Some? then Some(Gyroscope(info.gyroscopeData.value)) else None)
  {
    DgHelpers.StepsSections(reg, info, draws);
    BlockOffsets(
      DgHelpers.ModelSteps(info), DgHelpers.SerialSteps(info, draws), DgHelpers.SimSteps(reg, info, draws),
      DgHelpers.NetworkSteps(info), DgHelpers.TailSteps(info, draws));
  }

  /** The SIM block's appends: all five absent when the gate fails; otherwise state,
      operator names and ICCID always, msisdn and netType when set. */
  lemma SimSlots(reg: CarrierInfo.CarrierTable, info: DeviceInfo, draws: MapperDraws)
    requires ValidDraws(draws)
    ensures var s := DgHelpers.SimSteps(reg, info, draws);
      && |s| == 5
      && (!SimGate(reg, info) ==> forall j :: 0 <= j < 5 ==> s[j].None?)
      && (SimGate(reg, info) ==>
            var names := DgHelpers.GenerateOperatorNames(info.carrier);
            && s[0] == Some(SimState(SimNumeric(reg, info), info.imsi))
            && s[1] == Some(OperatorNames(names.0, names.1, names.2))
            && s[2] == Some(SimIccid("89" + SimNumeric(reg, info) + IccidTail(draws)))
            && s[3] == When(info.phoneNumber != "", SimMsisdn(info.phoneNumber))
            && s[4] == When(info.networkType != "", SimNetType(NetTypeOf(info.networkType))))
  {
    if SimGate(reg, info) {
      var mcc := CarrierInfo.GetMccByRegion(reg, info.region).value;
      var mnc := CarrierInfo.GetMncByCarrier(reg, info.region, info.carrier)[0];
      assert DgHelpers.SimSteps(reg, info, draws) == DgHelpers.SimAppends(info, mcc, mnc, IccidTail(draws));
      AppendSlots(info, mcc, mnc, IccidTail(draws));
    }
  }

  /** The five SIM appends for a given MCC, MNC and ICCID tail. */
  lemma AppendSlots(info: DeviceInfo, mcc: string, mnc: string, tail: string)
    ensures var s := DgHelpers.SimAppends(info, mcc, mnc, tail);
      var names := DgHelpers.GenerateOperatorNames(info.carrier);
      && |s| == 5
      && s[0] == Some(SimState(mcc + mnc, info.imsi))
      && s[1] == Some(OperatorNames(names.0, names.1, names.2))
      && s[2] == Some(SimIccid("89" + (mcc + mnc) + tail))
      && s[3] == When(info.phoneNumber != "", SimMsisdn(info.phoneNumber))
      && s[4] == When(info.networkType != "", SimNetType(NetTypeOf(info.networkType)))
  {
    assert "89" + mcc + mnc + tail == "89" + (mcc + mnc) + tail;
  }

  /** Each SIM-block slot, as the directive it holds or nothing. */
  lemma SimSlotValues(reg: CarrierInfo.CarrierTable, info: DeviceInfo, draws: MapperDraws)
    requires ValidDraws(draws)
    ensures var steps := DgHelpers.Steps(reg, info, draws);
      var gate := SimGate(reg, info);
      && |steps| == 21 && Slotted(steps, 0)
      && steps[6] == (if gate then Some(SimState(SimNumeric(reg, info), info.imsi)) else None)
      && steps[7] == (if gate then
           var names := DgHelpers.GenerateOperatorNames(info.carrier);
           Some(OperatorNames(names.0, names.1, names.2)) else None)
      && steps[8] == (if gate then Some(SimIccid("89" + SimNumeric(reg, info) + IccidTail(draws))) else None)
      && steps[9] == (if gate && info.phoneNumber != "" then Some(SimMsisdn(info.phoneNumber)) else None)
      && steps[10] == (if gate && info.networkType != "" then Some(SimNetType(NetTypeOf(info.networkType))) else None)
  {
    Slots(reg, info, draws);
    SimSlots(reg, info, draws);
  }

  // ---------------------------------------------------------------------------
  // Lines recognised by their heads
  // ---------------------------------------------------------------------------

  /** In slotted appends, some line starts with the head marking slot k's kind exactly
      when slot k holds a directive, and every such line renders that directive. */
  lemma HeadedLines(commands: seq<string>, steps: seq<Option<Directive>>, h: string, k: nat, o: Option<Directive>)
    requires commands == Lines(steps) && Slotted(steps, 0) && k < |steps| && Marks(h, k) && steps[k] == o
    ensures (exists i :: 0 <= i < |commands| && h <= commands[i]) <==> o.Some?
    ensures forall i :: 0 <= i < |commands| && h <= commands[i] ==> o.Some? && commands[i] == Render(o.value)
  {
    LineOfKind(steps, 0, h, k);
    forall i | 0 <= i < |commands| && h <= commands[i]
      ensures o.Some? && commands[i] == Render(o.value)
    {
      LineOfKindContent(steps, 0, h, k, i);
    }
  }

  // Each head marks its slot: some line starts with it exactly when the slot holds a
  // directive, and that line renders it.

  lemma SimStateHeaded(commands: seq<string>, steps: seq<Option<Directive>>)
    requires commands == Lines(steps) && |steps| == 21 && Slotted(steps, 0)
    ensures (exists i :: 0 <= i < |commands| && Head(SimState("", "")) <= commands[i]) <==> steps[6].Some?
    ensures forall i :: 0 <= i < |commands| && Head(SimState("", "")) <= commands[i] ==>
      steps[6].Some? && commands[i] == Render(steps[6].value)
  {
    SimStateMarks();
    HeadedLines(commands, steps, Head(SimState("", "")), 6, steps[6]);
  }

  lemma SimMsisdnHeaded(commands: seq<string>, steps: seq<Option<Directive>>)
    requires commands == Lines(steps) && |steps| == 21 && Slotted(steps, 0)
    ensures (exists i :: 0 <= i < |commands| && Head(SimMsisdn("")) <= commands[i]) <==> steps[9].Some?
    ensures forall i :: 0 <= i < |commands| && Head(SimMsisdn("")) <= commands[i] ==>
      steps[9].Some? && commands[i] == Render(steps[9].value)
  {
    SimMsisdnMarks();
    HeadedLines(commands, steps, Head(SimMsisdn("")), 9, steps[9]);
  }

  lemma SimNetTypeHeaded(commands: seq<string>, steps: seq<Option<Directive>>)
    requires commands == Lines(steps) && |steps| == 21 && Slotted(steps, 0)
    ensures (exists i :: 0 <= i < |commands| && Head(SimNetType("")) <= commands[i]) <==> steps[10].Some?
    ensures forall i :: 0 <= i < |commands| && Head(SimNetType("")) <= commands[i] ==>
      steps[10].Some? && commands[i] == Render(steps[10].value)
  {
    SimNetTypeMarks();
    HeadedLines(commands, steps, Head(SimNetType("")), 10, steps[10]);
  }

  lemma SimCountryHeaded(commands: seq<string>, steps: seq<Option<Directive>>)
    requires commands == Lines(steps) && |steps| == 21 && Slotted(steps, 0)
    ensures (exists i :: 0 <= i < |commands| && Head(SimCountry("")) <= commands[i]) <==> steps[11].Some?
    ensures forall i :: 0 <= i < |commands| && Head(SimCountry("")) <= commands[i] ==>
      steps[11].Some? && commands[i] == Render(steps[11].value)
  {
    SimCountryMarks();
    HeadedLines(commands, steps, Head(SimCountry("")), 11, steps[11]);
  }

  /** Lines of slotted appends whose SIM-state slot holds the state exactly when
      `gate` holds. */
  lemma SimStateLines(commands: seq<string>, steps: seq<Option<Directive>>, gate: bool, numeric: string, imsi: string)
    requires commands == Lines(steps) && |steps| == 21 && Slotted(steps, 0)
    requires steps[6] == (if gate then Some(SimState(numeric, imsi)) else None)
    ensures (exists i :: 0 <= i < |commands| && Head(SimState("", "")) <= commands[i]) <==> gate
    ensures forall i :: 0 <= i < |commands| && Head(SimState("", "")) <= commands[i] ==>
      commands[i] == "dg config -a sim.state=1 -a sim.numeric=" + numeric + " -a sim.imsi=" + imsi
  {
    SimStateHeaded(commands, steps);
    SimStateText(numeric, imsi);
  }


  /** Some command sets the SIM state exactly when the SIM gate holds (IMSI, region and
      carrier set, the region's MCC and the carrier's MNC list non-empty); each such
      command carries the MCC and first MNC as `sim.numeric`, then the IMSI. */
  lemma SimStateCommand(reg: CarrierInfo.CarrierTable, info: DeviceInfo, draws: MapperDraws)
    requires ValidDraws(draws)
    ensures var commands := DgHelpers.GenerateCommands(reg, info, draws);
      && ((exists i :: 0 <= i < |commands| && Head(SimState("", "")) <= commands[i])
          <==> SimGate(reg, info))
      && (SimGate(reg, info) ==>
            forall i :: 0 <= i < |commands| && Head(SimState("", "")) <= commands[i] ==>
              commands[i] == "dg config -a sim.state=1 -a sim.numeric=" + SimNumeric(reg, info) + " -a sim.imsi=" + info.imsi)
  {
    SimSlotValues(reg, info, draws);
    var commands, steps := DgHelpers.GenerateCommands(reg, info, draws), DgHelpers.Steps(reg, info, draws);
    if SimGate(reg, info) {
      SimStateLines(commands, steps, true, SimNumeric(reg, info), info.imsi);
    } else {
      SimStateLines(commands, steps, false, "", "");
    }
  }

  /** Lines of slotted appends whose msisdn slot holds the msisdn exactly when `set`
      holds. */
  lemma SimMsisdnLines(commands: seq<string>, steps: seq<Option<Directive>>, present: bool, msisdn: string)
    requires commands == Lines(steps) && |steps| == 21 && Slotted(steps, 0)
    requires steps[9] == (if present then Some(SimMsisdn(msisdn)) else None)
    ensures (exists i :: 0 <= i < |commands| && Head(SimMsisdn("")) <= commands[i]) <==> present
    ensures forall i :: 0 <= i < |commands| && Head(SimMsisdn("")) <= commands[i] ==>
      commands[i] == "dg config -a sim.msisdn=" + msisdn
  {
    SimMsisdnHeaded(commands, steps);
    SimMsisdnText(msisdn);
  }

  /** Some command sets the msisdn exactly when the SIM gate holds and the phone number
      is set; each such command carries the phone number. */
  lemma SimMsisdnCommand(reg: CarrierInfo.CarrierTable, info: DeviceInfo, draws: MapperDraws)
    requires ValidDraws(draws)
    ensures var commands := DgHelpers.GenerateCommands(reg, info, draws);
      && ((exists i :: 0 <= i < |commands| && Head(SimMsisdn("")) <= commands[i])
          <==> SimGate(reg, info) && info.phoneNumber != "")
      && (forall i :: 0 <= i < |commands| && Head(SimMsisdn("")) <= commands[i] ==>
            commands[i] == "dg config -a sim.msisdn=" + info.phoneNumber)
  {
    SimSlotValues(reg, info, draws);
    SimMsisdnLines(DgHelpers.GenerateCommands(reg, info, draws), DgHelpers.Steps(reg, info, draws),
      SimGate(reg, info) && info.phoneNumber != "", info.phoneNumber);
  }

  /** Lines of slotted appends whose netType slot holds the type exactly when `set`
      holds. */
  lemma SimNetTypeLines(commands: seq<string>, steps: seq<Option<Directive>>, present: bool, netType: string)
    requires commands == Lines(steps) && |steps| == 21 && Slotted(steps, 0)
    requires steps[10] == (if present then Some(SimNetType(netType)) else None)
    ensures (exists i :: 0 <= i < |commands| && Head(SimNetType("")) <= commands[i]) <==> present
    ensures forall i :: 0 <= i < |commands| && Head(SimNetType("")) <= commands[i] ==>
      commands[i] == "dg config -a sim.netType=" + netType
  {
    SimNetTypeHeaded(commands, steps);
    SimNetTypeText(netType);
  }

  /** Some command sets the network type exactly when the SIM gate holds and the
      record's network type is set; each such command carries the type's entry in the
      network-type map, "wifi" for a type the map lacks (`NetTypeLookup`). */
  lemma SimNetTypeCommand(reg: CarrierInfo.CarrierTable, info: DeviceInfo, draws: MapperDraws)
    requires ValidDraws(draws)
    ensures var commands := DgHelpers.GenerateCommands(reg, info, draws);
      && ((exists i :: 0 <= i < |commands| && Head(SimNetType("")) <= commands[i])
          <==> SimGate(reg, info) && info.networkType != "")
      && (forall i :: 0 <= i < |commands| && Head(SimNetType("")) <= commands[i] ==>
            commands[i] == "dg config -a sim.netType=" + NetTypeOf(info.networkType))
  {
    SimSlotValues(reg, info, draws);
    SimNetTypeLines(DgHelpers.GenerateCommands(reg, info, draws), DgHelpers.Steps(reg, info, draws),
      SimGate(reg, info) && info.networkType != "", NetTypeOf(info.networkType));
  }

  /** Lines of slotted appends whose country slot holds the code exactly when `set`
      holds. */
  lemma SimCountryLines(commands: seq<string>, steps: seq<Option<Directive>>, present: bool, code: string)
    requires commands == Lines(steps) && |steps| == 21 && Slotted(steps, 0)
    requires steps[11] == When(present, SimCountry(code))
    ensures (exists i :: 0 <= i < |commands| && Head(SimCountry("")) <= commands[i]) <==> present
    ensures forall i :: 0 <= i < |commands| && Head(SimCountry("")) <= commands[i] ==>
      commands[i] == "dg config -a sim.country=" + code
  {
    SimCountryHeaded(commands, steps);
    SimCountryText(code);
  }

  /** Some command sets the SIM country exactly when the record's country is set,
      whether or not the SIM block is emitted; each such command carries the country's
      entry in the country-code map, "US" for a country the map lacks
      (`DgHelpers.CountryCodeLookup`). */
  lemma SimCountryCommand(reg: CarrierInfo.CarrierTable, info: DeviceInfo, draws: MapperDraws)
    requires ValidDraws(draws)
    ensures var commands := DgHelpers.GenerateCommands(reg, info, draws);
      && ((exists i :: 0 <= i < |commands| && Head(SimCountry("")) <= commands[i]) <==> info.country != "")
      && (forall i :: 0 <= i < |commands| && Head(SimCountry("")) <= commands[i] ==>
            commands[i] == "dg config -a sim.country=" + DgHelpers.GetCountryCode(info.country))
  {
    Slots(reg, info, draws);
    SimCountryLines(DgHelpers.GenerateCommands(reg, info, draws), DgHelpers.Steps(reg, info, draws),
      info.country != "", DgHelpers.GetCountryCode(info.country));
  }

  /** Lines of appends whose operator-names and ICCID slots hold directives include
      their renderings. */
  lemma SimIdentityLines(commands: seq<string>, steps: seq<Option<Directive>>, names: (string, string, string), iccid: string)
    requires commands == Lines(steps) && |steps| == 21
    requires steps[7] == Some(OperatorNames(names.0, names.1, names.2)) && steps[8] == Some(SimIccid(iccid))
    ensures ("dg config -a sim.spn=\"" + names.0 + "\" -a sim.operatorLongName=\"" + names.1
               + "\" -a sim.operatorShortName=\"" + names.2 + "\"") in commands
    ensures ("dg config -a sim.iccid=" + iccid) in commands
  {
    SlotLine(steps, 7);
    SlotLine(steps, 8);
    OperatorNamesText(names.0, names.1, names.2);
    SimIccidText(iccid);
  }

  /** When the SIM gate holds, the commands set the operator names the carrier maps to
      and the ICCID: "89", the MCC and first MNC, then the ten drawn digits. */
  lemma SimIdentityCommands(reg: CarrierInfo.CarrierTable, info: DeviceInfo, draws: MapperDraws)
    requires ValidDraws(draws)
    ensures var commands := DgHelpers.GenerateCommands(reg, info, draws);
      var names := DgHelpers.GenerateOperatorNames(info.carrier);
      SimGate(reg, info) ==>
        && ("dg config -a sim.spn=\"" + names.0 + "\" -a sim.operatorLongName=\"" + names.1
              + "\" -a sim.operatorShortName=\"" + names.2 + "\"") in commands
        && ("dg config -a sim.iccid=" + ("89" + SimNumeric(reg, info) + IccidTail(draws))) in commands
        && |IccidTail(draws)| == 10 && IsDigits(IccidTail(draws))
  {
    if SimGate(reg, info) {
      SimSlotValues(reg, info, draws);
      SimIdentityLines(DgHelpers.GenerateCommands(reg, info, draws), DgHelpers.Steps(reg, info, draws),
        DgHelpers.GenerateOperatorNames(info.carrier), "89" + SimNumeric(reg, info) + IccidTail(draws));
    }
  }

  // ---------------------------------------------------------------------------
  // The end of the list
  // ---------------------------------------------------------------------------

  /** Appends whose serial and location slots hold directives and whose last two
      slots hold `x` then `y` render to at least four lines, the last two rendering
      `x` and `y`. */
  lemma EndsWith(commands: seq<string>, steps: seq<Option<Directive>>, x: Directive, y: Directive)
    requires commands == Lines(steps)
    requires |steps| == 21 && steps[4].Some? && steps[16].Some? && steps[19] == Some(x) && steps[20] == Some(y)
    ensures |commands| >= 4 && commands[|commands| - 1] == Render(y) && commands[|commands| - 2] == Render(x)
  {
    var front, middle, back := steps[..16], steps[16..19], steps[19..];
    assert steps == front + middle + back;
    LinesConcat(front + middle, back);
    LinesConcat(front, middle);
    SlotLine(front, 4);
    LinesFirst(middle);
    LinesFirst(back);
    LinesFirst(back[1..]);
    assert back[1..][1..] == [];
  }

  /** The serial, location, battery and sensor-mock slots of the appends. */
  lemma LastSlots(reg: CarrierInfo.CarrierTable, info: DeviceInfo, draws: MapperDraws)
    requires ValidDraws(draws)
    ensures var steps := DgHelpers.Steps(reg, info, draws);
      && |steps| == 21 && steps[4].Some? && steps[16].Some?
      && steps[19] == Some(BatteryLevel(draws.batteryLevel)) && steps[20] == Some(SensorMock)
  {
    FrontSlots(reg, info, draws);
    Slots(reg, info, draws);
  }

  /** The end of such appends, as text, for a battery slot holding `level`. */
  lemma EndsWithText(commands: seq<string>, steps: seq<Option<Directive>>, level: nat)
    requires commands == Lines(steps)
    requires |steps| == 21 && steps[4].Some? && steps[16].Some?
    requires steps[19] == Some(BatteryLevel(level)) && steps[20] == Some(SensorMock)
    ensures |commands| >= 4
    ensures commands[|commands| - 1] == "dg config -a sensor.mock=true"
    ensures commands[|commands| - 2] == "dg config -a battery.batteryLevel=" + NatToString(level)
  {
    EndsWith(commands, steps, BatteryLevel(level), SensorMock);
    MockAndBatteryLines(level);
  }

  /** There are at least four commands (serial number, location, battery level and
      sensor mock are always emitted). The last command switches sensor mocking on;
      just before it the battery level is set to the drawn value, between 20 and 90. */
  lemma EndsWithBatteryThenMock(reg: CarrierInfo.CarrierTable, info: DeviceInfo, draws: MapperDraws)
    requires ValidDraws(draws)
    ensures var commands := DgHelpers.GenerateCommands(reg, info, draws);
      && |commands| >= 4
      && commands[|commands| - 1] == "dg config -a sensor.mock=true"
      && commands[|commands| - 2] == "dg config -a battery.batteryLevel=" + NatToString(draws.batteryLevel)
      && 20 <= draws.batteryLevel <= 90
  {
    LastSlots(reg, info, draws);
    EndsWithText(DgHelpers.GenerateCommands(reg, info, draws), DgHelpers.Steps(reg, info, draws), draws.batteryLevel);
  }

  // ---------------------------------------------------------------------------
  // The location
  // ---------------------------------------------------------------------------

  /** In slotted appends whose location slot holds a fix, exactly one line starts
      with the fix's head, and it renders that fix. */
  lemma GeoFixOnce(steps: seq<Option<Directive>>, lon: Float, lat: Float)
    requires |steps| == 21 && Slotted(steps, 0) && steps[16] == Some(GeoFix(lon, lat))
    ensures var lines := Lines(steps);
      && (exists i :: 0 <= i < |lines| && "dg geo fix " <= lines[i])
      && (forall i :: 0 <= i < |lines| && "dg geo fix " <= lines[i] ==>
            lines[i] == "dg geo fix " + lon.text + " " + lat.text)
      && (forall i, j ::
            (0 <= i < |lines| && 0 <= j < |lines| && "dg geo fix " <= lines[i] && "dg geo fix " <= lines[j]) ==> i == j)
  {
    var h := Head(GeoFix(Zero, Zero));
    assert h == "dg geo fix ";
    GeoFixMarks();
    LineOfKind(steps, 0, h, 16);
    forall i | 0 <= i < |Lines(steps)| && h <= Lines(steps)[i]
      ensures Lines(steps)[i] == "dg geo fix " + lon.text + " " + lat.text
    {
      LineOfKindContent(steps, 0, h, 16, i);
    }
    forall i, j | 0 <= i < |Lines(steps)| && 0 <= j < |Lines(steps)| && h <= Lines(steps)[i] && h <= Lines(steps)[j]
      ensures i == j
    {
      LineOfKindUnique(steps, 0, h, 16, i, j);
    }
  }

  /** Exactly one command starts with "dg geo fix ", and it carries the longitude,
      then the latitude. */
  lemma OneGeoFix(reg: CarrierInfo.CarrierTable, info: DeviceInfo, draws: MapperDraws)
    requires ValidDraws(draws)
    ensures var commands := DgHelpers.GenerateCommands(reg, info, draws);
      && (exists i :: 0 <= i < |commands| && "dg geo fix " <= commands[i])
      && (forall i :: 0 <= i < |commands| && "dg geo fix " <= commands[i] ==>
            commands[i] == "dg geo fix " + info.longitude.text + " " + info.latitude.text)
      && (forall i, j ::
            (0 <= i < |commands| && 0 <= j < |commands| && "dg geo fix " <= commands[i] && "dg geo fix " <= commands[j]) ==> i == j)
  {
    assert DgHelpers.GenerateCommands(reg, info, draws) == Lines(DgHelpers.Steps(reg, info, draws));
    Slots(reg, info, draws);
    GeoFixOnce(DgHelpers.Steps(reg, info, draws), info.longitude, info.latitude);
  }

  // ---------------------------------------------------------------------------
  // The start of the list
  // ---------------------------------------------------------------------------

  /** Appends whose first four slots hold `a` to `d` render them first. */
  lemma FirstFour(commands: seq<string>, steps: seq<Option<Directive>>, a: Directive, b: Directive, c: Directive, d: Directive)
    requires commands == Lines(steps) && |steps| >= 4
    requires steps[0] == Some(a) && steps[1] == Some(b) && steps[2] == Some(c) && steps[3] == Some(d)
    ensures |commands| >= 4
    ensures commands[0] == Render(a) && commands[1] == Render(b) && commands[2] == Render(c) && commands[3] == Render(d)
  {
    LinesFirst(steps);
    LinesFirst(steps[1..]);
    assert steps[1..][1..] == steps[2..];
    LinesFirst(steps[2..]);
    assert steps[2..][1..] == steps[3..];
    LinesFirst(steps[3..]);
  }

  /** Appends whose first four slots are empty and whose fifth holds `x` render `x`
      first. */
  lemma FirstAfterFour(commands: seq<string>, steps: seq<Option<Directive>>, x: Directive)
    requires commands == Lines(steps) && |steps| >= 5
    requires steps[0] == None && steps[1] == None && steps[2] == None && steps[3] == None && steps[4] == Some(x)
    ensures |commands| >= 1 && commands[0] == Render(x)
  {
    LinesFirst(steps);
    LinesFirst(steps[1..]);
    assert steps[1..][1..] == steps[2..];
    LinesFirst(steps[2..]);
    assert steps[2..][1..] == steps[3..];
    LinesFirst(steps[3..]);
    assert steps[3..][1..] == steps[4..];
    LinesFirst(steps[4..]);
  }

  /** The model lines or, without a model, the serial line, for given first slots. */
  lemma ModelOrSerialLines(commands: seq<string>, steps: seq<Option<Directive>>, model: string, brand: string, serial: string)
    requires commands == Lines(steps) && |steps| >= 5
    requires steps[0] == When(model != "", Manufacturer(brand)) && steps[1] == When(model != "", Brand(brand))
    requires steps[2] == When(model != "", ProductModel(model)) && steps[3] == When(model != "", ProductDevice(model))
    requires steps[4] == Some(SerialNo(serial))
    ensures model != "" ==>
      && |commands| >= 4
      && commands[0] == "dg config -a prop.ro.product.manufacturer=" + brand
      && commands[1] == "dg config -a prop.ro.product.brand=" + brand
      && commands[2] == "dg config -a prop.ro.product.model=" + model
      && commands[3] == "dg config -a prop.ro.product.device=" + model
    ensures model == "" ==> |commands| >= 1 && commands[0] == "dg config -a prop.ro.serialno=" + serial
  {
    if model != "" {
      FirstFour(commands, steps, Manufacturer(brand), Brand(brand), ProductModel(model), ProductDevice(model));
      ModelTexts(brand, model);
    } else {
      FirstAfterFour(commands, steps, SerialNo(serial));
      SerialText(serial);
    }
  }

  /** With a model set, the first four commands set the manufacturer and brand to the
      brand inferred from the model, then the product model and device to the model;
      without one, the first command sets the serial number. */
  lemma ModelFirst(reg: CarrierInfo.CarrierTable, info: DeviceInfo, draws: MapperDraws)
    requires ValidDraws(draws)
    ensures var commands := DgHelpers.GenerateCommands(reg, info, draws);
      var brand := DgHelpers.InferBrandFromModel(info.model);
      && (info.model != "" ==>
            && |commands| >= 4
            && commands[0] == "dg config -a prop.ro.product.manufacturer=" + brand
            && commands[1] == "dg config -a prop.ro.product.brand=" + brand
            && commands[2] == "dg config -a prop.ro.product.model=" + info.model
            && commands[3] == "dg config -a prop.ro.product.device=" + info.model)
      && (info.model == "" ==> |commands| >= 1 && commands[0] == "dg config -a prop.ro.serialno=" + SerialNumber(draws))
  {
    FrontSlots(reg, info, draws);
    ModelOrSerialLines(DgHelpers.GenerateCommands(reg, info, draws), DgHelpers.Steps(reg, info, draws),
      info.model, DgHelpers.InferBrandFromModel(info.model), SerialNumber(draws));
  }

  // ---------------------------------------------------------------------------
  // The default record
  // ---------------------------------------------------------------------------

  /** Appends that are all empty render no lines. */
  lemma {:induction false} NoLines(steps: seq<Option<Directive>>)
    requires forall k :: 0 <= k < |steps| ==> steps[k] == None
    ensures Lines(steps) == []
    decreases |steps|
  {
    if |steps| > 0 {
      LinesFirst(steps);
      NoLines(steps[1..]);
    }
  }

  /** Appends holding `w` first and nothing after it render to that one line. */
  lemma LeadThenNone(steps: seq<Option<Directive>>, w: Directive)
    requires |steps| >= 1 && steps[0] == Some(w)
    requires forall k :: 1 <= k < |steps| ==> steps[k] == None
    ensures Lines(steps) == [Render(w)]
  {
    LinesFirst(steps);
    assert forall m :: 0 <= m < |steps| - 1 ==> steps[1..][m] == steps[1 + m];
    NoLines(steps[1..]);
  }

  /** Appends whose only directives are `w`, `x`, `y` and `z` in slots 4, 16, 19 and
      20 render to exactly those four lines. */
  lemma OnlyFour(commands: seq<string>, steps: seq<Option<Directive>>, w: Directive, x: Directive, y: Directive, z: Directive)
    requires commands == Lines(steps) && |steps| == 21
    requires steps[4] == Some(w) && steps[16] == Some(x) && steps[19] == Some(y) && steps[20] == Some(z)
    requires forall k :: 0 <= k < 21 && k != 4 && k != 16 && k != 19 && k != 20 ==> steps[k] == None
    ensures commands == [Render(w), Render(x), Render(y), Render(z)]
  {
    var a, b, c, d := steps[..4], steps[4..16], steps[16..19], steps[19..];
    assert steps == a + b + c + d;
    NoLines(a);
    LeadThenNone(b, w);
    LeadThenNone(c, x);
    LinesFirst(d);
    LeadThenNone(d[1..], z);
    LinesConcat(a + b + c, d);
    LinesConcat(a + b, c);
    LinesConcat(a, b);
  }

  /** The appends for the default record: only the serial number, the location
      (0.0, 0.0), the battery level and the sensor-mock switch. */
  lemma DefaultSlots(reg: CarrierInfo.CarrierTable, draws: MapperDraws)
    requires ValidDraws(draws)
    ensures var steps := DgHelpers.Steps(reg, DefaultDeviceInfo, draws);
      && |steps| == 21
      && steps[4] == Some(SerialNo(SerialNumber(draws))) && steps[16] == Some(GeoFix(Zero, Zero))
      && steps[19] == Some(BatteryLevel(draws.batteryLevel)) && steps[20] == Some(SensorMock)
      && forall k :: 0 <= k < 21 && k != 4 && k != 16 && k != 19 && k != 20 ==> steps[k] == None
  {
    DefaultFrontSlots(reg, draws);
    DefaultBackSlots(reg, draws);
  }

  /** The default record's first six steps: only the serial number is emitted. */
  lemma DefaultFrontSlots(reg: CarrierInfo.CarrierTable, draws: MapperDraws)
    requires ValidDraws(draws)
    ensures var steps := DgHelpers.Steps(reg, DefaultDeviceInfo, draws);
      && |steps| == 21 && steps[4] == Some(SerialNo(SerialNumber(draws)))
      && forall k :: 0 <= k < 6 && k != 4 ==> steps[k] == None
  {
    FrontSlots(reg, DefaultDeviceInfo, draws);
  }

  /** The default record's last fifteen steps: only the location fix, the battery
      level and the sensor-mock switch are emitted. */
  lemma DefaultBackSlots(reg: CarrierInfo.CarrierTable, draws: MapperDraws)
    requires ValidDraws(draws)
    ensures var steps := DgHelpers.Steps(reg, DefaultDeviceInfo, draws);
      && |steps| == 21
      && steps[16] == Some(GeoFix(Zero, Zero))
      && steps[19] == Some(BatteryLevel(draws.batteryLevel)) && steps[20] == Some(SensorMock)
      && forall k :: 6 <= k < 21 && k != 16 && k != 19 && k != 20 ==> steps[k] == None
  {
    var model, serial := DgHelpers.ModelSteps(DefaultDeviceInfo), DgHelpers.SerialSteps(DefaultDeviceInfo, draws);
    var sim, network, tail :=
      DgHelpers.SimSteps(reg, DefaultDeviceInfo, draws), DgHelpers.NetworkSteps(DefaultDeviceInfo),
      DgHelpers.TailSteps(DefaultDeviceInfo, draws);
    DgHelpers.StepsSections(reg, DefaultDeviceInfo, draws);
    DefaultSimSlots(reg, draws);
    DefaultNetworkSlots();
    EmptyMiddle(model, serial, sim, network, tail);
  }

  /** Blocks of 4, 2, 5, 5 and 5 steps whose SIM and network blocks emit nothing and
      whose tail emits nothing in its second and third place: from slot 6 on, only
      slots 16, 19 and 20 can hold a directive, the tail's own. */
  lemma EmptyMiddle(a: seq<Option<Directive>>, b: seq<Option<Directive>>, c: seq<Option<Directive>>,
                    d: seq<Option<Directive>>, e: seq<Option<Directive>>)
    requires |a| == 4 && |b| == 2 && |c| == 5 && |d| == 5 && |e| == 5
    requires forall j :: 0 <= j < 5 ==> c[j] == None
    requires forall j :: 0 <= j < 5 ==> d[j] == None
    requires e[1] == None && e[2] == None
    ensures var s := a + b + c + d + e;
      && s[16] == e[0] && s[19] == e[3] && s[20] == e[4]
      && forall k :: 6 <= k < 21 && k != 16 && k != 19 && k != 20 ==> s[k] == None
  {
    BlockOffsets(a, b, c, d, e);
    var s := a + b + c + d + e;
    forall k | 6 <= k < 21 && k != 16 && k != 19 && k != 20
      ensures s[k] == None
    {
      if k < 11 {
        assert s[6 + (k - 6)] == c[k - 6];
      } else if k < 16 {
        assert s[11 + (k - 11)] == d[k - 11];
      } else {
        assert s[16 + (k - 16)] == e[k - 16];
      }
    }
    assert s[16 + 0] == e[0] && s[16 + 3] == e[3] && s[16 + 4] == e[4];
  }

  /** The default record has no field that the five network appends read. */
  lemma DefaultNetworkSlots()
    ensures forall j :: 0 <= j < 5 ==> DgHelpers.NetworkSteps(DefaultDeviceInfo)[j] == None
  {
  }

  /** The default record has no IMSI, so none of its five SIM appends emits a step. */
  lemma DefaultSimSlots(reg: CarrierInfo.CarrierTable, draws: MapperDraws)
    requires ValidDraws(draws)
    ensures forall j :: 0 <= j < 5 ==> DgHelpers.SimSteps(reg, DefaultDeviceInfo, draws)[j] == None
  {
    SimSlots(reg, DefaultDeviceInfo, draws);
  }

  /** The default record yields four commands, as directives. */
  lemma DefaultRendered(reg: CarrierInfo.CarrierTable, draws: MapperDraws)
    requires ValidDraws(draws)
    ensures DgHelpers.GenerateCommands(reg, DefaultDeviceInfo, draws) ==
      [ Render(SerialNo(SerialNumber(draws))), Render(GeoFix(Zero, Zero)),
        Render(BatteryLevel(draws.batteryLevel)), Render(SensorMock) ]
  {
    DefaultSlots(reg, draws);
    OnlyFour(DgHelpers.GenerateCommands(reg, DefaultDeviceInfo, draws), DgHelpers.Steps(reg, DefaultDeviceInfo, draws),
      SerialNo(SerialNumber(draws)), GeoFix(Zero, Zero), BatteryLevel(draws.batteryLevel), SensorMock);
  }

  /** A record with every field at its default yields exactly four commands: the
      drawn serial number, a location fix at 0.0 0.0, the drawn battery level and the
      sensor-mock switch. */
  lemma DefaultCommands(reg: CarrierInfo.CarrierTable, draws: MapperDraws)
    requires ValidDraws(draws)
    ensures DgHelpers.GenerateCommands(reg, DefaultDeviceInfo, draws) ==
      [ "dg config -a prop.ro.serialno=" + SerialNumber(draws),
        "dg geo fix 0.0 0.0",
        "dg config -a battery.batteryLevel=" + NatToString(draws.batteryLevel),
        "dg config -a sensor.mock=true" ]
  {
    DefaultRendered(reg, draws);
    SerialText(SerialNumber(draws));
    ZeroFixText();
    MockAndBatteryLines(draws.batteryLevel);
  }

  lemma ZeroFixText()
    ensures Render(GeoFix(Zero, Zero)) == "dg geo fix 0.0 0.0"
  {
    GeoFixText(Zero, Zero);
    assert "dg geo fix " + "0.0" + " " + "0.0" == "dg geo fix 0.0 0.0";
  }

  // ---------------------------------------------------------------------------
  // Template order
  // ---------------------------------------------------------------------------

  /** Lines of slotted appends render directives in strictly increasing kind, one per
      template position at most. */
  lemma OrderedLines(commands: seq<string>, steps: seq<Option<Directive>>)
    requires commands == Lines(steps) && |steps| == 21 && Slotted(steps, 0)
    ensures exists plan ::
      && commands == RenderAll(plan) && |plan| <= 21 && Increasing(plan)
      && (forall i :: 0 <= i < |plan| ==> Kind(plan[i]) < 21)
  {
    CompactIncreasing(steps, 0);
    CompactMembers(steps);
    assert commands == RenderAll(Compact(steps));
  }

  /** The commands render a list of at most 21 directives whose template positions
      strictly increase: the directives come in the source's order and no kind of
      directive is emitted twice. */
  lemma TemplateOrder(reg: CarrierInfo.CarrierTable, info: DeviceInfo, draws: MapperDraws)
    requires ValidDraws(draws)
    ensures var commands := DgHelpers.GenerateCommands(reg, info, draws);
      exists plan ::
        && commands == RenderAll(plan) && |plan| <= 21 && Increasing(plan)
        && (forall i :: 0 <= i < |plan| ==> Kind(plan[i]) < 21)
  {
    DgHelpers.StepsSlotted(reg, info, draws);
    OrderedLines(DgHelpers.GenerateCommands(reg, info, draws), DgHelpers.Steps(reg, info, draws));
  }
}

=== FILE: generator.dfy ===
/** `DeviceInfoGenerator` of `src/generator/device_info_generator.py`: it composes a
    mutually consistent identity from the registry and the device catalogue.

    Every random draw of the source is an explicit argument here: `random.choice(xs)`
    becomes an index `pick < |xs|` (required only on the path that draws), a run of
    `random.randint(0, 9)` calls becomes a sequence of decimal draws, and the values
    Faker produces (`fake.msisdn()`, `fake.ipv4()`) are opaque strings. The functions
    are then deterministic.
 */
module Generator {
  import opened Text
  import opened Assoc
  import opened Models
  import CarrierInfo
  import DeviceModels
  import Checksum

  /** Python truthiness of an optional hint: present and non-empty. */
  predicate Given(hint: Option<string>) {
    hint.Some? && hint.value != ""
  }

  // ---------------------------------------------------------------------------
  // _generate_model
  // ---------------------------------------------------------------------------

  /** `_generate_model`: a given hint verbatim; otherwise the drawn brand and the drawn
      model of that brand, as a label of the catalogue. */
  function GenerateModel(t: DeviceModels.ModelTable, hint: Option<string>, brandPick: nat, modelPick: nat): (model: string)
    requires !Given(hint) ==> brandPick < |t| && modelPick < |t[brandPick].1|
    ensures Given(hint) ==> model == hint.value
    ensures !Given(hint) ==> model in DeviceModels.GetAllModels(t)
    ensures !Given(hint) ==> model == t[brandPick].0 + " " + t[brandPick].1[modelPick].0
  {
    if Given(hint) then hint.value
    else
      var brand := t[brandPick].0;
      var brandModels := t[brandPick].1;
      var name := brand + " " + brandModels[modelPick].0;
      DeviceModels.EntryCoverage(t, brandPick, modelPick);
      var k :| 0 <= k < |DeviceModels.Entries(t)| &&
        DeviceModels.Entries(t)[k] == DeviceModels.Entry(brand, brandModels[modelPick].0, brandModels[modelPick].1);
      assert DeviceModels.GetAllModels(t)[k] == name;
      name
  }

  // ---------------------------------------------------------------------------
  // _generate_location
  // ---------------------------------------------------------------------------

  /** A region hint names a known region. */
  predicate KnownRegionHint(t: CarrierInfo.CarrierTable, hint: Option<string>) {
    Given(hint) && hint.value in Keys(t)
  }

  /** `_generate_location`: the (country, region) pair, always equal; a known region
      hint is kept, anything else is replaced by a drawn known region. */
  function GenerateLocation(t: CarrierInfo.CarrierTable, hint: Option<string>, pick: nat): (location: (string, string))
    requires !KnownRegionHint(t, hint) ==> pick < |t|
    ensures location.0 == location.1
    ensures location.0 in Keys(t)
    ensures KnownRegionHint(t, hint) ==> location.0 == hint.value
    ensures !KnownRegionHint(t, hint) ==> location.0 == Keys(t)[pick]
  {
    var country := if KnownRegionHint(t, hint) then hint.value else Keys(t)[pick];
    (country, country)
  }

  // ---------------------------------------------------------------------------
  // _generate_carrier
  // ---------------------------------------------------------------------------

  /** A carrier hint names a carrier of the region's MNC map
      (`carrier in CARRIER_INFO.get(country, {}).get("MNC", {})`). */
  predicate KnownCarrierHint(t: CarrierInfo.CarrierTable, country: string, hint: Option<string>) {
    Given(hint) && hint.value in CarrierInfo.GetCarriersByRegion(t, country)
  }

  /** `_generate_carrier`: a hint registered for the region is kept; otherwise a carrier
      of the region is drawn, or "Unknown" when the region has none. */
  function GenerateCarrier(t: CarrierInfo.CarrierTable, country: string, hint: Option<string>, pick: nat): (carrier: string)
    requires !KnownCarrierHint(t, country, hint) && |CarrierInfo.GetCarriersByRegion(t, country)| > 0 ==>
      pick < |CarrierInfo.GetCarriersByRegion(t, country)|
    ensures carrier in CarrierInfo.GetCarriersByRegion(t, country) ||
      (carrier == "Unknown" && CarrierInfo.GetCarriersByRegion(t, country) == [])
    ensures KnownCarrierHint(t, country, hint) ==> carrier == hint.value
    ensures !KnownCarrierHint(t, country, hint) && |CarrierInfo.GetCarriersByRegion(t, country)| > 0 ==>
      carrier == CarrierInfo.GetCarriersByRegion(t, country)[pick]
  {
    if KnownCarrierHint(t, country, hint) then hint.value
    else
      var carriers := CarrierInfo.GetCarriersByRegion(t, country);
      if |carriers| > 0 then carriers[pick] else "Unknown"
  }

  // ---------------------------------------------------------------------------
  // _generate_phone_number
  // ---------------------------------------------------------------------------

  /** `phone` is `code` followed by one of `prefixes` followed by exactly `n` decimal
      digits. */
  predicate NumberShape(phone: string, code: string, prefixes: seq<string>, n: nat) {
    exists p :: p in prefixes &&
      |phone| == |code| + |p| + n &&
      phone[..|code|] == code &&
      phone[|code|..|code| + |p|] == p &&
      IsDigits(phone[|code| + |p|..])
  }

  /** `phone` is `code`, then `prefix`, then one decimal digit per draw of `draws`,
      in order. */
  predicate DialledFrom(phone: string, code: string, prefix: string, draws: seq<nat>) {
    && |phone| == |code| + |prefix| + |draws|
    && phone[..|code|] == code
    && phone[|code|..|code| + |prefix|] == prefix
    && SpellsDraws(phone[|code| + |prefix|..], draws)
  }

  /** `_generate_phone_number` (the `carrier` argument is unused). With no prefixes
      for the region, or a region outside the four formats, Faker's number is used;
      otherwise the region's calling code, a drawn prefix and a run of drawn digits. */
  function GeneratePhoneNumber(
    t: CarrierInfo.CarrierTable, country: string, prefixPick: nat, tail: seq<nat>, fakerMsisdn: string
  ): (phone: string)
    requires |CarrierInfo.GetPhonePrefixByRegion(t, country)| > 0 ==>
      prefixPick < |CarrierInfo.GetPhonePrefixByRegion(t, country)|
    requires |tail| >= 8 && forall i :: 0 <= i < |tail| ==> tail[i] < 10
    ensures var prefixes := CarrierInfo.GetPhonePrefixByRegion(t, country);
      && (prefixes == [] ==> phone == fakerMsisdn)
      && (prefixes != [] && country == "China" ==> NumberShape(phone, "+86", prefixes, 8))
      && (prefixes != [] && (country == "Hong Kong" || country == "Macao") ==> NumberShape(phone, "+852", prefixes, 7))
      && (prefixes != [] && country == "Taiwan" ==> NumberShape(phone, "+886", prefixes, 8))
      && (prefixes != [] && country == "USA" ==> NumberShape(phone, "+1", prefixes, 7))
      && (country !in {"China", "Hong Kong", "Macao", "Taiwan", "USA"} ==> phone == fakerMsisdn)
    ensures var prefixes := CarrierInfo.GetPhonePrefixByRegion(t, country);
      prefixes != [] ==>
        && (country == "China" ==> DialledFrom(phone, "+86", prefixes[prefixPick], tail[..8]))
        && (country == "Hong Kong" || country == "Macao" ==> DialledFrom(phone, "+852", prefixes[prefixPick], tail[..7]))
        && (country == "Taiwan" ==> DialledFrom(phone, "+886", prefixes[prefixPick], tail[..8]))
        && (country == "USA" ==> DialledFrom(phone, "+1", prefixes[prefixPick], tail[..7]))
  {
    var prefixes := CarrierInfo.GetPhonePrefixByRegion(t, country);
    if |prefixes| == 0 then fakerMsisdn
    else
      var prefix := prefixes[prefixPick];
      if country == "China" then DialSpells("+86", prefix, tail, 8); Dial("+86", prefix, DigitString(tail[..8]))
      else if country == "Hong Kong" || country == "Macao" then
        DialSpells("+852", prefix, tail, 7); Dial("+852", prefix, DigitString(tail[..7]))
      else if country == "Taiwan" then DialSpells("+886", prefix, tail, 8); Dial("+886", prefix, DigitString(tail[..8]))
      else if country == "USA" then DialSpells("+1", prefix, tail, 7); Dial("+1", prefix, DigitString(tail[..7]))
      else fakerMsisdn
  }

  /** Dialling the numeral rendered from the first `k` draws spells those draws after
      the calling code and the prefix. */
  lemma DialSpells(code: string, prefix: string, tail: seq<nat>, k: nat)
    requires k <= |tail| && forall i :: 0 <= i < |tail| ==> tail[i] < 10
    ensures DialledFrom(Dial(code, prefix, DigitString(tail[..k])), code, prefix, tail[..k])
  {
    DigitStringSpells(tail[..k], k);
    assert tail[..k][..k] == tail[..k];
  }

  /** `f"{code}{prefix}{digits}"`. */
  function Dial(code: string, prefix: string, digits: string): (phone: string)
    requires IsDigits(digits)
    ensures forall prefixes: seq<string> :: prefix in prefixes ==> NumberShape(phone, code, prefixes, |digits|)
    ensures |phone| == |code| + |prefix| + |digits|
    ensures phone[..|code|] == code && phone[|code|..|code| + |prefix|] == prefix
    ensures phone[|code| + |prefix|..] == digits
  {
    var phone := code + prefix + digits;
    assert phone[..|code|] == code;
    assert phone[|code|..|code| + |prefix|] == prefix;
    assert phone[|code| + |prefix|..] == digits;
    phone
  }

  // ---------------------------------------------------------------------------
  // _generate_imei and _calculate_luhn_check_digit
  // ---------------------------------------------------------------------------

  /** The (brand, model) `_generate_imei` looks up: the label split at its first space,
      or the whole label as both when it holds no space. */
  function ImeiLookupKey(model: string): (key: (string, string))
    ensures ' ' in model ==> key.0 + " " + key.1 == model && ' ' !in key.0
    ensures ' ' !in model ==> key == (model, model)
  {
    var parts := SplitFirstSpace(model);
    if |parts| == 2 then (parts[0], parts[1]) else (model, model)
  }

  /** The catalogue has no usable TAC for the label (`if not tac`: absent or ""). */
  predicate TacMiss(t: DeviceModels.ModelTable, model: string) {
    var key := ImeiLookupKey(model);
    var tac := DeviceModels.GetTacByBrandAndModel(t, key.0, key.1);
    tac.None? || tac.value == ""
  }

  /** The TAC of the IMEI: the registered one, else a drawn one from the whole
      catalogue, else "12345678" when the catalogue is empty. */
  function SelectTac(t: DeviceModels.ModelTable, model: string, tacPick: nat): (tac: string)
    requires TacMiss(t, model) && |DeviceModels.GetAllTacs(t)| > 0 ==> tacPick < |DeviceModels.GetAllTacs(t)|
    ensures !TacMiss(t, model) ==>
      DeviceModels.GetTacByBrandAndModel(t, ImeiLookupKey(model).0, ImeiLookupKey(model).1) == Some(tac)
    ensures TacMiss(t, model) && |DeviceModels.GetAllTacs(t)| > 0 ==> tac == DeviceModels.GetAllTacs(t)[tacPick]
    ensures TacMiss(t, model) && DeviceModels.GetAllTacs(t) == [] ==> tac == "12345678"
  {
    var key := ImeiLookupKey(model);
    var found := DeviceModels.GetTacByBrandAndModel(t, key.0, key.1);
    if !TacMiss(t, model) then found.value
    else
      var allTacs := DeviceModels.GetAllTacs(t);
      if |allTacs| > 0 then allTacs[tacPick] else "12345678"
  }

  /** Whatever `SelectTac` picks is listed by `get_all_tacs`, unless the catalogue is
      empty and the fixed fallback is used. */
  lemma SelectTacListed(t: DeviceModels.ModelTable, model: string, tacPick: nat)
    requires TacMiss(t, model) && |DeviceModels.GetAllTacs(t)| > 0 ==> tacPick < |DeviceModels.GetAllTacs(t)|
    ensures SelectTac(t, model, tacPick) in DeviceModels.GetAllTacs(t) ||
      (DeviceModels.GetAllTacs(t) == [] && SelectTac(t, model, tacPick) == "12345678")
  {
    if !TacMiss(t, model) {
      var key := ImeiLookupKey(model);
      var found := DeviceModels.GetTacByBrandAndModel(t, key.0, key.1);
      var k :| 0 <= k < |DeviceModels.Entries(t)| &&
        DeviceModels.Entries(t)[k] == DeviceModels.Entry(key.0, key.1, found.value);
      assert DeviceModels.GetAllTacs(t)[k] == found.value;
    }
  }

  /** In a well-formed catalogue the TAC is always eight digits. */
  lemma SelectTacValid(t: DeviceModels.ModelTable, model: string, tacPick: nat)
    requires TacMiss(t, model) && |DeviceModels.GetAllTacs(t)| > 0 ==> tacPick < |DeviceModels.GetAllTacs(t)|
    requires DeviceModels.WellFormed(t)
    ensures DeviceModels.ValidTac(SelectTac(t, model, tacPick))
  {
    var tac := SelectTac(t, model, tacPick);
    var allTacs := DeviceModels.GetAllTacs(t);
    SelectTacListed(t, model, tacPick);
    if tac in allTacs {
      ListedTacValid(t, tac);
    } else {
      assert tac == "12345678";
    }
  }

  /** A TAC that `get_all_tacs` lists from a well-formed catalogue is eight digits. */
  lemma ListedTacValid(t: DeviceModels.ModelTable, tac: string)
    requires DeviceModels.WellFormed(t) && tac in DeviceModels.GetAllTacs(t)
    ensures DeviceModels.ValidTac(tac)
  {
    var allTacs := DeviceModels.GetAllTacs(t);
    var k :| 0 <= k < |allTacs| && allTacs[k] == tac;
    DeviceModels.AllTacsValid(t);
    assert DeviceModels.ValidTac(allTacs[k]);
  }

  /** The generator's copy of the Luhn total: `enumerate(reversed(digits))` visits the
      last digit first, the k-th digit from the right at distance `start + k`. */
  function ReversedTotal(s: string, start: nat): nat
    requires IsDigits(s)
  {
    if |s| == 0 then 0
    else Checksum.Contribution(DigitValue(s[|s| - 1]), start) + ReversedTotal(s[..|s| - 1], start + 1)
  }

  /** Visiting the digits right to left gives the same total as the weighted sum. */
  lemma {:induction false} ReversedTotalMatches(s: string, start: nat)
    requires IsDigits(s)
    ensures ReversedTotal(s, start) == Checksum.WeightedTotal(s, start)
    decreases |s|
  {
    if |s| > 0 {
      var init := s[..|s| - 1];
      assert s == init + [s[|s| - 1]];
      Checksum.AppendDigit(init, s[|s| - 1], start);
      ReversedTotalMatches(init, start + 1);
    }
  }

  /** `_calculate_luhn_check_digit`: the generator's private copy agrees with
      `calculate_luhn_check_digit` on every digit string. */
  function CalculateLuhnCheckDigit(digits: string): (check: char)
    requires IsDigits(digits)
    ensures check == Checksum.LuhnCheckDigit(digits)
  {
    ReversedTotalMatches(digits, 0);
    DigitChar((10 - ReversedTotal(digits, 0) % 10) % 10)
  }

  /** `_generate_imei`: the TAC, the serial zero-padded to six digits, and the Luhn
      check digit of those fourteen digits. */
  function GenerateImei(t: DeviceModels.ModelTable, model: string, tacPick: nat, serial: nat): (imei: string)
    requires TacMiss(t, model) && |DeviceModels.GetAllTacs(t)| > 0 ==> tacPick < |DeviceModels.GetAllTacs(t)|
    requires serial <= 999999
    requires IsDigits(SelectTac(t, model, tacPick))
    ensures ImeiLayout(imei, SelectTac(t, model, tacPick), serial)
  {
    var tac := SelectTac(t, model, tacPick);
    var snr := ZeroPad(serial, 6);
    assert Pow10(6) == 1000000;
    var payload := tac + snr;
    var check := CalculateLuhnCheckDigit(payload);
    ImeiLayoutHolds(tac, snr, check);
    payload + [check]
  }

  /** An IMEI built from `tac`: the TAC, six digits reading as `serial`, and a check
      digit that is the Luhn digit of everything before it, so the whole number is
      Luhn-valid. */
  predicate ImeiLayout(imei: string, tac: string, serial: nat) {
    && |imei| == |tac| + 7
    && imei[..|tac|] == tac
    && IsDigits(imei)
    && ParseDecimal(imei[|tac|..|tac| + 6]) == serial
    && imei[|imei| - 1] == Checksum.LuhnCheckDigit(imei[..|imei| - 1])
    && Checksum.LuhnValid(imei)
  }

  lemma ImeiLayoutHolds(tac: string, snr: string, check: char)
    requires IsDigits(tac) && IsDigits(snr) && |snr| == 6
    requires IsDigits(tac + snr) && check == Checksum.LuhnCheckDigit(tac + snr)
    ensures ImeiLayout(tac + snr + [check], tac, ParseDecimal(snr))
  {
    var payload := tac + snr;
    var imei := payload + [check];
    assert imei[..|imei| - 1] == payload;
    assert imei[..|tac|] == tac;
    assert imei[|tac|..|tac| + 6] == snr;
    Checksum.CheckDigitValidates(payload, check);
  }

  // ---------------------------------------------------------------------------
  // _generate_imsi
  // ---------------------------------------------------------------------------

  /** The MCC `_generate_imsi` uses: the region's, or "000" when it has none or an
      empty one. */
  function ImsiMcc(t: CarrierInfo.CarrierTable, country: string): (mcc: string)
    ensures country !in Keys(t) ==> mcc == "000"
    ensures CarrierInfo.GetMccByRegion(t, country) == Some(mcc) || mcc == "000"
    ensures forall m :: CarrierInfo.GetMccByRegion(t, country) == Some(m) && m != "" ==> mcc == m
    ensures CarrierInfo.GetMccByRegion(t, country) == Some("") ==> mcc == "000"
  {
    match CarrierInfo.GetMccByRegion(t, country)
    case Some(m) => if m == "" then "000" else m
    case None => "000"
  }

  /** The MNC `_generate_imsi` uses: a drawn one of the carrier's list, or a fresh
      three- or two-digit code when the carrier has none. */
  function ImsiMnc(t: CarrierInfo.CarrierTable, country: string, carrier: string, pick: nat, wide: bool, draw: nat): (mnc: string)
    requires |CarrierInfo.GetMncByCarrier(t, country, carrier)| > 0 ==> pick < |CarrierInfo.GetMncByCarrier(t, country, carrier)|
    requires if wide then draw <= 999 else draw <= 99
    ensures |CarrierInfo.GetMncByCarrier(t, country, carrier)| > 0 ==> mnc in CarrierInfo.GetMncByCarrier(t, country, carrier)
    ensures |CarrierInfo.GetMncByCarrier(t, country, carrier)| > 0 ==> mnc == CarrierInfo.GetMncByCarrier(t, country, carrier)[pick]
    ensures CarrierInfo.GetMncByCarrier(t, country, carrier) == [] ==>
      IsDigits(mnc) && |mnc| == (if wide then 3 else 2) && ParseDecimal(mnc) == draw
  {
    var mncs := CarrierInfo.GetMncByCarrier(t, country, carrier);
    if |mncs| > 0 then mncs[pick]
    else
      assert Pow10(3) == 1000;
      if wide then ZeroPad(draw, 3) else ZeroPad(draw, 2)
  }

  /** `_generate_imsi`: MCC, MNC and an MSIN of `15 - |MCC| - |MNC|` drawn digits (none
      when that is negative), so the IMSI has 15 digits whenever MCC and MNC fit. */
  function GenerateImsi(
    t: CarrierInfo.CarrierTable, country: string, carrier: string,
    mncPick: nat, mncWide: bool, mncDraw: nat, msinDraws: seq<nat>
  ): (imsi: string)
    requires |CarrierInfo.GetMncByCarrier(t, country, carrier)| > 0 ==>
      mncPick < |CarrierInfo.GetMncByCarrier(t, country, carrier)|
    requires if mncWide then mncDraw <= 999 else mncDraw <= 99
    requires |msinDraws| >= 15 && forall i :: 0 <= i < |msinDraws| ==> msinDraws[i] < 10
    ensures var mcc := ImsiMcc(t, country);
      var mnc := ImsiMnc(t, country, carrier, mncPick, mncWide, mncDraw);
      && |imsi| >= |mcc| + |mnc|
      && imsi[..|mcc|] == mcc
      && imsi[|mcc|..|mcc| + |mnc|] == mnc
      && IsDigits(imsi[|mcc| + |mnc|..])
      && (|mcc| + |mnc| <= 15 ==> |imsi| == 15)
      && (|mcc| + |mnc| > 15 ==> |imsi| == |mcc| + |mnc|)
      && (IsDigits(mcc) && IsDigits(mnc) ==> IsDigits(imsi))
      && SpellsDraws(imsi[|mcc| + |mnc|..], msinDraws)
  {
    var mcc := ImsiMcc(t, country);
    var mnc := ImsiMnc(t, country, carrier, mncPick, mncWide, mncDraw);
    var msinLength := 15 - |mcc| - |mnc|;
    var msin :=
      if msinLength > 0 then DigitStringSpells(msinDraws, msinLength); DigitString(msinDraws[..msinLength])
      else "";
    ThreeParts(mcc, mnc, msin);
    mcc + mnc + msin
  }

  /** Slicing a three-part concatenation gives back the parts, and it is all digits
      when every part is. */
  lemma ThreeParts(a: string, b: string, c: string)
    ensures (a + b + c)[..|a|] == a
    ensures (a + b + c)[|a|..|a| + |b|] == b
    ensures (a + b + c)[|a| + |b|..] == c
    ensures IsDigits(a) && IsDigits(b) && IsDigits(c) ==> IsDigits(a + b + c)
  {
    var s := a + b + c;
    assert s[..|a|] == a;
    assert s[|a|..|a| + |b|] == b;
    assert s[|a| + |b|..] == c;
    if IsDigits(a) && IsDigits(b) && IsDigits(c) {
      forall i | 0 <= i < |s|
        ensures IsDigit(s[i])
      {
        if i < |a| {
          assert s[i] == a[i];
        } else if i < |a| + |b| {
          assert s[i] == b[i - |a|];
        } else {
          assert s[i] == c[i - |a| - |b|];
        }
      }
    }
  }

  // ---------------------------------------------------------------------------
  // Auxiliary identifiers
  // ---------------------------------------------------------------------------

  /** `':'.join(f"{x:02x}" for x in octets)`. */
  function JoinOctets(octets: seq<nat>): (s: string)
    requires |octets| >= 1 && forall i :: 0 <= i < |octets| ==> octets[i] < 256
    ensures |s| == 3 * |octets| - 1
    ensures ColonHex(s) && ParseColonHex(s) == octets
  {
    var head := HexOctet(octets[0]);
    if |octets| == 1 then head
    else
      var rest := JoinOctets(octets[1..]);
      var s := head + ":" + rest;
      assert s[..2] == head && s[2] == ':' && s[3..] == rest;
      assert octets == [octets[0]] + octets[1..];
      s
  }

  /** Two-digit lower-case hex octets separated by ':'. */
  predicate ColonHex(s: string)
    decreases |s|
  {
    && |s| >= 2 && IsLowerHex(s[0]) && IsLowerHex(s[1])
    && (|s| == 2 || (|s| >= 3 && s[2] == ':' && ColonHex(s[3..])))
  }

  /** The octet values a `ColonHex` string spells, left to right. */
  function ParseColonHex(s: string): (octets: seq<nat>)
    requires ColonHex(s)
    decreases |s|
  {
    var head := LowerHexValue(s[0]) * 16 + LowerHexValue(s[1]);
    if |s| == 2 then [head] else [head] + ParseColonHex(s[3..])
  }

  /** A MAC address as the source prints it: six two-digit lower-case hex octets
      separated by ':'. */
  predicate MacFormat(mac: string) {
    |mac| == 17 && ColonHex(mac)
  }

  /** `_generate_mac_address`: the six drawn bytes, formatted; reading the address back
      gives the same bytes. */
  function GenerateMacAddress(octets: seq<nat>): (mac: string)
    requires |octets| == 6 && forall i :: 0 <= i < 6 ==> octets[i] < 256
    ensures MacFormat(mac)
    ensures ParseColonHex(mac) == octets
  {
    JoinOctets(octets)
  }

  /** `_generate_android_id`: sixteen drawn characters of `0123456789abcdef`. */
  function GenerateAndroidId(picks: seq<nat>): (id: string)
    requires |picks| == 16 && forall i :: 0 <= i < 16 ==> picks[i] < 16
    ensures |id| == 16
    ensures forall i :: 0 <= i < 16 ==> id[i] in LowerHexDigits && IsLowerHex(id[i])
    ensures forall i :: 0 <= i < 16 ==> id[i] == LowerHexDigits[picks[i]]
  {
    var id := Choices(LowerHexDigits, picks);
    assert forall c :: c in LowerHexDigits ==> IsLowerHex(c);
    id
  }

  /** `_generate_app_version`: "major.minor.patch" from the three drawn numbers. */
  function GenerateAppVersion(major: nat, minor: nat, patch: nat): (version: string)
    requires 1 <= major <= 5 && minor <= 20 && patch <= 50
    ensures exists a, b, c ::
      (&& IsDigits(a) && IsDigits(b) && IsDigits(c)
       && |a| > 0 && |b| > 0 && |c| > 0
       && (|a| == 1 || a[0] != '0') && (|b| == 1 || b[0] != '0') && (|c| == 1 || c[0] != '0')
       && version == a + "." + b + "." + c
       && ParseDecimal(a) == major && ParseDecimal(b) == minor && ParseDecimal(c) == patch)
  {
    var a, b, c := NatToString(major), NatToString(minor), NatToString(patch);
    a + "." + b + "." + c
  }

  const SystemVersions: seq<string> := ["Android 10", "Android 11", "Android 12", "Android 13", "Android 14"]

  /** `_generate_system_version`: one of five Android release labels. */
  function GenerateSystemVersion(pick: nat): (version: string)
    requires pick < |SystemVersions|
    ensures version in SystemVersions
  {
    SystemVersions[pick]
  }

  /** `_generate_ssid`: "WiFi_" and a four-digit number drawn from 1000..9999. */
  function GenerateSsid(n: nat): (ssid: string)
    requires 1000 <= n <= 9999
    ensures |ssid| == 9 && ssid[..5] == "WiFi_"
    ensures IsDigits(ssid[5..]) && ParseDecimal(ssid[5..]) == n
  {
    var digits := NatToString(n);
    assert Pow10(4) == 10000;
    NatToStringLength(n, 4);
    NatToStringMinLength(n, 3);
    var ssid := "WiFi_" + digits;
    assert ssid[5..] == digits;
    ssid
  }

  const NetworkTypes: seq<string> := ["2G", "3G", "4G", "5G", "WiFi"]

  /** `_generate_network_type`: one of the five access technologies. */
  function GenerateNetworkType(pick: nat): (networkType: string)
    requires pick < |NetworkTypes|
    ensures networkType in NetworkTypes
  {
    NetworkTypes[pick]
  }

  // ---------------------------------------------------------------------------
  // generate_device_info
  // ---------------------------------------------------------------------------

  /** Every random value one call of `generate_device_info` draws, in the order the
      source draws them, plus the values Faker and the float generators produce. */
  datatype Draws = Draws(
    brandPick: nat, modelPick: nat,
    regionPick: nat,
    carrierPick: nat,
    prefixPick: nat, phoneTail: seq<nat>, fakerMsisdn: string,
    tacPick: nat, serial: nat,
    mncPick: nat, mncWide: bool, mncDraw: nat, msinDraws: seq<nat>,
    macOctets: seq<nat>,
    androidPicks: seq<nat>,
    major: nat, minor: nat, patch: nat,
    systemPick: nat,
    ssidNumber: nat,
    fakerIpv4: string,
    networkPick: nat,
    accelerometer: Axes, gyroscope: Axes,
    latitude: Float, longitude: Float)

  /** The draws are ones the source's random calls can return for these hints and
      tables (each index within its list, each number within its `randint` range),
      and the TAC the IMEI starts with is a digit string. */
  predicate Feasible(
    cat: DeviceModels.ModelTable, reg: CarrierInfo.CarrierTable,
    modelHint: Option<string>, regionHint: Option<string>, carrierHint: Option<string>, d: Draws
  ) {
    && (!Given(modelHint) ==> d.brandPick < |cat| && d.modelPick < |cat[d.brandPick].1|)
    && (!KnownRegionHint(reg, regionHint) ==> d.regionPick < |reg|)
    && var model := GenerateModel(cat, modelHint, d.brandPick, d.modelPick);
    var country := GenerateLocation(reg, regionHint, d.regionPick).0;
    && (!KnownCarrierHint(reg, country, carrierHint) && |CarrierInfo.GetCarriersByRegion(reg, country)| > 0 ==>
         d.carrierPick < |CarrierInfo.GetCarriersByRegion(reg, country)|)
    && var carrier := GenerateCarrier(reg, country, carrierHint, d.carrierPick);
    && (|CarrierInfo.GetPhonePrefixByRegion(reg, country)| > 0 ==>
         d.prefixPick < |CarrierInfo.GetPhonePrefixByRegion(reg, country)|)
    && |d.phoneTail| >= 8 && (forall i :: 0 <= i < |d.phoneTail| ==> d.phoneTail[i] < 10)
    && (TacMiss(cat, model) && |DeviceModels.GetAllTacs(cat)| > 0 ==> d.tacPick < |DeviceModels.GetAllTacs(cat)|)
    && d.serial <= 999999
    && IsDigits(SelectTac(cat, model, d.tacPick))
    && (|CarrierInfo.GetMncByCarrier(reg, country, carrier)| > 0 ==>
         d.mncPick < |CarrierInfo.GetMncByCarrier(reg, country, carrier)|)
    && (if d.mncWide then d.mncDraw <= 999 else d.mncDraw <= 99)
    && |d.msinDraws| >= 15 && (forall i :: 0 <= i < |d.msinDraws| ==> d.msinDraws[i] < 10)
    && |d.macOctets| == 6 && (forall i :: 0 <= i < 6 ==> d.macOctets[i] < 256)
    && |d.androidPicks| == 16 && (forall i :: 0 <= i < 16 ==> d.androidPicks[i] < 16)
    && 1 <= d.major <= 5 && d.minor <= 20 && d.patch <= 50
    && d.systemPick < |SystemVersions|
    && 1000 <= d.ssidNumber <= 9999
    && d.networkPick < |NetworkTypes|
  }

  /** `generate_device_info`: a default record whose fields are filled in the source's
      order, each generator seeing the model, country and carrier chosen before it. */
  function GenerateDeviceInfo(
    cat: DeviceModels.ModelTable, reg: CarrierInfo.CarrierTable,
    modelHint: Option<string>, regionHint: Option<string>, carrierHint: Option<string>, d: Draws
  ): (info: DeviceInfo)
    requires Feasible(cat, reg, modelHint, regionHint, carrierHint, d)
    ensures info.country == info.region && info.country in Keys(reg)
    ensures info.ipAddress == d.fakerIpv4 && info.latitude == d.latitude && info.longitude == d.longitude
    ensures MacFormat(info.macAddress) && |info.androidId| == 16 && |info.ssid| == 9
    ensures info.systemVersion in SystemVersions && info.networkType in NetworkTypes
    ensures info.accelerometerData == Some(d.accelerometer) && info.gyroscopeData == Some(d.gyroscope)
  {
    var model := GenerateModel(cat, modelHint, d.brandPick, d.modelPick);
    var location := GenerateLocation(reg, regionHint, d.regionPick);
    var carrier := GenerateCarrier(reg, location.0, carrierHint, d.carrierPick);
    var phone := GeneratePhoneNumber(reg, location.0, d.prefixPick, d.phoneTail, d.fakerMsisdn);
    var imei := GenerateImei(cat, model, d.tacPick, d.serial);
    var imsi := GenerateImsi(reg, location.0, carrier, d.mncPick, d.mncWide, d.mncDraw, d.msinDraws);
    var mac := GenerateMacAddress(d.macOctets);
    var androidId := GenerateAndroidId(d.androidPicks);
    var appVersion := GenerateAppVersion(d.major, d.minor, d.patch);
    var systemVersion := GenerateSystemVersion(d.systemPick);
    var ssid := GenerateSsid(d.ssidNumber);
    var networkType := GenerateNetworkType(d.networkPick);
    DeviceInfo(
      model, imei, imsi, mac, androidId, appVersion, systemVersion, ssid, d.fakerIpv4, networkType,
      Some(d.accelerometer), Some(d.gyroscope), d.latitude, d.longitude,
      location.0, location.1, carrier, phone)
  }

  // ---------------------------------------------------------------------------
  // Properties of a generated identity
  // ---------------------------------------------------------------------------

  /** The model is the hint or a catalogue label, the country is a registry region
      (the hint when it names one) and doubles as the region, the carrier belongs to
      that region or is "Unknown" when it has none, the IMEI is Luhn-valid and the
      IMSI starts with the region's MCC. */
  lemma GeneratedIdentity(
    cat: DeviceModels.ModelTable, reg: CarrierInfo.CarrierTable,
    modelHint: Option<string>, regionHint: Option<string>, carrierHint: Option<string>, d: Draws
  )
    requires Feasible(cat, reg, modelHint, regionHint, carrierHint, d)
    ensures var info := GenerateDeviceInfo(cat, reg, modelHint, regionHint, carrierHint, d);
      && (Given(modelHint) ==> info.model == modelHint.value)
      && (!Given(modelHint) ==> info.model in DeviceModels.GetAllModels(cat))
      && info.country == info.region && info.country in Keys(reg)
      && (KnownRegionHint(reg, regionHint) ==> info.country == regionHint.value)
      && (info.carrier in CarrierInfo.GetCarriersByRegion(reg, info.country) ||
          (info.carrier == "Unknown" && CarrierInfo.GetCarriersByRegion(reg, info.country) == []))
      && Checksum.LuhnValid(info.imei)
      && ImsiMcc(reg, info.country) <= info.imsi
  {
    var info := GenerateDeviceInfo(cat, reg, modelHint, regionHint, carrierHint, d);
    var model := GenerateModel(cat, modelHint, d.brandPick, d.modelPick);
    var location := GenerateLocation(reg, regionHint, d.regionPick);
    var carrier := GenerateCarrier(reg, location.0, carrierHint, d.carrierPick);
    assert info.model == model && info.country == location.0 && info.region == location.1 && info.carrier == carrier;
    assert info.imei == GenerateImei(cat, model, d.tacPick, d.serial);
    assert info.imsi == GenerateImsi(reg, location.0, carrier, d.mncPick, d.mncWide, d.mncDraw, d.msinDraws);
  }

  /** The fields drawn independently of the model and region: a colon-separated MAC
      that parses back to its octets, a 16-character Android ID, a listed system
      version and network type, a "WiFi_" SSID of 9 characters, Faker's IPv4, both
      sensor readings and the coordinates. */
  lemma GeneratedAuxiliaries(
    cat: DeviceModels.ModelTable, reg: CarrierInfo.CarrierTable,
    modelHint: Option<string>, regionHint: Option<string>, carrierHint: Option<string>, d: Draws
  )
    requires Feasible(cat, reg, modelHint, regionHint, carrierHint, d)
    ensures var info := GenerateDeviceInfo(cat, reg, modelHint, regionHint, carrierHint, d);
      && MacFormat(info.macAddress) && ParseColonHex(info.macAddress) == d.macOctets
      && |info.androidId| == 16
      && (forall i :: 0 <= i < 16 ==> info.androidId[i] == LowerHexDigits[d.androidPicks[i]])
      && info.systemVersion in SystemVersions && info.networkType in NetworkTypes
      && |info.ssid| == 9 && info.ssid[..5] == "WiFi_"
      && info.ipAddress == d.fakerIpv4
      && info.accelerometerData == Some(d.accelerometer) && info.gyroscopeData == Some(d.gyroscope)
      && info.latitude == d.latitude && info.longitude == d.longitude
  {
  }

  /** The phone number has the format of the record's own region: Faker's number when
      the region has no prefixes, otherwise its calling code, one of its prefixes and
      the region's count of drawn digits. The app version is the three drawn numbers. */
  lemma GeneratedContact(
    cat: DeviceModels.ModelTable, reg: CarrierInfo.CarrierTable,
    modelHint: Option<string>, regionHint: Option<string>, carrierHint: Option<string>, d: Draws
  )
    requires Feasible(cat, reg, modelHint, regionHint, carrierHint, d)
    ensures var info := GenerateDeviceInfo(cat, reg, modelHint, regionHint, carrierHint, d);
      var prefixes := CarrierInfo.GetPhonePrefixByRegion(reg, info.country);
      && (prefixes == [] ==> info.phoneNumber == d.fakerMsisdn)
      && (prefixes != [] && info.country == "China" ==> NumberShape(info.phoneNumber, "+86", prefixes, 8))
      && (prefixes != [] && (info.country == "Hong Kong" || info.country == "Macao") ==>
            NumberShape(info.phoneNumber, "+852", prefixes, 7))
      && (prefixes != [] && info.country == "Taiwan" ==> NumberShape(info.phoneNumber, "+886", prefixes, 8))
      && (prefixes != [] && info.country == "USA" ==> NumberShape(info.phoneNumber, "+1", prefixes, 7))
      && (prefixes != [] && info.country == "China" ==>
            DialledFrom(info.phoneNumber, "+86", prefixes[d.prefixPick], d.phoneTail[..8]))
      && (prefixes != [] && (info.country == "Hong Kong" || info.country == "Macao") ==>
            DialledFrom(info.phoneNumber, "+852", prefixes[d.prefixPick], d.phoneTail[..7]))
      && (prefixes != [] && info.country == "Taiwan" ==>
            DialledFrom(info.phoneNumber, "+886", prefixes[d.prefixPick], d.phoneTail[..8]))
      && (prefixes != [] && info.country == "USA" ==>
            DialledFrom(info.phoneNumber, "+1", prefixes[d.prefixPick], d.phoneTail[..7]))
      && info.appVersion == GenerateAppVersion(d.major, d.minor, d.patch)
  {
    var info := GenerateDeviceInfo(cat, reg, modelHint, regionHint, carrierHint, d);
    var country := GenerateLocation(reg, regionHint, d.regionPick).0;
    assert info.country == country;
    assert info.phoneNumber == GeneratePhoneNumber(reg, country, d.prefixPick, d.phoneTail, d.fakerMsisdn);
  }

  /** Over a well-formed catalogue, every draw sequence that respects the `randint`
      ranges also yields a digit TAC, so only the index bounds constrain the draws. */
  lemma WellFormedCatalogueTac(cat: DeviceModels.ModelTable, model: string, tacPick: nat)
    requires DeviceModels.WellFormed(cat)
    requires TacMiss(cat, model) && |DeviceModels.GetAllTacs(cat)| > 0 ==> tacPick < |DeviceModels.GetAllTacs(cat)|
    ensures IsDigits(SelectTac(cat, model, tacPick))
    ensures |SelectTac(cat, model, tacPick)| == 8
  {
    SelectTacValid(cat, model, tacPick);
  }

  /** Over a well-formed catalogue the IMEI has 15 digits, is Luhn-valid, and starts
      with the TAC registered for the model whenever there is one. */
  lemma GeneratedImei(
    cat: DeviceModels.ModelTable, reg: CarrierInfo.CarrierTable,
    modelHint: Option<string>, regionHint: Option<string>, carrierHint: Option<string>, d: Draws
  )
    requires DeviceModels.WellFormed(cat)
    requires Feasible(cat, reg, modelHint, regionHint, carrierHint, d)
    ensures var info := GenerateDeviceInfo(cat, reg, modelHint, regionHint, carrierHint, d);
      var key := ImeiLookupKey(info.model);
      && |info.imei| == 15 && IsDigits(info.imei) && Checksum.LuhnValid(info.imei)
      && (!TacMiss(cat, info.model) ==> DeviceModels.GetTacByBrandAndModel(cat, key.0, key.1) == Some(info.imei[..8]))
  {
    var info := GenerateDeviceInfo(cat, reg, modelHint, regionHint, carrierHint, d);
    var model := GenerateModel(cat, modelHint, d.brandPick, d.modelPick);
    assert info.model == model;
    assert info.imei == GenerateImei(cat, model, d.tacPick, d.serial);
    SelectTacValid(cat, model, d.tacPick);
  }

  /** Over a well-formed registry the IMSI has 15 digits, starts with the region's
      registered MCC, and continues with an MNC of the chosen carrier whenever the
      carrier has any. */
  lemma GeneratedImsi(
    cat: DeviceModels.ModelTable, reg: CarrierInfo.CarrierTable,
    modelHint: Option<string>, regionHint: Option<string>, carrierHint: Option<string>, d: Draws
  )
    requires CarrierInfo.WellFormed(reg)
    requires Feasible(cat, reg, modelHint, regionHint, carrierHint, d)
    ensures var info := GenerateDeviceInfo(cat, reg, modelHint, regionHint, carrierHint, d);
      && |info.imsi| == 15 && IsDigits(info.imsi)
      && CarrierInfo.GetMccByRegion(reg, info.country) == Some(info.imsi[..3])
      && (|CarrierInfo.GetMncByCarrier(reg, info.country, info.carrier)| > 0 ==>
            exists m :: m in CarrierInfo.GetMncByCarrier(reg, info.country, info.carrier) && m <= info.imsi[3..])
      && (SpellsDraws(info.imsi[5..], d.msinDraws) || SpellsDraws(info.imsi[6..], d.msinDraws))
  {
    var info := GenerateDeviceInfo(cat, reg, modelHint, regionHint, carrierHint, d);
    var country := GenerateLocation(reg, regionHint, d.regionPick).0;
    var carrier := GenerateCarrier(reg, country, carrierHint, d.carrierPick);
    assert info.country == country && info.carrier == carrier;
    assert info.imsi == GenerateImsi(reg, country, carrier, d.mncPick, d.mncWide, d.mncDraw, d.msinDraws);
    ImsiParts(reg, country, carrier, d.mncPick, d.mncWide, d.mncDraw, d.msinDraws);
  }

  lemma ImsiParts(
    reg: CarrierInfo.CarrierTable, country: string, carrier: string,
    mncPick: nat, mncWide: bool, mncDraw: nat, msinDraws: seq<nat>
  )
    requires CarrierInfo.WellFormed(reg) && country in Keys(reg)
    requires |CarrierInfo.GetMncByCarrier(reg, country, carrier)| > 0 ==>
      mncPick < |CarrierInfo.GetMncByCarrier(reg, country, carrier)|
    requires if mncWide then mncDraw <= 999 else mncDraw <= 99
    requires |msinDraws| >= 15 && forall i :: 0 <= i < |msinDraws| ==> msinDraws[i] < 10
    ensures var imsi := GenerateImsi(reg, country, carrier, mncPick, mncWide, mncDraw, msinDraws);
      && |imsi| == 15 && IsDigits(imsi)
      && CarrierInfo.GetMccByRegion(reg, country) == Some(imsi[..3])
      && (|CarrierInfo.GetMncByCarrier(reg, country, carrier)| > 0 ==>
            exists m :: m in CarrierInfo.GetMncByCarrier(reg, country, carrier) && m <= imsi[3..])
      && (SpellsDraws(imsi[5..], msinDraws) || SpellsDraws(imsi[6..], msinDraws))
  {
    ImsiShape(reg, country, carrier, mncPick, mncWide, mncDraw, msinDraws);
    ImsiPrefixes(reg, country, carrier, mncPick, mncWide, mncDraw, msinDraws);
    ImsiMsin(reg, country, carrier, mncPick, mncWide, mncDraw, msinDraws);
  }

  /** After the three MCC digits and a two- or three-digit MNC, the IMSI reads back
      the MSIN draws. */
  lemma ImsiMsin(
    reg: CarrierInfo.CarrierTable, country: string, carrier: string,
    mncPick: nat, mncWide: bool, mncDraw: nat, msinDraws: seq<nat>
  )
    requires CarrierInfo.WellFormed(reg) && country in Keys(reg)
    requires |CarrierInfo.GetMncByCarrier(reg, country, carrier)| > 0 ==>
      mncPick < |CarrierInfo.GetMncByCarrier(reg, country, carrier)|
    requires if mncWide then mncDraw <= 999 else mncDraw <= 99
    requires |msinDraws| >= 15 && forall i :: 0 <= i < |msinDraws| ==> msinDraws[i] < 10
    ensures var imsi := GenerateImsi(reg, country, carrier, mncPick, mncWide, mncDraw, msinDraws);
      SpellsDraws(imsi[5..], msinDraws) || SpellsDraws(imsi[6..], msinDraws)
  {
    var mcc := ImsiMcc(reg, country);
    var mnc := ImsiMnc(reg, country, carrier, mncPick, mncWide, mncDraw);
    ImsiMccRegistered(reg, country);
    ImsiMncValid(reg, country, carrier, mncPick, mncWide, mncDraw);
    assert |mcc| == 3 && 2 <= |mnc| <= 3;
  }

  lemma ImsiShape(
    reg: CarrierInfo.CarrierTable, country: string, carrier: string,
    mncPick: nat, mncWide: bool, mncDraw: nat, msinDraws: seq<nat>
  )
    requires CarrierInfo.WellFormed(reg) && country in Keys(reg)
    requires |CarrierInfo.GetMncByCarrier(reg, country, carrier)| > 0 ==>
      mncPick < |CarrierInfo.GetMncByCarrier(reg, country, carrier)|
    requires if mncWide then mncDraw <= 999 else mncDraw <= 99
    requires |msinDraws| >= 15 && forall i :: 0 <= i < |msinDraws| ==> msinDraws[i] < 10
    ensures var imsi := GenerateImsi(reg, country, carrier, mncPick, mncWide, mncDraw, msinDraws);
      |imsi| == 15 && IsDigits(imsi)
  {
    ImsiMccRegistered(reg, country);
    ImsiMncValid(reg, country, carrier, mncPick, mncWide, mncDraw);
  }

  lemma ImsiPrefixes(
    reg: CarrierInfo.CarrierTable, country: string, carrier: string,
    mncPick: nat, mncWide: bool, mncDraw: nat, msinDraws: seq<nat>
  )
    requires CarrierInfo.WellFormed(reg) && country in Keys(reg)
    requires |CarrierInfo.GetMncByCarrier(reg, country, carrier)| > 0 ==>
      mncPick < |CarrierInfo.GetMncByCarrier(reg, country, carrier)|
    requires if mncWide then mncDraw <= 999 else mncDraw <= 99
    requires |msinDraws| >= 15 && forall i :: 0 <= i < |msinDraws| ==> msinDraws[i] < 10
    ensures var imsi := GenerateImsi(reg, country, carrier, mncPick, mncWide, mncDraw, msinDraws);
      && CarrierInfo.GetMccByRegion(reg, country) == Some(imsi[..3])
      && (|CarrierInfo.GetMncByCarrier(reg, country, carrier)| > 0 ==>
            exists m :: m in CarrierInfo.GetMncByCarrier(reg, country, carrier) && m <= imsi[3..])
  {
    ImsiMccPrefix(reg, country, carrier, mncPick, mncWide, mncDraw, msinDraws);
    if |CarrierInfo.GetMncByCarrier(reg, country, carrier)| > 0 {
      ImsiMncPrefix(reg, country, carrier, mncPick, mncWide, mncDraw, msinDraws);
    }
  }

  /** The IMSI opens with the region's registered three-digit MCC. */
  lemma ImsiMccPrefix(
    reg: CarrierInfo.CarrierTable, country: string, carrier: string,
    mncPick: nat, mncWide: bool, mncDraw: nat, msinDraws: seq<nat>
  )
    requires CarrierInfo.WellFormed(reg) && country in Keys(reg)
    requires |CarrierInfo.GetMncByCarrier(reg, country, carrier)| > 0 ==>
      mncPick < |CarrierInfo.GetMncByCarrier(reg, country, carrier)|
    requires if mncWide then mncDraw <= 999 else mncDraw <= 99
    requires |msinDraws| >= 15 && forall i :: 0 <= i < |msinDraws| ==> msinDraws[i] < 10
    ensures var imsi := GenerateImsi(reg, country, carrier, mncPick, mncWide, mncDraw, msinDraws);
      |imsi| >= 3 && CarrierInfo.GetMccByRegion(reg, country) == Some(imsi[..3])
  {
    var imsi := GenerateImsi(reg, country, carrier, mncPick, mncWide, mncDraw, msinDraws);
    var mcc := ImsiMcc(reg, country);
    ImsiMccRegistered(reg, country);
    assert |mcc| == 3 && imsi[..|mcc|] == mcc;
  }

  /** After the MCC, the IMSI continues with the drawn one of the carrier's MNCs. */
  lemma ImsiMncPrefix(
    reg: CarrierInfo.CarrierTable, country: string, carrier: string,
    mncPick: nat, mncWide: bool, mncDraw: nat, msinDraws: seq<nat>
  )
    requires CarrierInfo.WellFormed(reg) && country in Keys(reg)
    requires |CarrierInfo.GetMncByCarrier(reg, country, carrier)| > 0
    requires mncPick < |CarrierInfo.GetMncByCarrier(reg, country, carrier)|
    requires if mncWide then mncDraw <= 999 else mncDraw <= 99
    requires |msinDraws| >= 15 && forall i :: 0 <= i < |msinDraws| ==> msinDraws[i] < 10
    ensures var imsi := GenerateImsi(reg, country, carrier, mncPick, mncWide, mncDraw, msinDraws);
      |imsi| >= 3 && CarrierInfo.GetMncByCarrier(reg, country, carrier)[mncPick] <= imsi[3..]
  {
    var imsi := GenerateImsi(reg, country, carrier, mncPick, mncWide, mncDraw, msinDraws);
    var mnc := ImsiMnc(reg, country, carrier, mncPick, mncWide, mncDraw);
    ImsiMccRegistered(reg, country);
    assert |ImsiMcc(reg, country)| == 3;
    SliceIsPrefix(imsi, 3, mnc);
  }

  /** A slice starting at `a` is a prefix of the suffix from `a`. */
  lemma SliceIsPrefix(s: string, a: nat, m: string)
    requires a + |m| <= |s| && s[a..a + |m|] == m
    ensures m <= s[a..]
  {
    assert s[a..][..|m|] == m;
  }

  /** In a well-formed registry a known region's MCC is used, never the "000" stand-in. */
  lemma ImsiMccRegistered(reg: CarrierInfo.CarrierTable, country: string)
    requires CarrierInfo.WellFormed(reg) && country in Keys(reg)
    ensures CarrierInfo.GetMccByRegion(reg, country) == Some(ImsiMcc(reg, country))
    ensures CarrierInfo.ValidMcc(ImsiMcc(reg, country))
  {
    CarrierInfo.MccLookupValid(reg, country);
  }

  /** In a well-formed registry the MNC has two or three digits, registered or drawn. */
  lemma ImsiMncValid(reg: CarrierInfo.CarrierTable, country: string, carrier: string, pick: nat, wide: bool, draw: nat)
    requires CarrierInfo.WellFormed(reg)
    requires |CarrierInfo.GetMncByCarrier(reg, country, carrier)| > 0 ==> pick < |CarrierInfo.GetMncByCarrier(reg, country, carrier)|
    requires if wide then draw <= 999 else draw <= 99
    ensures var mnc := ImsiMnc(reg, country, carrier, pick, wide, draw);
      IsDigits(mnc) && 2 <= |mnc| <= 3
  {
    var mncs := CarrierInfo.GetMncByCarrier(reg, country, carrier);
    var mnc := ImsiMnc(reg, country, carrier, pick, wide, draw);
    CarrierInfo.MncLookupValid(reg, country, carrier);
    if |mncs| > 0 {
      var j :| 0 <= j < |mncs| && mncs[j] == mnc;
      assert CarrierInfo.ValidMnc(mncs[j]);
    }
  }

  // ---------------------------------------------------------------------------
  // The shipped tables
  // ---------------------------------------------------------------------------

  /** `phone` is the calling code `code` followed by a national number of `n` digits. */
  predicate NationalNumber(phone: string, code: string, n: nat) {
    |phone| == |code| + n && phone[..|code|] == code && IsDigits(phone[|code|..])
  }

  predicate PrefixesOfLength(prefixes: seq<string>, k: nat) {
    forall i :: 0 <= i < |prefixes| ==> |prefixes[i]| == k && IsDigits(prefixes[i])
  }

  lemma NumberShapeNational(phone: string, code: string, prefixes: seq<string>, n: nat, k: nat)
    requires NumberShape(phone, code, prefixes, n) && PrefixesOfLength(prefixes, k)
    ensures NationalNumber(phone, code, k + n)
  {
    var p :| p in prefixes && |phone| == |code| + |p| + n && phone[..|code|] == code &&
      phone[|code|..|code| + |p|] == p && IsDigits(phone[|code| + |p|..]);
    var rest := phone[|code|..];
    assert rest == p + phone[|code| + |p|..];
    DigitsConcat(p, phone[|code| + |p|..]);
  }

  /** With the shipped registry every region gets a national number of its own
      length: 11 digits after +86 for China, 8 after +852 for Hong Kong and Macao
      (Macao numbers carry Hong Kong's +852 as written), 10 after +886 for Taiwan and
      10 after +1 for the USA. */
  lemma ShippedPhoneNumbers(country: string, prefixPick: nat, tail: seq<nat>, fakerMsisdn: string)
    requires country in Keys(CarrierInfo.CarrierInfoTable)
    requires prefixPick < |CarrierInfo.GetPhonePrefixByRegion(CarrierInfo.CarrierInfoTable, country)|
    requires |tail| >= 8 && forall i :: 0 <= i < |tail| ==> tail[i] < 10
    ensures var phone := GeneratePhoneNumber(CarrierInfo.CarrierInfoTable, country, prefixPick, tail, fakerMsisdn);
      && (country == "China" ==> NationalNumber(phone, "+86", 11))
      && (country == "Hong Kong" ==> NationalNumber(phone, "+852", 8))
      && (country == "Macao" ==> NationalNumber(phone, "+852", 8))
      && (country == "Taiwan" ==> NationalNumber(phone, "+886", 10))
      && (country == "USA" ==> NationalNumber(phone, "+1", 10))
  {
    if country == "China" {
      ChinaPhoneNumber(prefixPick, tail, fakerMsisdn);
    } else if country == "Hong Kong" {
      HongKongPhoneNumber(prefixPick, tail, fakerMsisdn);
    } else if country == "Macao" {
      MacaoPhoneNumber(prefixPick, tail, fakerMsisdn);
    } else if country == "Taiwan" {
      TaiwanPhoneNumber(prefixPick, tail, fakerMsisdn);
    } else if country == "USA" {
      UsaPhoneNumber(prefixPick, tail, fakerMsisdn);
    }
  }

  // One lemma per shipped region, with the region's dialling code, prefix length
  // and drawn-digit count.

  lemma ChinaPhoneNumber(prefixPick: nat, tail: seq<nat>, fakerMsisdn: string)
    requires prefixPick < |CarrierInfo.GetPhonePrefixByRegion(CarrierInfo.CarrierInfoTable, "China")|
    requires |tail| >= 8 && forall i :: 0 <= i < |tail| ==> tail[i] < 10
    ensures NationalNumber(GeneratePhoneNumber(CarrierInfo.CarrierInfoTable, "China", prefixPick, tail, fakerMsisdn), "+86", 11)
  {
    ShippedPrefixes();
    NumberShapeNational(GeneratePhoneNumber(CarrierInfo.CarrierInfoTable, "China", prefixPick, tail, fakerMsisdn),
      "+86", CarrierInfo.GetPhonePrefixByRegion(CarrierInfo.CarrierInfoTable, "China"), 8, 3);
  }

  lemma HongKongPhoneNumber(prefixPick: nat, tail: seq<nat>, fakerMsisdn: string)
    requires prefixPick < |CarrierInfo.GetPhonePrefixByRegion(CarrierInfo.CarrierInfoTable, "Hong Kong")|
    requires |tail| >= 8 && forall i :: 0 <= i < |tail| ==> tail[i] < 10
    ensures NationalNumber(GeneratePhoneNumber(CarrierInfo.CarrierInfoTable, "Hong Kong", prefixPick, tail, fakerMsisdn), "+852", 8)
  {
    ShippedPrefixes();
    NumberShapeNational(GeneratePhoneNumber(CarrierInfo.CarrierInfoTable, "Hong Kong", prefixPick, tail, fakerMsisdn),
      "+852", CarrierInfo.GetPhonePrefixByRegion(CarrierInfo.CarrierInfoTable, "Hong Kong"), 7, 1);
  }

  lemma MacaoPhoneNumber(prefixPick: nat, tail: seq<nat>, fakerMsisdn: string)
    requires prefixPick < |CarrierInfo.GetPhonePrefixByRegion(CarrierInfo.CarrierInfoTable, "Macao")|
    requires |tail| >= 8 && forall i :: 0 <= i < |tail| ==> tail[i] < 10
    ensures NationalNumber(GeneratePhoneNumber(CarrierInfo.CarrierInfoTable, "Macao", prefixPick, tail, fakerMsisdn), "+852", 8)
  {
    ShippedPrefixes();
    NumberShapeNational(GeneratePhoneNumber(CarrierInfo.CarrierInfoTable, "Macao", prefixPick, tail, fakerMsisdn),
      "+852", CarrierInfo.GetPhonePrefixByRegion(CarrierInfo.CarrierInfoTable, "Macao"), 7, 1);
  }

  lemma TaiwanPhoneNumber(prefixPick: nat, tail: seq<nat>, fakerMsisdn: string)
    requires prefixPick < |CarrierInfo.GetPhonePrefixByRegion(CarrierInfo.CarrierInfoTable, "Taiwan")|
    requires |tail| >= 8 && forall i :: 0 <= i < |tail| ==> tail[i] < 10
    ensures NationalNumber(GeneratePhoneNumber(CarrierInfo.CarrierInfoTable, "Taiwan", prefixPick, tail, fakerMsisdn), "+886", 10)
  {
    ShippedPrefixes();
    NumberShapeNational(GeneratePhoneNumber(CarrierInfo.CarrierInfoTable, "Taiwan", prefixPick, tail, fakerMsisdn),
      "+886", CarrierInfo.GetPhonePrefixByRegion(CarrierInfo.CarrierInfoTable, "Taiwan"), 8, 2);
  }

  lemma UsaPhoneNumber(prefixPick: nat, tail: seq<nat>, fakerMsisdn: string)
    requires prefixPick < |CarrierInfo.GetPhonePrefixByRegion(CarrierInfo.CarrierInfoTable, "USA")|
    requires |tail| >= 8 && forall i :: 0 <= i < |tail| ==> tail[i] < 10
    ensures NationalNumber(GeneratePhoneNumber(CarrierInfo.CarrierInfoTable, "USA", prefixPick, tail, fakerMsisdn), "+1", 10)
  {
    ShippedPrefixes();
    NumberShapeNational(GeneratePhoneNumber(CarrierInfo.CarrierInfoTable, "USA", prefixPick, tail, fakerMsisdn),
      "+1", CarrierInfo.GetPhonePrefixByRegion(CarrierInfo.CarrierInfoTable, "USA"), 7, 3);
  }

  /** The prefix lists of the shipped registry, region by region. */
  lemma ShippedPrefixes()
    ensures var t := CarrierInfo.CarrierInfoTable;
      && PrefixesOfLength(CarrierInfo.GetPhonePrefixByRegion(t, "China"), 3)
      && PrefixesOfLength(CarrierInfo.GetPhonePrefixByRegion(t, "Hong Kong"), 1)
      && PrefixesOfLength(CarrierInfo.GetPhonePrefixByRegion(t, "Macao"), 1)
      && PrefixesOfLength(CarrierInfo.GetPhonePrefixByRegion(t, "Taiwan"), 2)
      && PrefixesOfLength(CarrierInfo.GetPhonePrefixByRegion(t, "USA"), 3)
  {
    var t := CarrierInfo.CarrierInfoTable;
    CarrierInfo.CarrierInfoTableWellFormed();
    assert t[0].0 == "China" && t[1].0 == "Hong Kong" && t[2].0 == "Macao" && t[3].0 == "Taiwan" && t[4].0 == "USA";
    assert PrefixesOfLength(CarrierInfo.China.phonePrefix, 3);
    assert PrefixesOfLength(CarrierInfo.HongKong.phonePrefix, 1);
    assert PrefixesOfLength(CarrierInfo.Macao.phonePrefix, 1);
    assert PrefixesOfLength(CarrierInfo.Taiwan.phonePrefix, 2);
    UsaPrefixLengths();
  }

  lemma UsaPrefixLengths()
    ensures PrefixesOfLength(CarrierInfo.Usa.phonePrefix, 3)
  {
    var u := CarrierInfo.Usa.phonePrefix;
    assert PrefixesOfLength(CarrierInfo.UsaPrefixes0, 3);
    assert PrefixesOfLength(CarrierInfo.UsaPrefixes1, 3);
    assert PrefixesOfLength(CarrierInfo.UsaPrefixes2, 3);
    assert PrefixesOfLength(CarrierInfo.UsaPrefixes3, 3);
    assert u == CarrierInfo.UsaPrefixes0 + CarrierInfo.UsaPrefixes1 + CarrierInfo.UsaPrefixes2 + CarrierInfo.UsaPrefixes3;
  }
}

=== FILE: models.dfy ===
/** The `DeviceInfo` record of `src/core/models.py`: one simulated device identity,
    produced by the generator and read by the directive mapper.
 */
module Models {
  import opened Text

  /** A Python float, carried as the text `str()` renders it to; the directive
      mapper only ever interpolates floats into directive text. */
  datatype Float = Float(text: string)

  /** An `{"x": .., "y": .., "z": ..}` sensor reading. */
  datatype Axes = Axes(x: Float, y: Float, z: Float)

  datatype DeviceInfo = DeviceInfo(
    model: string,
    imei: string,
    imsi: string,
    macAddress: string,
    androidId: string,
    appVersion: string,
    systemVersion: string,
    ssid: string,
    ipAddress: string,
    networkType: string,
    accelerometerData: Option<Axes>,
    gyroscopeData: Option<Axes>,
    latitude: Float,
    longitude: Float,
    country: string,
    region: string,
    carrier: string,
    phoneNumber: string)

  /** The float `0.0`, as Python prints it. */
  const Zero: Float := Float("0.0")

  /** `DeviceInfo()`: every string field "", both sensor readings absent, and both
      coordinates 0.0. */
  const DefaultDeviceInfo: DeviceInfo :=
    DeviceInfo("", "", "", "", "", "", "", "", "", "", None, None, Zero, Zero, "", "", "", "")
}

=== FILE: text.dfy ===
/** Character and string primitives the identity generator and the directive mapper
    share: decimal digits, Python's substring operator `sub in s`, `s.split(" ", 1)`,
    `str(n)` for a natural number and the zero-padded format `f"{n:0{w}d}"`, and
    lower/upper-case hexadecimal digits.
 */
module Text {

  /** Python's `None` / a present value. */
  datatype Option<T> = None | Some(value: T)

  // ---------------------------------------------------------------------------
  // Decimal digits
  // ---------------------------------------------------------------------------

  predicate IsDigit(c: char) {
    '0' <= c <= '9'
  }

  /** Every character is one of '0'..'9' (the empty string qualifies). */
  predicate IsDigits(s: string) {
    forall i :: 0 <= i < |s| ==> IsDigit(s[i])
  }

  /** Python's `int(c)` on one decimal digit. */
  function DigitValue(c: char): (d: nat)
    requires IsDigit(c)
    ensures d < 10
  {
    c as int - '0' as int
  }

  /** Python's `str(d)` on one decimal digit; the inverse of `DigitValue`. */
  function DigitChar(d: nat): (c: char)
    requires d < 10
    ensures IsDigit(c) && DigitValue(c) == d
  {
    ('0' as int + d) as char
  }

  /** Concatenating two digit strings gives a digit string. */
  lemma DigitsConcat(a: string, b: string)
    requires IsDigits(a) && IsDigits(b)
    ensures IsDigits(a + b)
  {
  }

  /** The digit string whose i-th character renders the i-th decimal draw:
      `''.join(str(random.randint(0, 9)) for _ in ...)` with the draws made explicit. */
  /** `s` is a decimal numeral whose characters, in order, read back the first `|s|`
      digits drawn in `draws`. */
  predicate SpellsDraws(s: string, draws: seq<nat>) {
    |s| <= |draws| && forall i :: 0 <= i < |s| ==> IsDigit(s[i]) && DigitValue(s[i]) == draws[i]
  }

  function DigitString(draws: seq<nat>): (s: string)
    requires forall i :: 0 <= i < |draws| ==> draws[i] < 10
    ensures |s| == |draws| && IsDigits(s)
    ensures forall i :: 0 <= i < |draws| ==> DigitValue(s[i]) == draws[i]
  {
    if |draws| == 0 then "" else [DigitChar(draws[0])] + DigitString(draws[1..])
  }

  /** The numeral rendered from the first `k` draws spells those draws. */
  lemma DigitStringSpells(draws: seq<nat>, k: nat)
    requires k <= |draws| && forall i :: 0 <= i < |draws| ==> draws[i] < 10
    ensures SpellsDraws(DigitString(draws[..k]), draws)
  {
    var s := DigitString(draws[..k]);
    assert forall i :: 0 <= i < k ==> draws[..k][i] == draws[i];
  }

  // ---------------------------------------------------------------------------
  // Decimal numerals
  // ---------------------------------------------------------------------------

  function Pow10(k: nat): (p: nat)
    ensures p >= 1
  {
    if k == 0 then 1 else 10 * Pow10(k - 1)
  }

  /** The value of a decimal numeral, most significant digit first; "" reads as 0. */
  function ParseDecimal(s: string): nat
    requires IsDigits(s)
  {
    if |s| == 0 then 0 else ParseDecimal(s[..|s| - 1]) * 10 + DigitValue(s[|s| - 1])
  }

  /** Python's `str(n)` for a natural number: no sign, no leading zero, and it reads
      back as `n`. */
  function NatToString(n: nat): (s: string)
    ensures |s| >= 1 && IsDigits(s)
    ensures ParseDecimal(s) == n
    ensures |s| > 1 ==> s[0] != '0'
    decreases n
  {
    if n < 10 then [DigitChar(n)]
    else
      var high := NatToString(n / 10);
      var s := high + [DigitChar(n % 10)];
      assert s[..|s| - 1] == high;
      s
  }

  /** A numeral below 10^w takes at most w digits (w >= 1). */
  lemma {:induction false} NatToStringLength(n: nat, w: nat)
    requires 1 <= w && n < Pow10(w)
    ensures |NatToString(n)| <= w
    decreases n
  {
    if n >= 10 {
      assert Pow10(1) == 10;
      assert n / 10 < Pow10(w - 1);
      NatToStringLength(n / 10, w - 1);
    }
  }

  lemma NatToStringFits(n: nat, w: nat)
    ensures 1 <= w && n < Pow10(w) ==> |NatToString(n)| <= w
  {
    if 1 <= w && n < Pow10(w) {
      NatToStringLength(n, w);
    }
  }

  /** A numeral of at least 10^w takes more than w digits. */
  lemma {:induction false} NatToStringMinLength(n: nat, w: nat)
    requires Pow10(w) <= n
    ensures |NatToString(n)| > w
    decreases w
  {
    if w > 0 {
      assert n >= 10;
      assert Pow10(w - 1) <= n / 10;
      NatToStringMinLength(n / 10, w - 1);
    }
  }

  function Zeros(k: nat): (s: string)
    ensures |s| == k && IsDigits(s) && forall i :: 0 <= i < k ==> s[i] == '0'
  {
    if k == 0 then "" else "0" + Zeros(k - 1)
  }

  /** Leading zeros do not change the value of a numeral. */
  lemma {:induction false} LeadingZeros(k: nat, t: string)
    requires IsDigits(t)
    ensures IsDigits(Zeros(k) + t) && ParseDecimal(Zeros(k) + t) == ParseDecimal(t)
    decreases |t|
  {
    var s := Zeros(k) + t;
    if |t| == 0 {
      assert s == Zeros(k);
      ZerosValue(k);
    } else {
      var t' := t[..|t| - 1];
      assert s[..|s| - 1] == Zeros(k) + t';
      LeadingZeros(k, t');
    }
  }

  lemma {:induction false} ZerosValue(k: nat)
    ensures ParseDecimal(Zeros(k)) == 0
  {
    if k > 0 {
      var z := Zeros(k);
      assert z[..k - 1] == Zeros(k - 1);
      ZerosValue(k - 1);
    }
  }

  /** Python's `f"{n:0{width}d}"`: the numeral of `n`, left-padded with zeros to
      `width` characters. It reads back as `n`, and a value below 10^width fills
      exactly `width` characters. */
  function ZeroPad(n: nat, width: nat): (s: string)
    ensures IsDigits(s) && ParseDecimal(s) == n
    ensures 1 <= width && n < Pow10(width) ==> |s| == width
    ensures |s| >= width
  {
    var digits := NatToString(n);
    NatToStringFits(n, width);
    if |digits| >= width then digits
    else
      LeadingZeros(width - |digits|, digits);
      Zeros(width - |digits|) + digits
  }

  // ---------------------------------------------------------------------------
  // Hexadecimal digits
  // ---------------------------------------------------------------------------

  const LowerHexDigits: string := "0123456789abcdef"
  const UpperHexDigits: string := "0123456789ABCDEF"

  predicate IsLowerHex(c: char) {
    '0' <= c <= '9' || 'a' <= c <= 'f'
  }

  predicate IsUpperHex(c: char) {
    '0' <= c <= '9' || 'A' <= c <= 'F'
  }

  /** The value of one lower-case hexadecimal digit. */
  function LowerHexValue(c: char): (v: nat)
    requires IsLowerHex(c)
    ensures v < 16
  {
    if '0' <= c <= '9' then c as int - '0' as int else c as int - 'a' as int + 10
  }

  /** The lower-case hexadecimal digit of a value below 16; the inverse of
      `LowerHexValue`. */
  function LowerHexChar(v: nat): (c: char)
    requires v < 16
    ensures IsLowerHex(c) && LowerHexValue(c) == v
  {
    if v < 10 then ('0' as int + v) as char else ('a' as int + v - 10) as char
  }

  /** Python's `f"{x:02x}"` for one byte: two lower-case hex digits that read back
      as `x`. */
  function HexOctet(x: nat): (s: string)
    requires x < 256
    ensures |s| == 2 && IsLowerHex(s[0]) && IsLowerHex(s[1])
    ensures LowerHexValue(s[0]) * 16 + LowerHexValue(s[1]) == x
  {
    [LowerHexChar(x / 16), LowerHexChar(x % 16)]
  }

  /** `''.join(random.choices(alphabet, k=|picks|))` with the draws made explicit:
      the i-th character is the alphabet entry the i-th draw selects. */
  function Choices(alphabet: string, picks: seq<nat>): (s: string)
    requires forall i :: 0 <= i < |picks| ==> picks[i] < |alphabet|
    ensures |s| == |picks|
    ensures forall i :: 0 <= i < |picks| ==> s[i] == alphabet[picks[i]]
  {
    if |picks| == 0 then "" else [alphabet[picks[0]]] + Choices(alphabet, picks[1..])
  }

  // ---------------------------------------------------------------------------
  // Substrings and splitting
  // ---------------------------------------------------------------------------

  /** `sub` occurs in `s` starting at index `i`. */
  predicate OccursAt(s: string, sub: string, i: nat) {
    i + |sub| <= |s| && s[i..i + |sub|] == sub
  }

  /** Python's `sub in s`: `sub` is a prefix of `s` or of one of its suffixes. */
  predicate Contains(s: string, sub: string)
    decreases |s|
  {
    sub <= s || (|s| > 0 && Contains(s[1..], sub))
  }

  /** `Contains` holds exactly when `sub` occurs at some index of `s`. */
  lemma {:induction false} ContainsIffOccurs(s: string, sub: string)
    ensures Contains(s, sub) <==> exists i: nat :: OccursAt(s, sub, i)
    decreases |s|
  {
    if sub <= s {
      assert OccursAt(s, sub, 0);
    } else if |s| == 0 {
      forall i: nat ensures !OccursAt(s, sub, i) {
      }
    } else {
      ContainsIffOccurs(s[1..], sub);
      if Contains(s[1..], sub) {
        var i: nat :| OccursAt(s[1..], sub, i);
        assert s[i + 1..i + 1 + |sub|] == s[1..][i..i + |sub|];
        assert OccursAt(s, sub, i + 1);
      } else {
        forall i: nat | 0 < i && OccursAt(s, sub, i)
          ensures OccursAt(s[1..], sub, i - 1)
        {
          assert s[1..][i - 1..i - 1 + |sub|] == s[i..i + |sub|];
        }
      }
    }
  }

  /** A string that lacks `sub`'s first character does not contain `sub`. */
  lemma {:induction false} MissingFirstChar(s: string, sub: string)
    requires |sub| > 0 && sub[0] !in s
    ensures !Contains(s, sub)
    decreases |s|
  {
    if |s| > 0 {
      assert s[0] in s;
      assert forall c :: c in s[1..] ==> c in s;
      MissingFirstChar(s[1..], sub);
    }
  }

  /** An occurrence at some index makes `Contains` hold. */
  lemma ContainsAt(s: string, sub: string, i: nat)
    requires OccursAt(s, sub, i)
    ensures Contains(s, sub)
  {
    ContainsIffOccurs(s, sub);
  }

  /** The index of the first occurrence of `c` in `s`. */
  function FirstIndexOf(s: string, c: char): (i: nat)
    requires c in s
    ensures i < |s| && s[i] == c
    ensures forall k :: 0 <= k < i ==> s[k] != c
  {
    if s[0] == c then 0 else FirstIndexOf(s[1..], c) + 1
  }

  /** Python's `s.split(" ", 1)`: the text before the first space and the text after
      it, or `s` alone when it holds no space. */
  function SplitFirstSpace(s: string): (parts: seq<string>)
    ensures |parts| == 1 <==> ' ' !in s
    ensures |parts| == 1 || |parts| == 2
    ensures |parts| == 1 ==> parts[0] == s
    ensures |parts| == 2 ==> parts[0] + " " + parts[1] == s && ' ' !in parts[0]
  {
    if ' ' !in s then [s]
    else
      var i := FirstIndexOf(s, ' ');
      assert s[..i] + " " + s[i + 1..] == s;
      [s[..i], s[i + 1..]]
  }

  /** Splitting "brand model" at its first space recovers the brand and the model when
      the brand holds no space. */
  lemma SplitJoin(brand: string, model: string)
    requires ' ' !in brand
    ensures SplitFirstSpace(brand + " " + model) == [brand, model]
  {
    var s := brand + " " + model;
    assert s[|brand|] == ' ';
    var i := FirstIndexOf(s, ' ');
    assert forall k :: 0 <= k < |brand| ==> s[k] == brand[k];
    assert i == |brand|;
    assert s[..i] == brand;
    assert s[i + 1..] == model;
  }

  /** Appending keeps the earlier elements and puts the new one last. */
  lemma Snoc<T>(s: seq<T>, x: T)
    ensures |s + [x]| == |s| + 1 && (s + [x])[|s|] == x
    ensures forall j :: 0 <= j < |s| ==> (s + [x])[j] == s[j]
  {
  }

  /** Five right-nested appends ending in the empty list are the left-nested
      concatenation. */
  lemma Associate<T>(a: seq<T>, b: seq<T>, c: seq<T>, d: seq<T>, e: seq<T>)
    ensures a + (b + (c + (d + (e + [])))) == a + b + c + d + e
  {
    assert e + [] == e;
  }
}
